=== FILE: README.md ===
# planeshift layer model

planeshift is a Rust library for building trees of native compositor layers.
A `Context` owns the tree as entity-component maps (`LayerMap`s indexed by
`LayerId`) and forwards every tree change to a `Backend`. This project models,
in Dafny, the context and four of its backends.

- **`LayerMaps`** (`layer_map.dfy`): the sparse component store, that is
  `add`, `take`, `remove`, `remove_if_present`, `get`, `get_mut_default` and
  indexing.
- **`Layers`** (`layers.dfy`): the context of `src/lib.rs`:
  - nested transactions and id allocation;
  - `insert_before`, `append_child`, `host_layer`, `remove_from_parent`,
    `delete_layer` and `set_layer_bounds`;
  - runs of calls;
  - the parent chains the backends climb.
- **`SiblingLists`** (`sibling_lists.dfy`): what a consistent doubly-linked
  child list is, and how removal and insertion act on it.
  - Removal splices the child out correctly.
  - `insert_before` as written breaks the list (see Findings).
  - A linked insertion, as evidently intended, keeps the list consistent.
- **`Geometry`** (`geometry.dfy`): points, rectangles, translation, union, and
  the folding of damage into a pending rectangle.
- **`RenderPasses`** and **`GlRender`** (`render_passes.dfy`,
  `gl_render.dfy`): the two drawing passes of the OpenGL compositor's
  `end_transaction`.
  - `RenderPasses` defines the passes over a tree value against a pre-order
    reference.
  - `GlRender` defines them over the components themselves.
- **`GlCompositor`** (`gl_compositor.dfy`): the rest of the OpenGL
  compositor in `src/backends/gl.rs`:
  - `invalidate_layer`;
  - the hooks that damage the tree;
  - hosting;
  - the per-layer framebuffer cache;
  - the screenshot bounds.
- **`RowFlip`** (`row_flip.dfy`): the screenshot's in-place vertical flip.
- **`Wayland`** (`wayland.dfy`): the Wayland backend. This covers:
  - the dirty set;
  - the commit order `end_transaction` builds by climbing parent chains;
  - subsurfaces and hosts;
  - the EGL window and the cached EGL surface.
- **`DirectComposition`** (`direct_composition.dfy`): the Windows backend's
  screenshot decoding (bottom-up BGRA words to top-down RGBA bytes), the
  client-rectangle correction, and `ComPtr::query_interface`.
- **`Alternate`** (`alternate.dfy`): the decorator that is one of two
  backends. It is chosen by the connection. It forwards every call and panics
  on values of the other backend.

`Wrappers` (`wrappers.dfy`) holds `Option`; `Sequences` (`sequences.dfy`) holds `Reverse`.

Operations are pure functions of the state they change. The source's
`debug_assert!`s and unwrapping index operations become preconditions. The
explicit `panic!`s of the decorator and the Wayland commit's unwrap become
outcomes: `Outcome.Panicked` in the decorator, `None` in the Wayland commit.
Calls into OpenGL, EGL, Wayland and Win32 are parameters: the name a call
returns, or whether it succeeded.

## Model

| member | source | states |
|---|---|---|
| LayerMaps.Get | src/lib.rs:458-464 | the lookup is present exactly when the id is in range and its slot is occupied; ids past the end read as absent |
| LayerMaps.Index | src/lib.rs:479-486 | indexing demands an occupied slot and yields the value the lookup finds there |
| LayerMaps.Grow | src/lib.rs:432-434 | padding with empty slots reaches exactly index `id` and changes no lookup |
| LayerMaps.Add | src/lib.rs:431-437 | after adding, the id maps to the element and every other id maps to what it did before; the slot must have been empty |
| LayerMaps.Take | src/lib.rs:443-446 | taking returns the stored value, leaves the slot empty, keeps the length and every other slot |
| LayerMaps.Remove | src/lib.rs:448-450 | the slot is emptied and every other slot kept |
| LayerMaps.RemoveIfPresent | src/lib.rs:452-456 | afterwards the id is absent and the others unchanged; an absent id leaves the map as it was |
| LayerMaps.EnsureDefault | src/lib.rs:468-476 | the slot holds its old value if occupied, else the default; the storage grows to reach the id; no other slot changes |
| LayerMaps.RemoveIfPresentIdempotent | src/lib.rs:452-456 | removing twice is the same as removing once |
| LayerMaps.AddThenTake | src/lib.rs:431-446 | taking what was just added returns it and restores every lookup |
| Layers.NewContext | src/lib.rs:119-130 | a new context has counter 0, no transaction, empty components, no backend calls |
| Layers.BeginTransaction | src/lib.rs:132-138 | the level rises by one; the backend's begin is called only when entering the outermost transaction; nothing else changes |
| Layers.EndTransaction | src/lib.rs:140-146 | the level falls by one (underflow excluded); the backend's end is called only when leaving the outermost transaction |
| Layers.NestedTransactionsCoalesce | src/lib.rs:132-146 | from idle, n begins then m of n ends call the backend's begin once and its end once exactly when m equals n |
| Layers.AddContainerLayer | src/lib.rs:154-166 | returns the counter's value, advances it, gives that id an empty container entry and touches no other component |
| Layers.AddSurfaceLayer | src/lib.rs:168-176 | returns the counter's value and advances it; no component changes |
| Layers.ParentOf | src/lib.rs:178-180 | a parent is reported exactly for layers with a tree entry, and it is the parent that entry records |
| Layers.InsertBefore | src/lib.rs:182-209 | the new child's entry, the reference's rewritten next link, and the parent's first and last child, exactly as the code sets them; every other entry is unchanged |
| Layers.AppendChild | src/lib.rs:211-214 | appending gives the child no siblings and makes it both first and last child of the parent |
| Layers.HostLayer | src/lib.rs:216-226 | the layer gets a native-host tree entry with no siblings; nothing else changes but the backend call |
| Layers.RemoveFromParent | src/lib.rs:228-256 | the layer loses its tree entry; only its two neighbours and its parent's ends may change; a hosted layer is unhosted, a parented one removed from its superlayer |
| Layers.DeleteLayer | src/lib.rs:259-270 | a detached layer loses its tree, container and geometry entries; every other layer's entries are unchanged |
| Layers.SetLayerBounds | src/lib.rs:274-279 | the layer's geometry holds exactly the new bounds afterwards and no other geometry entry changes |
| Layers.SetLayerContents | src/lib.rs:284-289 | only the backend call happens, and only on a layer that is not a container |
| Layers.RefreshLayerContents | src/lib.rs:291-295 | only the backend call happens, inside a transaction |
| Layers.SetContentsOpaque | src/lib.rs:297-301 | only the backend call happens, inside a transaction |
| Layers.Step | src/lib.rs:154-176 | a call returns an id exactly when it creates a layer; that id is the counter's value, and the counter advances only then |
| Layers.RunAllocatesFreshIds | src/lib.rs:157-158 | over any run of calls the ids handed out strictly increase and lie between the counter before and after, so no id is reused |
| Layers.StepKeepsContainersAllocated | src/lib.rs:154-166 | every call keeps every container entry at an id below the counter |
| Layers.RunKeepsContainersAllocated | src/lib.rs:154-166 | every run of calls keeps every container entry at an id below the counter |
| Layers.ReachableCanAddContainer | src/lib.rs:431-437 | in every context reached from a new one by a run of calls, the next id has no container entry, so the debug assertion of `add` in `add_container_layer` holds |
| Layers.Ancestry | src/backends/gl.rs:544-558 | the chain the backends climb starts at the layer itself and is finite on an acyclic tree |
| SiblingLists.Traversals | src/lib.rs:91-100 | in a consistent list, following next links from the first child visits the children in order; following prev links from the last child visits them in reverse |
| SiblingLists.RemoveSplicesOut | src/lib.rs:228-256 | removing a listed child leaves the parent's list consistent, minus that child, with its ends repaired |
| SiblingLists.RemoveKeepsOtherLists | src/lib.rs:228-256 | removing a child of one container leaves every other container's list as it was |
| SiblingLists.AppendToNonEmptyBreaksList | src/lib.rs:194-205 | appending to a non-empty container as written leaves no consistent list at all |
| SiblingLists.InsertBeforeReferenceBreaksList | src/lib.rs:194-201 | inserting before a reference as written leaves no consistent list: the new child and the reference point at each other as next |
| SiblingLists.AppendToEmptyKeepsList | src/lib.rs:194-205 | appending to an empty container is the one insertion the written code gets right |
| SiblingLists.InsertBeforeLinked | src/lib.rs:182-209 | the corrected insertion gives the child the reference's predecessor (or the last child) and the reference as neighbours; that predecessor's next link and the reference's prev link point at the child; with no reference the child becomes the last child, with no predecessor the first; no other tree or container entry changes |
| SiblingLists.InsertEffect | src/lib.rs:182-209 | on a consistent list, inserting at position k with the corrected insertion gives every tree entry exactly its place in the list with the child at k, and the parent's ends are the new list's ends |
| SiblingLists.InsertLinkedKeepsList | src/lib.rs:182-209 | the corrected insertion keeps the list consistent, with the child inserted right before the reference (or at the end) and nothing else moved |
| Geometry.Translate | src/backends/gl.rs:555-556 | translation moves the origin by the offset and keeps the size |
| Geometry.Union | src/backends/gl.rs:551 | for rectangles of non-negative size, the union contains every operand that is not zero-sized, and it lies inside every rectangle that contains both operands, so it is the smallest such rectangle |
| Geometry.Accumulate | src/backends/gl.rs:547-553 | damage is always pending afterwards; with nothing pending it is the new rectangle; for non-empty rectangles it contains both the old damage and the new; any rectangle containing both contains the result |
| Geometry.UnionCommutes | src/backends/gl.rs:551 | the union is commutative except for two different zero-sized rectangles |
| Geometry.UnionAssociates | src/backends/gl.rs:551 | the union of rectangles with non-zero sizes is associative |
| Geometry.AccumulateOrderIndependent | src/backends/gl.rs:547-553 | folding damage a then b gives the same pending rectangle as b then a, for rectangles with non-zero sizes |
| RenderPasses.OpaquePassIsFilter | src/backends/gl.rs:563-600 | the opaque pass draws exactly the opaque drawable surfaces, in pre-order, the k-th surface at depth slot next + k, and advances the counter by the number of surfaces |
| RenderPasses.TransparentPassIsReverseFilter | src/backends/gl.rs:602-639 | started where the opaque pass stopped, the transparent pass draws exactly the non-opaque drawable surfaces in reverse pre-order, the k-th again at slot start + k |
| RenderPasses.DrawsPartitionSlots | src/backends/gl.rs:593-598 | a drawable surface appears among the opaque draws exactly when it is opaque and among the transparent draws exactly when it is not |
| RenderPasses.DrawDepthsAtLeast | src/backends/gl.rs:590-591 | every draw made for slots starting at depth d uses a depth in the range d up to the slot count |
| RenderPasses.RenderFrame | src/backends/gl.rs:185-207 | one frame returns the depth counter to 0 and draws every drawable surface in exactly one pass, at its pre-order index |
| GlRender.ListedKidsLinked | src/backends/gl.rs:575-585 | a consistent child list is chained so that the passes' while-let loops meet the children in order, or in reverse |
| GlRender.OpaqueWalkMatches | src/backends/gl.rs:563-600 | on components that represent a tree, with enough fuel, the walk over the components computes the opaque pass over the tree |
| GlRender.TransparentWalkMatches | src/backends/gl.rs:602-639 | on components that represent a tree, with enough fuel, the walk over the components computes the transparent pass over the tree |
| GlRender.EndTransaction | src/backends/gl.rs:157-223 | with damage and a host it draws a frame and presents exactly the pending damage; otherwise it draws nothing; the promise is always resolved, the damage cleared, and the framebuffers and host kept |
| GlRender.EndTransactionRendersTree | src/backends/gl.rs:157-223 | over a represented hosted tree, the frame's two passes are the reference passes and every drawable surface is drawn once, in the pass its opacity selects |
| GlRender.SecondEndDrawsNothing | src/backends/gl.rs:213-221 | ending a second time draws nothing, because the first end cleared the damage |
| GlCompositor.NewBackend | src/backends/gl.rs:118-126 | a new compositor hosts nothing, has no damage and no native records |
| GlCompositor.InvalidateLayer | src/backends/gl.rs:539-561 | damage to a layer without a tree entry is dropped; at the hosted layer it is folded into the pending rectangle; pending damage is never lost |
| GlCompositor.InvalidateMatchesAncestry | src/backends/gl.rs:539-561 | the damage reaches the pending rectangle exactly when the top of the ancestry has a tree entry, translated by the offsets of every layer below the top |
| GlCompositor.DetachedDamageIsDropped | src/backends/gl.rs:544 | damage to a layer whose chain ends without a tree entry changes nothing |
| GlCompositor.AddSurfaceLayer | src/backends/gl.rs:230-234 | a new surface has a native record with no framebuffer and nothing else changes |
| GlCompositor.DeleteLayer | src/backends/gl.rs:236-250 | the layer's native record, and so its framebuffer, is gone; no other record, the host or the damage changes |
| GlCompositor.InsertBefore | src/backends/gl.rs:254-263 | the new child's whole area, in its own coordinates, is invalidated |
| GlCompositor.RemoveFromSuperlayer | src/backends/gl.rs:265-274 | the area the child covered, in its parent's coordinates, is invalidated at the parent |
| GlCompositor.HostLayer | src/backends/gl.rs:276-284 | hosting demands that nothing is hosted and records the layer |
| GlCompositor.UnhostLayer | src/backends/gl.rs:286-289 | only the hosted layer can be unhosted; afterwards nothing is hosted |
| GlCompositor.HostThenUnhost | src/backends/gl.rs:276-289 | hosting then unhosting restores the compositor |
| GlCompositor.SetLayerBounds | src/backends/gl.rs:293-333 | a cached framebuffer survives exactly when its size equals the new size; no other layer's record changes; with a cached framebuffer the new size must not be negative, since its `to_u32` would panic |
| GlCompositor.SetLayerBoundsDamage | src/backends/gl.rs:293-333 | the old area is invalidated at a layer parent, then the new area at the layer; a hosted layer damages its new area; a detached one damages nothing |
| GlCompositor.BindLayer | src/backends/gl.rs:341-419 | after binding the layer has a framebuffer and the name returned is its name; nothing else changes; a new framebuffer needs a size that is not negative, since its `to_u32` would panic |
| GlCompositor.BindCaches | src/backends/gl.rs:341-419 | a cached framebuffer is reused unchanged; otherwise the new one has the layer's size and options and a depth/stencil buffer exactly when depth or stencil is asked for |
| GlCompositor.BindIdempotent | src/backends/gl.rs:341-419 | binding a second time finds the framebuffer cached and changes nothing |
| GlCompositor.SameSizeKeepsFramebuffer | src/backends/gl.rs:313-326 | resizing to the framebuffer's own size keeps it, and the next bind reuses it |
| GlCompositor.PresentGlContext | src/backends/gl.rs:421-436 | presenting invalidates the drawn rectangle at the bound layer and changes nothing else |
| GlCompositor.InsertBeforeDamage | src/backends/gl.rs:254-263 | when the new child's ancestry ends at the hosted root, the pending damage gains the child's whole area placed at the sum of the offsets below that root; otherwise it is unchanged |
| GlCompositor.RemoveFromSuperlayerDamage | src/backends/gl.rs:265-274 | when the parent's ancestry ends at the hosted root, the pending damage gains the child's old bounds moved by the offsets below that root; otherwise it is unchanged |
| GlCompositor.PresentGlContextDamage | src/backends/gl.rs:421-436 | when the layer's ancestry ends at the hosted root, the pending damage gains the drawn rectangle moved by the offsets below that root; otherwise it is unchanged |
| GlCompositor.ScreenshotBounds | src/backends/gl.rs:448-460 | the screenshot has the root's size, placed at the sum of the offsets of the root and all its ancestors; those bounds must have no negative coordinate or extent, since their `to_u32` would panic |
| GlCompositor.ScreenshotAddsTopOffset | src/backends/gl.rs:448-456 | the screenshot adds the top layer's offset, which damage never gets |
| RowFlip.SwapRun | src/backends/gl.rs:481-483 | swapping two disjoint runs of the buffer in place exchanges their contents and leaves every other element where it was |
| RowFlip.FlipVertically | src/backends/gl.rs:478-484 | after the in-place flip, every row y of the buffer holds what row height - 1 - y held before, for any height, odd ones included |
| RowFlip.BandComplete | src/backends/gl.rs:479 | after height / 2 row swaps the whole image is flipped, the middle row of an odd height included |
| RowFlip.RowsDetermine | src/backends/gl.rs:478-484 | two images with equal rows are equal |
| RowFlip.FlipInvolution | src/backends/gl.rs:478-484 | flipping twice gives back the original image |
| Wayland.NewBackend | src/backends/wayland.rs:170-173 | a new backend has no native records and nothing dirty |
| Wayland.AddAncestors | src/backends/wayland.rs:279-304 | a visited layer returns at once with nothing changed; otherwise the layer ends up visited, the visited set only grows, the old commit order is kept as a prefix, and a layer without a native record is a panic |
| Wayland.AddAncestorsExtends | src/backends/wayland.rs:279-304 | what one climb appends is exactly the blocks (own surface, then host surface if any) of the layers it newly visits, each once |
| Wayland.AddAncestorsParentsFirst | src/backends/wayland.rs:287-303 | on an acyclic tree, when every visited layer is already committed or lies below the climbing layer, the climb keeps every committed layer's parent ahead of it, because the parent's climb is pushed first |
| Wayland.EndTransaction | src/backends/wayland.rs:256-276 | ending leaves the dirty set empty and commits the order the climbs built |
| Wayland.EndTransactionCommitsDirty | src/backends/wayland.rs:262-269 | the commit order commits every drained dirty layer, no layer's own surface twice, and is made of whole per-layer blocks |
| Wayland.EndTransactionPlacesHosts | src/backends/wayland.rs:299-303 | every host surface is committed right after the surface of the layer it hosts |
| Wayland.EndTransactionParentsFirst | src/backends/wayland.rs:279-304 | every committed layer with a layer parent has that parent committed before it |
| Wayland.ParentCommittedBeforeChild | src/backends/wayland.rs:271 | for a hosted parent and its dirty child, the parent's surface is committed first, against the comment |
| Wayland.ChildrenFirstEndTransaction | src/backends/wayland.rs:271-274 | ending with the corrected order empties the dirty set and keeps the native records |
| Wayland.ChildrenFirstCommitOrder | src/backends/wayland.rs:262-274 | the corrected order commits the same layers once each, children first, hosts right after their layers, and panics exactly when the original does |
| Wayland.AddLayer | src/backends/wayland.rs:534-567 | a new layer gets its surface, a 1x1 EGL window, no subsurface, host or EGL surface, and is marked dirty |
| Wayland.DeleteLayer | src/backends/wayland.rs:316-319 | the native record goes and the layer is still marked dirty |
| Wayland.InsertBefore | src/backends/wayland.rs:321-343 | the child gets the new subsurface; the parent, the child and the reference are marked dirty; no other record changes |
| Wayland.RemoveFromSuperlayer | src/backends/wayland.rs:345-356 | the layer loses its subsurface and is marked dirty |
| Wayland.HostLayer | src/backends/wayland.rs:358-380 | the layer gets a subsurface under the host and remembers the host surface, and is marked dirty |
| Wayland.UnhostLayer | src/backends/wayland.rs:382-390 | only a layer with a subsurface changes: it loses the subsurface and the host and is marked dirty |
| Wayland.HostThenUnhost | src/backends/wayland.rs:358-390 | after hosting then unhosting, the layer's commit block no longer includes the host surface |
| Wayland.SetLayerSurfaceOptions | src/backends/wayland.rs:414-416 | only marks the layer dirty |
| Wayland.SetLayerBounds | src/backends/wayland.rs:392-412 | the EGL window is resized and the cached EGL surface dropped exactly when the size changes; the layer is always marked dirty |
| Wayland.BindLayer | src/backends/wayland.rs:418-476 | the cached EGL surface is kept when its config matches, otherwise replaced; the layer is marked dirty, and success reported, exactly when make-current succeeds |
| Wayland.CacheHitIgnoresNewSurface | src/backends/wayland.rs:426-458 | a bind that finds a cached surface of the context's configuration creates none: the result does not depend on what creation would return |
| Wayland.BindReusesSurface | src/backends/wayland.rs:433-458 | binding twice with one configuration makes one EGL surface |
| Wayland.ResizeThenBind | src/backends/wayland.rs:392-458 | a real resize forces the next bind to make a fresh EGL surface; resizing to the same size keeps the cached one |
| Wayland.PresentGlContext | src/backends/wayland.rs:480-500 | presenting demands a cached EGL surface; the layer is marked dirty exactly when the swap succeeds |
| Wayland.BindThenPresent | src/backends/wayland.rs:418-500 | after a successful bind, presenting does not panic |
| Wayland.MissingRecordPanics | src/backends/wayland.rs:299 | a dirty layer without a native record makes the transaction end in a panic, whatever the tree |
| Wayland.DeleteThenEndPanics | src/backends/wayland.rs:316-319 | every transaction that deletes a layer ends in a panic |
| Wayland.DeleteLayerCorrected | src/backends/wayland.rs:316-319 | the corrected delete removes the layer's native record and its dirty mark together |
| Wayland.CommittableCommits | src/backends/wayland.rs:262-304 | when every dirty layer's parent chain has native records, ending does not panic |
| Wayland.CorrectedDeleteCommits | src/backends/wayland.rs:316-319 | with the corrected delete, deleting a layer no other layer names as parent still lets the transaction end |
| DirectComposition.ClientRect | src/backends/direct-composition.rs:476-481 | subtracting the adjustment shrinks the width and height by the decorations' width and height |
| DirectComposition.ClientRectUndoesAdjust | src/backends/direct-composition.rs:469-481 | applied to a window rectangle the frame adjustment grew from a client rectangle, the correction gives back the client rectangle |
| DirectComposition.Rgba | src/backends/direct-composition.rs:772-777 | each word becomes four bytes: red, green, blue, alpha |
| DirectComposition.RgbaThenBgra | src/backends/direct-composition.rs:772-777 | packing the four bytes back gives the original word, so no information is lost |
| DirectComposition.BgraThenRgba | src/backends/direct-composition.rs:772-777 | unpacking a packed word gives back its four bytes |
| DirectComposition.SourceIndexIsProduct | src/backends/direct-composition.rs:771 | the source index is (screen height - y - 1) times the width, plus x |
| DirectComposition.DecodedLength | src/backends/direct-composition.rs:783-785 | the decoded image is 4 bytes per pixel of the rectangle, the size the image constructor expects |
| DirectComposition.DecodeScreenshot | src/backends/direct-composition.rs:763-779 | the loop produces the decoded image of the rectangle |
| DirectComposition.DecodedRowIsRow | src/backends/direct-composition.rs:769-779 | row j of the output is the rectangle's screen row top + j |
| DirectComposition.DecodedPixel | src/backends/direct-composition.rs:770-777 | the 4 bytes for screen pixel (x, y) are the RGBA of the source word at the bottom-up index |
| DirectComposition.FullScreenRows | src/backends/direct-composition.rs:762-779 | on the full screen, output row y is the byte form of bitmap row height - 1 - y: the image is turned top-down |
| DirectComposition.QueryInterface | src/backends/direct-composition.rs:819-833 | a null pointer fails with PointerNull before any COM call; otherwise the answer is the interface, or NoInterface exactly when the COM call fails |
| DirectComposition.NullNeverAsksCom | src/backends/direct-composition.rs:821-823 | on a null pointer the outcome does not depend on what COM would answer |
| Alternate.New | src/backends/alternate.rs:28-33 | the backend takes the connection's side and is built from the inner connection |
| Alternate.ConnectionFromWindow | src/backends/alternate.rs:248-254 | A's connection when A has one, otherwise B's; an error exactly when both fail |
| Alternate.ConnectionPrefersA | src/backends/alternate.rs:250-252 | once A has a connection, B's answer does not matter |
| Alternate.Forward | src/backends/alternate.rs:71-142 | a call goes unchanged to the active inner backend, its answer comes back unchanged, and the side never changes |
| Alternate.RunIsDirect | src/backends/alternate.rs:71-243 | any run of forwarded calls leaves the active backend as the same run made on it directly, with the same answers |
| Alternate.CreateGlContext | src/backends/alternate.rs:36-41 | the new context is tagged with the backend's side; the inner error is passed on unchanged |
| Alternate.WrapGlContext | src/backends/alternate.rs:43-67 | panics exactly when the native context belongs to the other side; otherwise the new state is the active inner backend's, and the returned context is exactly the inner wrap's context, tagged with its side, or none when the inner wrap gives none |
| Alternate.HostLayer | src/backends/alternate.rs:146-179 | panics exactly when the host belongs to the other side; otherwise the active backend hosts the layer |
| Alternate.BindLayerToGlContext | src/backends/alternate.rs:221-235 | panics exactly when the context belongs to the other side; otherwise the new backend and the new context are the inner bind's, tagged with its side, and the inner bind's answer is returned |
| Alternate.CreatedContextBinds | src/backends/alternate.rs:36-41 | a context the backend created can still be bound, without the mismatch panic, after any run of forwarded calls |

## Left out

- Floating point. Coordinates and sizes are integers, so `round` and `round_out` are the identity, and so are the `to_u32` and `to_i32` casts on the values they accept. On a negative value `to_u32` panics in the source; the members that cast (GlCompositor.SetLayerBounds, GlCompositor.BindLayer, GlCompositor.ScreenshotBounds and Wayland.SetLayerBounds) require values that are not negative. The upper end of the `u32` and `i32` ranges is not modelled. gl.rs rounds out in `bind_layer_to_gl_context` but rounds in `set_layer_bounds`; with integers the two agree, so that mismatch is invisible here.
- Native APIs are not modelled: OpenGL drawing, EGL, the Wayland protocol and Win32 messages. Each call becomes a parameter: the name it returns, or whether it succeeded. The shader uniforms of `render_layer` are reduced to the draw's layer, position and depth slot.
- Promises, threads and event loops are not modelled. Screenshot readback runs in a promise callback. The decoded screenshot is a plain function of the bitmap.
- `src/lib.rs` here is an older revision than the backends: it has no surface component. The backends' `LayerSurfaceInfo` is modelled in `GlCompositor.SurfaceInfo`.
- `SurfaceOptions` is a record of three booleans. The bit values are not part of this model.
- src/backends/core-animation.rs and src/backends/glx.rs are not part of this model.
- Layers.Ancestry: walks only acyclic trees, as witnessed by a rank function. On a cyclic tree, gl.rs's recursive `invalidate_layer` and the screenshot loop do not terminate; that case is not modelled.
- GlRender.EndTransaction: the drawing walks carry a fuel bound. Running out of fuel is reported like a panic. EndTransactionRendersTree shows that twice the node count is enough.
- Wayland.EndTransaction: the order in which the `HashSet` drains is a parameter. Every property is proved for all drain orders.
- Wayland.SetLayerBounds: the subsurface's new position is a protocol request and is not recorded. The output-scale map of `add_layer` is left out.
- Wayland.BindLayer: when it creates an EGL surface, requires that `eglCreateWindowSurface` did not return `NoSurface`. The source asserts this and panics otherwise; that panic is excluded, not modelled. A bind that reuses the cached surface has no such requirement. The `assert_eq!` on `eglChooseConfig` is a native call and is not modelled.
- Wayland.AddLayer: the zero-buffer attach of `add_container_layer` is a protocol request and is not recorded.
- DirectComposition.ClientRect: uses unbounded integers and does not model `i32` overflow in the edge subtraction.
- DirectComposition.DecodeScreenshot: requires non-negative rectangle edges, in order. The source casts them with `as usize`, which would wrap a negative edge. For a rectangle holding any pixel it also requires `bottom <= height` and every source index inside the bitmap. In the source, a window reaching below the screen underflows `screen_height - y - 1` and panics, and an index past `biSizeImage / 4` panics on the slice bounds check. Those two panics are excluded, not modelled.
- DirectComposition.ClientRectUndoesAdjust: `AdjustWindowRectEx` is modelled as adding a fixed frame to each edge (`Adjust`). Its dependence on style and menu is not modelled.
- DirectComposition.FullScreenRows: states the flip row by row, in terms of bytes of bitmap rows. It does not state it through RowFlip.IsRowFlip over the whole byte vector.
- DirectComposition.QueryInterface: the returned interface pointer is whatever COM answers. Reference counting (`AddRef`, `Release`) is left out.
- Alternate: the inner backends are not modelled. Each inner call is a function parameter applied to the decorator's arguments. `gl_api`, `window` and `surface_component`-style accessors are plain forwarding, covered by Alternate.Forward.
- Geometry.UnionAssociates: holds only for rectangles of non-zero size, because euclid's zero-size identity breaks associativity.
- Geometry.AccumulateOrderIndependent: holds only for rectangles of non-zero size, for the same reason.

## Findings

| source | as written | input that shows it | evidently intended | confidence | as-written member | corrected member |
|---|---|---|---|---|---|---|
| src/lib.rs:194-205 | `insert_before` points the reference's `next_sibling` at the new child (instead of its `prev_sibling`) and never links the predecessor; `append_child` never sets the old last child's `next_sibling` | append to a container that already has one child, or insert before any listed child | link the child between the reference's predecessor and the reference, updating both neighbours or the parent's ends | not executed | SiblingLists.AppendToNonEmptyBreaksList, SiblingLists.InsertBeforeReferenceBreaksList | SiblingLists.InsertBeforeLinked, SiblingLists.InsertLinkedKeepsList |
| src/backends/wayland.rs:271 | the commit loop is commented "children before parents", but `add_ancestors_to_commit_order` pushes a layer only after recursing into its parent, so parents are committed first | a hosted parent with native records and its child, only the child dirty | children committed before their parents, as the comment says | not executed | Wayland.ParentCommittedBeforeChild | Wayland.ChildrenFirstCommitOrder |
| src/backends/wayland.rs:316-319 | `delete_layer` removes the native record but inserts the layer into the dirty set, and the next `end_transaction` indexes the missing record | any deletion followed by the end of the transaction | the deleted layer leaves the dirty set together with its record | not executed | Wayland.DeleteThenEndPanics | Wayland.CorrectedDeleteCommits |

=== FILE: alternate.dfy ===
/**
 * The alternating backend: a backend that is one of two inner backends,
 * chosen once, when it is built from a connection, and that dispatches every
 * call to that inner backend.
 *
 * Every value that crosses the interface (connection, GL context, native GL
 * context, host) is tagged with the side it belongs to. Calls that take a
 * tagged value panic when its side is not the backend's. The inner backends
 * are not modelled: each inner call is a function parameter, applied to the
 * arguments the decorator received.
 */
module Alternate {
  import opened Wrappers

  /** One of the two inner backends' values: `A(..)` or `B(..)`. */
  datatype Side<+A, +B> = SideA(a: A) | SideB(b: B)

  predicate SameSide<A, B, C, D>(x: Side<A, B>, y: Side<C, D>) {
    x.SideA? <==> y.SideA?
  }

  /** The result of a call that panics when it is handed a value of the other side. */
  datatype Outcome<+S, +R> = Panicked | Done(state: S, value: R)

  // Construction

  /** `new`: the backend takes the side of the connection it is built from. */
  function New<A, B, CA, CB>(connection: Side<CA, CB>, newA: CA -> A, newB: CB -> B): (b: Side<A, B>)
    ensures SameSide(b, connection)
    ensures b.SideA? ==> b.a == newA(connection.a)
    ensures b.SideB? ==> b.b == newB(connection.b)
  {
    match connection
    case SideA(c) => SideA(newA(c))
    case SideB(c) => SideB(newB(c))
  }

  /**
   * `connection_from_window`: A's connection when A can make one; otherwise
   * B's, and an error only when B fails too. `fromA` and `fromB` are what
   * the inner backends answer.
   */
  function ConnectionFromWindow<CA, CB>(fromA: Option<CA>, fromB: Option<CB>): (r: Option<Side<CA, CB>>)
    ensures r.None? <==> fromA.None? && fromB.None?
    ensures fromA.Some? ==> r == Some(SideA(fromA.value))
    ensures fromA.None? && fromB.Some? ==> r == Some(SideB(fromB.value))
  {
    if fromA.Some? then Some(SideA(fromA.value))
    else if fromB.Some? then Some(SideB(fromB.value))
    else None
  }

  /** Once A has a connection, B is not consulted. */
  lemma ConnectionPrefersA<CA, CB>(c: CA, b1: Option<CB>, b2: Option<CB>)
    ensures ConnectionFromWindow(Some(c), b1) == ConnectionFromWindow(Some(c), b2)
  {
  }

  // Forwarded calls

  /**
   * A call without tagged arguments (`begin_transaction`, `end_transaction`,
   * `add_container_layer`, `add_surface_layer`, `delete_layer`,
   * `insert_before`, `remove_from_superlayer`, `unhost_layer`,
   * `set_layer_bounds`, `set_layer_opaque`, `present_gl_context`,
   * `host_layer_in_window`): `op` goes to the active inner backend as it is,
   * and its answer comes back as it is.
   */
  function Forward<A, B, Op, R>(b: Side<A, B>, op: Op, stepA: (A, Op) -> (A, R), stepB: (B, Op) -> (B, R)): (r: (Side<A, B>, R))
    ensures SameSide(r.0, b)
    ensures b.SideA? ==> r == (SideA(stepA(b.a, op).0), stepA(b.a, op).1)
    ensures b.SideB? ==> r == (SideB(stepB(b.b, op).0), stepB(b.b, op).1)
  {
    match b
    case SideA(x) => var (x', v) := stepA(x, op); (SideA(x'), v)
    case SideB(y) => var (y', v) := stepB(y, op); (SideB(y'), v)
  }

  /** A run of forwarded calls on the decorator, collecting the answers. */
  function Run<A, B, Op, R>(b: Side<A, B>, ops: seq<Op>, stepA: (A, Op) -> (A, R), stepB: (B, Op) -> (B, R)): (r: (Side<A, B>, seq<R>))
    ensures SameSide(r.0, b) && |r.1| == |ops|
    decreases |ops|
  {
    if |ops| == 0 then (b, [])
    else
      var (b', v) := Forward(b, ops[0], stepA, stepB);
      var (b'', vs) := Run(b', ops[1..], stepA, stepB);
      (b'', [v] + vs)
  }

  /** The same run of calls made on one inner backend directly. */
  function Direct<S, Op, R>(s: S, ops: seq<Op>, step: (S, Op) -> (S, R)): (r: (S, seq<R>))
    ensures |r.1| == |ops|
    decreases |ops|
  {
    if |ops| == 0 then (s, [])
    else
      var (s', v) := step(s, ops[0]);
      var (s'', vs) := Direct(s', ops[1..], step);
      (s'', [v] + vs)
  }

  /**
   * The decorator is transparent: any run of forwarded calls leaves the
   * active inner backend as the same run made on it directly, with the
   * same answers, and the other side is never touched.
   */
  lemma {:induction false} RunIsDirect<A, B, Op, R>(b: Side<A, B>, ops: seq<Op>, stepA: (A, Op) -> (A, R), stepB: (B, Op) -> (B, R))
    ensures b.SideA? ==> Run(b, ops, stepA, stepB) == (SideA(Direct(b.a, ops, stepA).0), Direct(b.a, ops, stepA).1)
    ensures b.SideB? ==> Run(b, ops, stepA, stepB) == (SideB(Direct(b.b, ops, stepB).0), Direct(b.b, ops, stepB).1)
    decreases |ops|
  {
    if |ops| > 0 {
      var (b', v) := Forward(b, ops[0], stepA, stepB);
      RunIsDirect(b', ops[1..], stepA, stepB);
    }
  }

  // Calls that create or take tagged values

  /**
   * `create_gl_context`: the active inner backend's context, tagged with its
   * side; the inner error is passed on unchanged (`?`).
   */
  function CreateGlContext<A, B, O, GA, GB>(b: Side<A, B>, options: O,
                                           createA: (A, O) -> (A, Option<GA>), createB: (B, O) -> (B, Option<GB>))
    : (r: (Side<A, B>, Option<Side<GA, GB>>))
    ensures SameSide(r.0, b)
    ensures r.1.Some? ==> SameSide(r.1.value, b)
    ensures b.SideA? ==> r.0.a == createA(b.a, options).0 && (r.1.None? <==> createA(b.a, options).1.None?)
    ensures b.SideA? && r.1.Some? ==> r.1.value.a == createA(b.a, options).1.value
    ensures b.SideB? ==> r.0.b == createB(b.b, options).0 && (r.1.None? <==> createB(b.b, options).1.None?)
    ensures b.SideB? && r.1.Some? ==> r.1.value.b == createB(b.b, options).1.value
  {
    match b
    case SideA(x) =>
      var (x', c) := createA(x, options);
      (SideA(x'), if c.Some? then Some(SideA(c.value)) else None)
    case SideB(y) =>
      var (y', c) := createB(y, options);
      (SideB(y'), if c.Some? then Some(SideB(c.value)) else None)
  }

  /**
   * `wrap_gl_context`: a native context of the backend's side is wrapped by
   * that inner backend and tagged; one of the other side panics.
   */
  function WrapGlContext<A, B, NA, NB, GA, GB>(b: Side<A, B>, native: Side<NA, NB>,
                                              wrapA: (A, NA) -> (A, Option<GA>), wrapB: (B, NB) -> (B, Option<GB>))
    : (r: Outcome<Side<A, B>, Option<Side<GA, GB>>>)
    ensures r.Panicked? <==> !SameSide(b, native)
    ensures r.Done? ==> SameSide(r.state, b) && (r.value.Some? ==> SameSide(r.value.value, b))
    ensures r.Done? && b.SideA? ==> r.state.a == wrapA(b.a, native.a).0 && (r.value.None? <==> wrapA(b.a, native.a).1.None?)
    ensures r.Done? && b.SideB? ==> r.state.b == wrapB(b.b, native.b).0 && (r.value.None? <==> wrapB(b.b, native.b).1.None?)
    ensures r.Done? && b.SideA? && r.value.Some? ==> r.value.value.a == wrapA(b.a, native.a).1.value
    ensures r.Done? && b.SideB? && r.value.Some? ==> r.value.value.b == wrapB(b.b, native.b).1.value
  {
    match (b, native)
    case (SideA(x), SideA(n)) =>
      var (x', c) := wrapA(x, n);
      Done(SideA(x'), if c.Some? then Some(SideA(c.value)) else None)
    case (SideB(y), SideB(n)) =>
      var (y', c) := wrapB(y, n);
      Done(SideB(y'), if c.Some? then Some(SideB(c.value)) else None)
    case _ => Panicked
  }

  /** `host_layer`: a host of the backend's side is handed on; one of the other side panics. */
  function HostLayer<A, B, L, HA, HB>(b: Side<A, B>, layer: L, host: Side<HA, HB>,
                                     hostA: (A, L, HA) -> A, hostB: (B, L, HB) -> B)
    : (r: Outcome<Side<A, B>, ()>)
    ensures r.Panicked? <==> !SameSide(b, host)
    ensures r.Done? && b.SideA? ==> r.state == SideA(hostA(b.a, layer, host.a))
    ensures r.Done? && b.SideB? ==> r.state == SideB(hostB(b.b, layer, host.b))
  {
    match (b, host)
    case (SideA(x), SideA(h)) => Done(SideA(hostA(x, layer, h)), ())
    case (SideB(y), SideB(h)) => Done(SideB(hostB(y, layer, h)), ())
    case _ => Panicked
  }

  /**
   * `bind_layer_to_gl_context`: a context of the backend's side is bound by
   * that inner backend, which may change the context too; one of the other
   * side panics.
   */
  function BindLayerToGlContext<A, B, L, GA, GB, R>(b: Side<A, B>, layer: L, context: Side<GA, GB>,
                                                   bindA: (A, L, GA) -> (A, GA, R), bindB: (B, L, GB) -> (B, GB, R))
    : (r: Outcome<(Side<A, B>, Side<GA, GB>), R>)
    ensures r.Panicked? <==> !SameSide(b, context)
    ensures r.Done? ==> SameSide(r.state.0, b) && SameSide(r.state.1, b)
    ensures r.Done? && b.SideA? ==> r.value == bindA(b.a, layer, context.a).2
    ensures r.Done? && b.SideA? ==> r.state == (SideA(bindA(b.a, layer, context.a).0), SideA(bindA(b.a, layer, context.a).1))
    ensures r.Done? && b.SideB? ==> r.value == bindB(b.b, layer, context.b).2
    ensures r.Done? && b.SideB? ==> r.state == (SideB(bindB(b.b, layer, context.b).0), SideB(bindB(b.b, layer, context.b).1))
  {
    match (b, context)
    case (SideA(x), SideA(g)) => var (x', g', v) := bindA(x, layer, g); Done((SideA(x'), SideA(g')), v)
    case (SideB(y), SideB(g)) => var (y', g', v) := bindB(y, layer, g); Done((SideB(y'), SideB(g')), v)
    case _ => Panicked
  }

  /**
   * A context the backend created can be bound by it, after any run of
   * forwarded calls, without the mismatch panic.
   */
  lemma CreatedContextBinds<A, B, O, GA, GB, Op, R, L, BR>(
      b: Side<A, B>, options: O, createA: (A, O) -> (A, Option<GA>), createB: (B, O) -> (B, Option<GB>),
      ops: seq<Op>, stepA: (A, Op) -> (A, R), stepB: (B, Op) -> (B, R),
      layer: L, bindA: (A, L, GA) -> (A, GA, BR), bindB: (B, L, GB) -> (B, GB, BR))
    requires CreateGlContext(b, options, createA, createB).1.Some?
    ensures var (b1, c) := CreateGlContext(b, options, createA, createB);
            var b2 := Run(b1, ops, stepA, stepB).0;
            BindLayerToGlContext(b2, layer, c.value, bindA, bindB).Done?
  {
  }
}

=== FILE: direct_composition.dfy ===
/**
 * The parts of the DirectComposition backend that are plain computation:
 * trimming the window decorations off the rectangle a screenshot is cropped
 * to, decoding the clipboard bitmap the screenshot thread receives, and the
 * null check of `ComPtr::query_interface`.
 *
 * The bitmap is a device-independent bitmap: `screen_height` rows of
 * `screen_width` 32-bit words, the bottom row first, each word a BGRA pixel
 * (`0xAARRGGBB`). The decoder crops it to the client rectangle and emits
 * top-down RGBA bytes.
 */
module DirectComposition {
  import opened Wrappers
  import opened RowFlip

  /** A Win32 `RECT`: four edges, `right` and `bottom` exclusive. */
  datatype WinRect = WinRect(left: int, top: int, right: int, bottom: int)

  const EmptyRect: WinRect := WinRect(0, 0, 0, 0)

  // Window decorations

  /**
   * The client rectangle `screenshot_hosted_layer` crops to: each edge of the
   * window rectangle minus the same edge of `decorations`, the rectangle
   * `AdjustWindowRectEx` makes of an empty one (negative `left` and `top`
   * for the frame and title bar, positive `right` and `bottom`).
   */
  function ClientRect(window: WinRect, decorations: WinRect): (r: WinRect)
    ensures r.right - r.left == (window.right - window.left) - (decorations.right - decorations.left)
    ensures r.bottom - r.top == (window.bottom - window.top) - (decorations.bottom - decorations.top)
  {
    WinRect(window.left - decorations.left, window.top - decorations.top,
            window.right - decorations.right, window.bottom - decorations.bottom)
  }

  /**
   * What `AdjustWindowRectEx` does to a client rectangle: it grows every edge
   * by the frame. The frame itself is not modelled; `frame` stands for it.
   */
  function Adjust(client: WinRect, frame: WinRect): (r: WinRect)
    ensures r.left - client.left == frame.left && r.right - client.right == frame.right
    ensures r.top - client.top == frame.top && r.bottom - client.bottom == frame.bottom
  {
    WinRect(client.left + frame.left, client.top + frame.top, client.right + frame.right, client.bottom + frame.bottom)
  }

  /**
   * When the window rectangle is the client rectangle grown by the frame,
   * subtracting the frame `AdjustWindowRectEx` reports for an empty
   * rectangle gives the client rectangle back.
   */
  lemma ClientRectUndoesAdjust(client: WinRect, frame: WinRect)
    ensures ClientRect(Adjust(client, frame), Adjust(EmptyRect, frame)) == client
  {
  }

  // Pixels

  /**
   * The four bytes the decoder emits for one source word: red
   * (`(p >> 16) & 0xff`), green (`(p >> 8) & 0xff`), blue (`p & 0xff`),
   * alpha (`(p >> 24) & 0xff`).
   */
  function Rgba(p: bv32): (px: seq<bv8>)
    ensures |px| == 4
  {
    [((p >> 16) & 0xff) as bv8, ((p >> 8) & 0xff) as bv8, (p & 0xff) as bv8, ((p >> 24) & 0xff) as bv8]
  }

  /** The BGRA word of an RGBA pixel: alpha in the top byte, then red, green, blue. */
  function Bgra(px: seq<bv8>): bv32
    requires |px| == 4
  {
    (px[3] as bv32 << 24) | (px[0] as bv32 << 16) | (px[1] as bv32 << 8) | px[2] as bv32
  }

  /** Converting a word to RGBA bytes loses nothing. */
  lemma RgbaThenBgra(p: bv32)
    ensures Bgra(Rgba(p)) == p
  {
  }

  /** Every RGBA pixel is the conversion of exactly one word. */
  lemma BgraThenRgba(px: seq<bv8>)
    requires |px| == 4
    ensures Rgba(Bgra(px)) == px
  {
  }

  /** Every word of `s` converted, in order. */
  function Unpacked(s: seq<bv32>): (r: seq<bv8>)
    ensures |r| == |s| * 4
    decreases |s|
  {
    if |s| == 0 then [] else Unpacked(s[..|s| - 1]) + Rgba(s[|s| - 1])
  }

  // The bitmap

  /** Where the pixel shown at row `y`, column `x` sits in the bottom-up bitmap. */
  function SourceIndex(width: nat, height: nat, y: nat, x: nat): nat
    requires y < height
  {
    RowStart(width, height - y - 1) + x
  }

  /** The index is the source's `(screen_height - y - 1) * screen_width + x`. */
  lemma SourceIndexIsProduct(width: nat, height: nat, y: nat, x: nat)
    requires y < height
    ensures SourceIndex(width, height, y, x) == (height - y - 1) * width + x
  {
    RowStartIsProduct(width, height - y - 1);
  }

  /**
   * What the decoding loop needs of its inputs: a rectangle with its edges in
   * order and not negative, and, when it holds any pixel, rows on the screen
   * and words in the bitmap for every pixel it reads. The last pixel of the
   * top row is the furthest one.
   */
  predicate Readable(src: seq<bv32>, width: nat, height: nat, rect: WinRect) {
    && 0 <= rect.left <= rect.right && 0 <= rect.top <= rect.bottom
    && (rect.left < rect.right && rect.top < rect.bottom ==>
          rect.bottom <= height && SourceIndex(width, height, rect.top, rect.right - 1) < |src|)
  }

  /** Every pixel of a readable rectangle is in the bitmap. */
  lemma ReadableIndex(src: seq<bv32>, width: nat, height: nat, rect: WinRect, y: int, x: int)
    requires Readable(src, width, height, rect)
    requires rect.top <= y < rect.bottom && rect.left <= x < rect.right
    ensures y < height && SourceIndex(width, height, y, x) < |src|
  {
    if y > rect.top {
      RowsOrdered(width, height - y - 1, height - rect.top - 1);
    }
  }

  /** The bytes of row `y` of the rectangle, from its left edge up to column `x`. */
  function DecodedRow(src: seq<bv32>, width: nat, height: nat, rect: WinRect, y: int, x: int): (r: seq<bv8>)
    requires Readable(src, width, height, rect)
    requires rect.top <= y < rect.bottom && rect.left <= x <= rect.right
    ensures |r| == (x - rect.left) * 4
    decreases x - rect.left
  {
    if x == rect.left then []
    else
      ReadableIndex(src, width, height, rect, y, x - 1);
      DecodedRow(src, width, height, rect, y, x - 1) + Rgba(src[SourceIndex(width, height, y, x - 1)])
  }

  /** The bytes of the rows of the rectangle above row `y`. */
  function DecodedRows(src: seq<bv32>, width: nat, height: nat, rect: WinRect, y: int): (r: seq<bv8>)
    requires Readable(src, width, height, rect)
    requires rect.top <= y <= rect.bottom
    ensures |r| == RowStart((rect.right - rect.left) * 4, y - rect.top)
    decreases y - rect.top
  {
    if y == rect.top then []
    else DecodedRows(src, width, height, rect, y - 1) + DecodedRow(src, width, height, rect, y - 1, rect.right)
  }

  /**
   * The decoded screenshot: the rows of the rectangle top to bottom, each row
   * left to right, four RGBA bytes per pixel. Its length is what
   * `RgbaImage::from_vec` expects for a `(right - left)` by `(bottom - top)`
   * image.
   */
  function Decoded(src: seq<bv32>, width: nat, height: nat, rect: WinRect): (r: seq<bv8>)
    requires Readable(src, width, height, rect)
    ensures |r| == RowStart((rect.right - rect.left) * 4, rect.bottom - rect.top)
  {
    DecodedRows(src, width, height, rect, rect.bottom)
  }

  /**
   * The decoded image holds `(right - left) * (bottom - top)` pixels of four
   * bytes: the size `RgbaImage::from_vec` expects for its dimensions.
   */
  lemma DecodedLength(src: seq<bv32>, width: nat, height: nat, rect: WinRect)
    requires Readable(src, width, height, rect)
    ensures |Decoded(src, width, height, rect)| == (rect.right - rect.left) * (rect.bottom - rect.top) * 4
  {
    var w, h := rect.right - rect.left, rect.bottom - rect.top;
    RowStartIsProduct(w * 4, h);
    assert h * (w * 4) == w * h * 4;
  }

  /**
   * The pixel loop of `screenshot_window_proc`: for every row of the
   * rectangle and every column in it, append the RGBA bytes of the source
   * word.
   */
  method DecodeScreenshot(src: seq<bv32>, screenWidth: nat, screenHeight: nat, rect: WinRect) returns (dest: seq<bv8>)
    requires Readable(src, screenWidth, screenHeight, rect)
    ensures dest == Decoded(src, screenWidth, screenHeight, rect)
  {
    dest := [];
    var y := rect.top;
    while y < rect.bottom
      invariant rect.top <= y <= rect.bottom
      invariant dest == DecodedRows(src, screenWidth, screenHeight, rect, y)
    {
      var x := rect.left;
      while x < rect.right
        invariant rect.left <= x <= rect.right
        invariant dest == DecodedRows(src, screenWidth, screenHeight, rect, y) + DecodedRow(src, screenWidth, screenHeight, rect, y, x)
      {
        ReadableIndex(src, screenWidth, screenHeight, rect, y, x);
        dest := dest + Rgba(src[SourceIndex(screenWidth, screenHeight, y, x)]);
        x := x + 1;
      }
      y := y + 1;
    }
  }

  /** Row `j` of the decoded image is row `top + j` of the rectangle. */
  lemma DecodedRowIsRow(src: seq<bv32>, width: nat, height: nat, rect: WinRect, j: nat)
    requires Readable(src, width, height, rect)
    requires j < rect.bottom - rect.top
    ensures var stride := (rect.right - rect.left) * 4;
            Row(Decoded(src, width, height, rect), stride, rect.bottom - rect.top, j)
              == DecodedRow(src, width, height, rect, rect.top + j, rect.right)
  {
    RowsBelow(src, width, height, rect, j, rect.bottom);
  }

  lemma {:induction false} RowsBelow(src: seq<bv32>, width: nat, height: nat, rect: WinRect, j: nat, y: int)
    requires Readable(src, width, height, rect)
    requires rect.top + j < y <= rect.bottom
    ensures var stride := (rect.right - rect.left) * 4;
            Row(DecodedRows(src, width, height, rect, y), stride, y - rect.top, j)
              == DecodedRow(src, width, height, rect, rect.top + j, rect.right)
    decreases y
  {
    var stride := (rect.right - rect.left) * 4;
    var above := DecodedRows(src, width, height, rect, y - 1);
    var last := DecodedRow(src, width, height, rect, y - 1, rect.right);
    RowOfSnoc(above, last, stride, y - 1 - rect.top, y - rect.top, j);
    if y - 1 == rect.top + j {
      assert j == y - 1 - rect.top;
    } else {
      RowsBelow(src, width, height, rect, j, y - 1);
    }
  }

  /**
   * Column `x` of a decoded row holds the RGBA bytes of the word that row
   * `screen_height - y - 1` of the bitmap has in column `x`.
   */
  lemma DecodedPixel(src: seq<bv32>, width: nat, height: nat, rect: WinRect, y: int, x: int)
    requires Readable(src, width, height, rect)
    requires rect.top <= y < rect.bottom && rect.left <= x < rect.right
    ensures y < height && SourceIndex(width, height, y, x) < |src|
    ensures var o := (x - rect.left) * 4;
            DecodedRow(src, width, height, rect, y, rect.right)[o..o + 4] == Rgba(src[SourceIndex(width, height, y, x)])
  {
    ReadableIndex(src, width, height, rect, y, x);
    ColumnsRight(src, width, height, rect, y, x, rect.right);
  }

  lemma {:induction false} ColumnsRight(src: seq<bv32>, width: nat, height: nat, rect: WinRect, y: int, x: int, upto: int)
    requires Readable(src, width, height, rect)
    requires rect.top <= y < rect.bottom && rect.left <= x < upto <= rect.right
    ensures y < height && SourceIndex(width, height, y, x) < |src|
    ensures var o := (x - rect.left) * 4;
            DecodedRow(src, width, height, rect, y, upto)[o..o + 4] == Rgba(src[SourceIndex(width, height, y, x)])
    decreases upto
  {
    ReadableIndex(src, width, height, rect, y, x);
    if upto - 1 > x {
      ColumnsRight(src, width, height, rect, y, x, upto - 1);
    }
  }

  /** A whole row of the screen, decoded, is its words converted in order. */
  lemma {:induction false} ScreenRow(src: seq<bv32>, width: nat, height: nat, y: nat, x: nat)
    requires Readable(src, width, height, WinRect(0, 0, width, height))
    requires y < height && x <= width
    requires SourceIndex(width, height, y, 0) + width <= |src|
    ensures var base := SourceIndex(width, height, y, 0);
            DecodedRow(src, width, height, WinRect(0, 0, width, height), y, x) == Unpacked(src[base..base + x])
    decreases x
  {
    var base := SourceIndex(width, height, y, 0);
    if x > 0 {
      ScreenRow(src, width, height, y, x - 1);
      var words := src[base..base + x];
      assert words[..|words| - 1] == src[base..base + x - 1];
      assert SourceIndex(width, height, y, x - 1) == base + x - 1;
    }
  }

  /**
   * On the whole screen, row `y` of the decoded image is row
   * `height - y - 1` of the bitmap with its words converted one by one:
   * the bottom-up rows come out top-down, the vertical flip the OpenGL
   * compositor's screenshot also applies.
   */
  lemma FullScreenRows(src: seq<bv32>, width: nat, height: nat)
    requires |src| == width * height
    ensures Readable(src, width, height, WinRect(0, 0, width, height))
    ensures |src| == RowStart(width, height)
    ensures |Decoded(src, width, height, WinRect(0, 0, width, height))| == RowStart(width * 4, height)
    ensures forall y :: 0 <= y < height ==>
              Row(Decoded(src, width, height, WinRect(0, 0, width, height)), width * 4, height, y)
                == Unpacked(Row(src, width, height, height - y - 1))
  {
    FullScreenReadable(src, width, height);
    forall y | 0 <= y < height
      ensures Row(Decoded(src, width, height, WinRect(0, 0, width, height)), width * 4, height, y)
              == Unpacked(Row(src, width, height, height - y - 1))
    {
      ScreenRowFlipped(src, width, height, y);
    }
  }

  /** A bitmap of exactly one screen can be read whole. */
  lemma FullScreenReadable(src: seq<bv32>, width: nat, height: nat)
    requires |src| == width * height
    ensures Readable(src, width, height, WinRect(0, 0, width, height))
    ensures |src| == RowStart(width, height)
    ensures |Decoded(src, width, height, WinRect(0, 0, width, height))| == RowStart(width * 4, height)
  {
    RowStartIsProduct(width, height);
    if 0 < width && 0 < height {
      RowFits(width, height, height - 1);
    }
  }

  /** Row `y` of the decoded screen is the conversion of row `height - y - 1` of the words. */
  lemma ScreenRowFlipped(src: seq<bv32>, width: nat, height: nat, y: nat)
    requires |src| == RowStart(width, height) && y < height
    requires Readable(src, width, height, WinRect(0, 0, width, height))
    requires |Decoded(src, width, height, WinRect(0, 0, width, height))| == RowStart(width * 4, height)
    ensures Row(Decoded(src, width, height, WinRect(0, 0, width, height)), width * 4, height, y)
            == Unpacked(Row(src, width, height, height - y - 1))
  {
    ScreenRowIsRow(src, width, height, y);
    ScreenRowWords(src, width, height, y);
  }

  /** A decoded row of the screen is the conversion of the bitmap row it comes from. */
  lemma ScreenRowWords(src: seq<bv32>, width: nat, height: nat, y: nat)
    requires |src| == RowStart(width, height) && y < height
    requires Readable(src, width, height, WinRect(0, 0, width, height))
    ensures DecodedRow(src, width, height, WinRect(0, 0, width, height), y, width)
            == Unpacked(Row(src, width, height, height - y - 1))
  {
    var r := height - y - 1;
    var base := SourceIndex(width, height, y, 0);
    assert base == RowStart(width, r) && base + width <= |src| by {
      RowFits(width, height, r);
    }
    ScreenRow(src, width, height, y, width);
    assert Row(src, width, height, r) == src[base..base + width];
  }

  lemma ScreenRowIsRow(src: seq<bv32>, width: nat, height: nat, y: nat)
    requires y < height
    requires Readable(src, width, height, WinRect(0, 0, width, height))
    ensures Row(Decoded(src, width, height, WinRect(0, 0, width, height)), width * 4, height, y)
            == DecodedRow(src, width, height, WinRect(0, 0, width, height), y, width)
  {
    DecodedRowIsRow(src, width, height, WinRect(0, 0, width, height), y);
  }

  // COM

  datatype QueryInterfaceError = PointerNull | NoInterface

  /** The outcome of `query_interface`: the new interface pointer, or why there is none. */
  datatype QueryResult = Queried(pointer: nat) | Failed(error: QueryInterfaceError)

  const Null: nat := 0

  /**
   * `ComPtr::query_interface`: a null pointer is refused before COM is
   * asked; otherwise `com` is what `IUnknown::QueryInterface` answers (the
   * interface pointer when it succeeds).
   */
  function QueryInterface(pointer: nat, com: Option<nat>): (r: QueryResult)
    ensures pointer == Null ==> r == Failed(PointerNull)
    ensures r.Queried? <==> pointer != Null && com.Some?
    ensures r.Queried? ==> r.pointer == com.value
    ensures r == Failed(NoInterface) <==> pointer != Null && com.None?
  {
    if pointer == Null then Failed(PointerNull)
    else if com.Some? then Queried(com.value)
    else Failed(NoInterface)
  }

  /** The answer for a null pointer does not depend on anything COM would say. */
  lemma NullNeverAsksCom(a: Option<nat>, b: Option<nat>)
    ensures QueryInterface(Null, a) == QueryInterface(Null, b)
  {
  }
}

=== FILE: geometry.dfy ===
/**
 * Integer stand-ins for the euclid `Point2D`, `Size2D` and `Rect` values the
 * layer code passes around, and the dirty-rectangle union the software
 * compositor accumulates damage with.
 */
module Geometry {
  import opened Wrappers

  datatype Point = Point(x: int, y: int)
  datatype Size = Size(width: int, height: int)
  datatype Rect = Rect(origin: Point, size: Size)

  const Origin: Point := Point(0, 0)
  const ZeroSize: Size := Size(0, 0)
  const ZeroRect: Rect := Rect(Origin, ZeroSize)

  function AddPoints(a: Point, b: Point): (r: Point)
    ensures r.x - a.x == b.x && r.y - a.y == b.y
  {
    Point(a.x + b.x, a.y + b.y)
  }

  function MaxX(r: Rect): int { r.origin.x + r.size.width }
  function MaxY(r: Rect): int { r.origin.y + r.size.height }

  /** `Rect::translate`: moves the rectangle by `v`, keeping its size. */
  function Translate(r: Rect, v: Point): (t: Rect)
    ensures t.size == r.size
    ensures t.origin.x - r.origin.x == v.x && t.origin.y - r.origin.y == v.y
  {
    Rect(AddPoints(r.origin, v), r.size)
  }

  /** A size with no negative extent (every rectangle the layer code produces). */
  predicate NonNegative(r: Rect) {
    r.size.width >= 0 && r.size.height >= 0
  }

  /**
   * euclid's `Rect::to_u32` (a checked cast, unwrapped) succeeds: no
   * coordinate and no extent is negative.
   */
  predicate ConvertsToU32(r: Rect) {
    r.origin.x >= 0 && r.origin.y >= 0 && NonNegative(r)
  }

  /** Euclid's `union` treats a rectangle of zero size as the identity. */
  predicate ZeroSized(r: Rect) {
    r.size == ZeroSize
  }

  predicate Contains(outer: Rect, inner: Rect) {
    && outer.origin.x <= inner.origin.x && MaxX(inner) <= MaxX(outer)
    && outer.origin.y <= inner.origin.y && MaxY(inner) <= MaxY(outer)
  }

  function Min(a: int, b: int): int { if a <= b then a else b }
  function Max(a: int, b: int): int { if a >= b then a else b }

  /** The smallest rectangle spanning both arguments. */
  function BoundingBox(a: Rect, b: Rect): Rect {
    var x0 := Min(a.origin.x, b.origin.x);
    var y0 := Min(a.origin.y, b.origin.y);
    Rect(Point(x0, y0), Size(Max(MaxX(a), MaxX(b)) - x0, Max(MaxY(a), MaxY(b)) - y0))
  }

  /**
   * euclid's `Rect::union`: a zero-sized operand yields the other one;
   * otherwise the smallest rectangle containing both.
   */
  function Union(a: Rect, b: Rect): (u: Rect)
    ensures NonNegative(a) && NonNegative(b) ==> Contains(u, a) || ZeroSized(a)
    ensures NonNegative(a) && NonNegative(b) ==> Contains(u, b) || ZeroSized(b)
    ensures forall c :: NonNegative(a) && NonNegative(b) && Contains(c, a) && Contains(c, b) ==> Contains(c, u)
  {
    if ZeroSized(a) then b
    else if ZeroSized(b) then a
    else BoundingBox(a, b)
  }

  /**
   * Folding one damage rectangle into the pending one (src/backends/gl.rs):
   * stored as-is when nothing is pending, otherwise `new.union(pending)`.
   */
  function Accumulate(pending: Option<Rect>, r: Rect): (p: Option<Rect>)
    ensures p.Some?
    ensures pending.None? ==> p.value == r
    ensures
      (pending.Some? && NonNegative(r) && NonNegative(pending.value)
       && !ZeroSized(r) && !ZeroSized(pending.value))
      ==> Contains(p.value, r) && Contains(p.value, pending.value)
    ensures forall c ::
              (pending.Some? && NonNegative(r) && NonNegative(pending.value)
               && Contains(c, r) && Contains(c, pending.value)) ==> Contains(c, p.value)
  {
    match pending
    case None => Some(r)
    case Some(d) => Some(Union(r, d))
  }

  /** The union is commutative exactly when the arguments are not two different zero-sized rectangles. */
  lemma UnionCommutes(a: Rect, b: Rect)
    ensures Union(a, b) == Union(b, a) <==> !(ZeroSized(a) && ZeroSized(b) && a != b)
  {
  }

  /** Union of non-degenerate rectangles is associative (needed for order-independent damage). */
  lemma UnionAssociates(a: Rect, b: Rect, c: Rect)
    requires NonNegative(a) && NonNegative(b) && NonNegative(c)
    requires !ZeroSized(a) && !ZeroSized(b) && !ZeroSized(c)
    ensures Union(a, Union(b, c)) == Union(Union(a, b), c)
    ensures NonNegative(Union(a, b)) && !ZeroSized(Union(a, b))
  {
  }

  /** Accumulating damage `a` then `b` gives the same pending rectangle as `b` then `a`. */
  lemma AccumulateOrderIndependent(pending: Option<Rect>, a: Rect, b: Rect)
    requires NonNegative(a) && NonNegative(b) && !ZeroSized(a) && !ZeroSized(b)
    requires pending.Some? ==> NonNegative(pending.value) && !ZeroSized(pending.value)
    ensures Accumulate(Accumulate(pending, a), b) == Accumulate(Accumulate(pending, b), a)
  {
    match pending
    case None =>
      UnionCommutes(a, b);
    case Some(d) =>
      UnionAssociates(b, a, d);
      UnionAssociates(a, b, d);
      UnionCommutes(a, b);
  }
}

=== FILE: gl_compositor.dfy ===
/**
 * The state the OpenGL compositor backend (src/backends/gl.rs) keeps beside
 * the shared components: one cached framebuffer per surface layer, the layer
 * hosted in the window, and the pending damage rectangle in the hosted
 * layer's coordinates. Each layer-tree hook is a pure function of that state
 * and the components the context passes in.
 */
module GlCompositor {
  import opened Wrappers
  import opened LayerMaps
  import opened Geometry
  import opened Layers
  import opened RenderPasses

  /** The per-layer surface record the context keeps (`LayerSurfaceInfo`). */
  datatype SurfaceInfo = SurfaceInfo(options: SurfaceOptions)

  /**
   * A framebuffer made by `bind_layer_to_gl_context`: its GL name, its size,
   * the surface options it was made for, and whether it got a depth/stencil
   * renderbuffer.
   */
  datatype Framebuffer = Framebuffer(name: nat, size: Size, options: SurfaceOptions, depthStencil: bool)

  datatype GlNative = GlNative(framebuffer: Option<Framebuffer>)

  datatype GlBackend = GlBackend(native: LayerMap<GlNative>, hosted: Option<LayerId>, dirty: Option<Rect>)

  function NewBackend(): (b: GlBackend)
    ensures b.hosted.None? && b.dirty.None?
    ensures forall l :: !Has(b.native, l)
  {
    GlBackend(Empty(), None, None)
  }

  /** The recorded offset of `l` inside its parent. */
  function OriginOf(geometry: LayerMap<GeometryInfo>, l: LayerId): Point {
    if Has(geometry, l) then Index(geometry, l).bounds.origin else Origin
  }

  /** The sum of the offsets of the layers in `s`. */
  function SumOrigins(geometry: LayerMap<GeometryInfo>, s: seq<LayerId>): Point
    decreases |s|
  {
    if |s| == 0 then Origin else AddPoints(OriginOf(geometry, s[0]), SumOrigins(geometry, s[1..]))
  }

  /** Invalidation indexes the geometry of every layer it climbs out of. */
  ghost predicate OffsetsKnown(tree: LayerMap<TreeInfo>, geometry: LayerMap<GeometryInfo>, rank: LayerId -> nat, l: LayerId)
    requires Acyclic(tree, rank)
    decreases rank(l)
  {
    Has(tree, l) && Index(tree, l).parent.Layer? ==>
      Has(geometry, l) && OffsetsKnown(tree, geometry, rank, Index(tree, l).parent.id)
  }

  // Damage

  /**
   * `invalidate_layer`: climbs from `layer` to the hosted root, translating
   * the rectangle into each parent's coordinates, and folds it into the
   * pending damage there. A layer with no tree record drops the damage.
   */
  function InvalidateLayer(dirty: Option<Rect>, layer: LayerId, rect: Rect,
                           tree: LayerMap<TreeInfo>, geometry: LayerMap<GeometryInfo>, rank: LayerId -> nat): (r: Option<Rect>)
    requires Acyclic(tree, rank) && OffsetsKnown(tree, geometry, rank, layer)
    ensures !Has(tree, layer) ==> r == dirty
    ensures Has(tree, layer) && Index(tree, layer).parent.NativeHost? ==> r == Accumulate(dirty, rect)
    ensures dirty.Some? ==> r.Some?
    decreases rank(layer)
  {
    match Get(tree, layer)
    case None => dirty
    case Some(info) =>
      match info.parent
      case NativeHost => Accumulate(dirty, rect)
      case Layer(parent) =>
        InvalidateLayer(dirty, parent, Translate(rect, Index(geometry, layer).bounds.origin), tree, geometry, rank)
  }

  /**
   * The damage reaches the pending rectangle exactly when the top of the
   * ancestry has a tree record (and so is hosted), and then it arrives
   * translated by the offsets of every layer below the top.
   */
  lemma {:induction false} InvalidateMatchesAncestry(dirty: Option<Rect>, layer: LayerId, rect: Rect,
                                                     tree: LayerMap<TreeInfo>, geometry: LayerMap<GeometryInfo>, rank: LayerId -> nat)
    requires Acyclic(tree, rank) && OffsetsKnown(tree, geometry, rank, layer)
    ensures var a := Ancestry(tree, rank, layer);
            var top := a[|a| - 1];
            InvalidateLayer(dirty, layer, rect, tree, geometry, rank)
              == if Has(tree, top) then Accumulate(dirty, Translate(rect, SumOrigins(geometry, a[..|a| - 1]))) else dirty
    decreases rank(layer)
  {
    var a := Ancestry(tree, rank, layer);
    if Has(tree, layer) && Index(tree, layer).parent.Layer? {
      var p := Index(tree, layer).parent.id;
      var o := Index(geometry, layer).bounds.origin;
      InvalidateMatchesAncestry(dirty, p, Translate(rect, o), tree, geometry, rank);
      var ap := Ancestry(tree, rank, p);
      assert a == [layer] + ap;
      assert a[..|a| - 1] == [layer] + ap[..|ap| - 1];
      assert a[..|a| - 1][1..] == ap[..|ap| - 1];
    } else {
      assert a == [layer];
      assert Translate(rect, Origin) == rect;
    }
  }

  /** Damage to a layer whose ancestry ends without a tree record changes nothing. */
  lemma DetachedDamageIsDropped(dirty: Option<Rect>, layer: LayerId, rect: Rect,
                                tree: LayerMap<TreeInfo>, geometry: LayerMap<GeometryInfo>, rank: LayerId -> nat)
    requires Acyclic(tree, rank) && OffsetsKnown(tree, geometry, rank, layer)
    requires var a := Ancestry(tree, rank, layer); !Has(tree, a[|a| - 1])
    ensures InvalidateLayer(dirty, layer, rect, tree, geometry, rank) == dirty
  {
    InvalidateMatchesAncestry(dirty, layer, rect, tree, geometry, rank);
  }

  // Layer lifecycle hooks

  /** `add_surface_layer`: a surface starts with no framebuffer. */
  function AddSurfaceLayer(b: GlBackend, layer: LayerId): (r: GlBackend)
    requires !Has(b.native, layer)
    ensures Get(r.native, layer) == Some(GlNative(None))
    ensures forall l :: l != layer ==> Get(r.native, l) == Get(b.native, l)
    ensures r.hosted == b.hosted && r.dirty == b.dirty
  {
    b.(native := Add(b.native, layer, GlNative(None)))
  }

  /** `delete_layer`: the framebuffer (if any) is released with the native record. */
  function DeleteLayer(b: GlBackend, layer: LayerId): (r: GlBackend)
    ensures !Has(r.native, layer)
    ensures forall l :: l != layer ==> Get(r.native, l) == Get(b.native, l)
    ensures r.hosted == b.hosted && r.dirty == b.dirty
  {
    b.(native := RemoveIfPresent(b.native, layer))
  }

  /** `insert_before`: the whole new child, in its own coordinates, is damaged. */
  function InsertBefore(b: GlBackend, newChild: LayerId, tree: LayerMap<TreeInfo>,
                        geometry: LayerMap<GeometryInfo>, rank: LayerId -> nat): (r: GlBackend)
    requires Acyclic(tree, rank) && OffsetsKnown(tree, geometry, rank, newChild)
    requires Has(geometry, newChild)
    ensures r.native == b.native && r.hosted == b.hosted
    ensures r.dirty == InvalidateLayer(b.dirty, newChild, Rect(Origin, Index(geometry, newChild).bounds.size), tree, geometry, rank)
  {
    var rect := Rect(Origin, Index(geometry, newChild).bounds.size);
    b.(dirty := InvalidateLayer(b.dirty, newChild, rect, tree, geometry, rank))
  }

  /** `remove_from_superlayer`: the area the child covered, in the parent's coordinates, is damaged. */
  function RemoveFromSuperlayer(b: GlBackend, oldChild: LayerId, parent: LayerId, tree: LayerMap<TreeInfo>,
                                geometry: LayerMap<GeometryInfo>, rank: LayerId -> nat): (r: GlBackend)
    requires Acyclic(tree, rank) && OffsetsKnown(tree, geometry, rank, parent)
    requires Has(geometry, oldChild)
    ensures r.native == b.native && r.hosted == b.hosted
    ensures r.dirty == InvalidateLayer(b.dirty, parent, Index(geometry, oldChild).bounds, tree, geometry, rank)
  {
    b.(dirty := InvalidateLayer(b.dirty, parent, Index(geometry, oldChild).bounds, tree, geometry, rank))
  }

  /** `host_layer`: the compositor hosts at most one layer (debug assertion). */
  function HostLayer(b: GlBackend, layer: LayerId): (r: GlBackend)
    requires b.hosted.None?
    ensures r.hosted == Some(layer) && r.native == b.native && r.dirty == b.dirty
  {
    b.(hosted := Some(layer))
  }

  /** `unhost_layer`: only the hosted layer can be unhosted (debug assertion). */
  function UnhostLayer(b: GlBackend, layer: LayerId): (r: GlBackend)
    requires b.hosted == Some(layer)
    ensures r.hosted.None? && r.native == b.native && r.dirty == b.dirty
  {
    b.(hosted := None)
  }

  lemma HostThenUnhost(b: GlBackend, layer: LayerId)
    requires b.hosted.None?
    ensures UnhostLayer(HostLayer(b, layer), layer) == b
  {
  }

  // Geometry

  /** The cached framebuffer of `layer`, if it has one. */
  function CachedFramebuffer(native: LayerMap<GlNative>, layer: LayerId): Option<Framebuffer> {
    if Has(native, layer) then Index(native, layer).framebuffer else None
  }

  /**
   * `set_layer_bounds`, called after the geometry component holds the new
   * bounds: the parent is damaged where the layer used to be (when the
   * parent is a layer), a framebuffer of a different size is dropped, and
   * the layer is damaged over its new size. Comparing against a cached
   * framebuffer converts the new size with `to_u32`, which panics on a
   * negative extent.
   */
  function SetLayerBounds(b: GlBackend, layer: LayerId, oldBounds: Rect, tree: LayerMap<TreeInfo>,
                          geometry: LayerMap<GeometryInfo>, rank: LayerId -> nat): (r: GlBackend)
    requires Acyclic(tree, rank) && OffsetsKnown(tree, geometry, rank, layer)
    requires Has(geometry, layer)
    requires CachedFramebuffer(b.native, layer).Some? ==> NonNegative(Index(geometry, layer).bounds)
    ensures r.hosted == b.hosted
    ensures Has(r.native, layer) <==> Has(b.native, layer)
    ensures forall l :: l != layer ==> Get(r.native, l) == Get(b.native, l)
    ensures var fb := CachedFramebuffer(b.native, layer);
            CachedFramebuffer(r.native, layer)
              == if fb.Some? && fb.value.size == Index(geometry, layer).bounds.size then fb else None
  {
    var dirty1 :=
      if Has(tree, layer) && Index(tree, layer).parent.Layer?
      then InvalidateLayer(b.dirty, Index(tree, layer).parent.id, oldBounds, tree, geometry, rank)
      else b.dirty;
    var newSize := Index(geometry, layer).bounds.size;
    var native :=
      if Has(b.native, layer) && Index(b.native, layer).framebuffer.Some?
         && Index(b.native, layer).framebuffer.value.size != newSize
      then Set(b.native, layer, GlNative(None))
      else b.native;
    b.(native := native, dirty := InvalidateLayer(dirty1, layer, Rect(Origin, newSize), tree, geometry, rank))
  }

  /**
   * The damage `set_layer_bounds` records: the old area in the parent's
   * coordinates (when the parent is a layer), then the new area of the layer.
   */
  lemma SetLayerBoundsDamage(b: GlBackend, layer: LayerId, oldBounds: Rect, tree: LayerMap<TreeInfo>,
                             geometry: LayerMap<GeometryInfo>, rank: LayerId -> nat)
    requires Acyclic(tree, rank) && OffsetsKnown(tree, geometry, rank, layer)
    requires Has(geometry, layer)
    requires CachedFramebuffer(b.native, layer).Some? ==> NonNegative(Index(geometry, layer).bounds)
    ensures var size := Index(geometry, layer).bounds.size;
            var r := SetLayerBounds(b, layer, oldBounds, tree, geometry, rank);
            if Has(tree, layer) && Index(tree, layer).parent.Layer? then
              var p := Index(tree, layer).parent.id;
              r.dirty == InvalidateLayer(InvalidateLayer(b.dirty, p, oldBounds, tree, geometry, rank),
                                         p, Translate(Rect(Origin, size), Index(geometry, layer).bounds.origin), tree, geometry, rank)
            else if Has(tree, layer) then
              r.dirty == Accumulate(b.dirty, Rect(Origin, size))
            else
              r.dirty == b.dirty
  {
  }

  // Content binding

  /**
   * `bind_layer_to_gl_context`: reuses the cached framebuffer, or makes one
   * (GL name `newName`, supplied by the caller in place of `glGenFramebuffers`)
   * of the layer's size, with a depth/stencil renderbuffer exactly when the
   * surface asks for depth or stencil. Returns the bound framebuffer's name.
   * A new framebuffer's size goes through `to_u32`, which panics on a
   * negative extent.
   */
  function BindLayer(b: GlBackend, layer: LayerId, geometry: LayerMap<GeometryInfo>,
                     surfaces: LayerMap<SurfaceInfo>, newName: nat): (r: (GlBackend, nat))
    requires Has(b.native, layer)
    requires Index(b.native, layer).framebuffer.None? ==>
               Has(geometry, layer) && Has(surfaces, layer) && NonNegative(Index(geometry, layer).bounds)
    ensures CachedFramebuffer(r.0.native, layer).Some?
    ensures r.1 == CachedFramebuffer(r.0.native, layer).value.name
    ensures forall l :: l != layer ==> Get(r.0.native, l) == Get(b.native, l)
    ensures r.0.hosted == b.hosted && r.0.dirty == b.dirty
  {
    match Index(b.native, layer).framebuffer
    case Some(fb) => (b, fb.name)
    case None =>
      var options := Index(surfaces, layer).options;
      var fb := Framebuffer(newName, Index(geometry, layer).bounds.size, options, options.depth || options.stencil);
      (b.(native := Set(b.native, layer, GlNative(Some(fb)))), newName)
  }

  /** A cached framebuffer is reused; otherwise a new one matches the layer's size and options. */
  lemma BindCaches(b: GlBackend, layer: LayerId, geometry: LayerMap<GeometryInfo>,
                   surfaces: LayerMap<SurfaceInfo>, newName: nat)
    requires Has(b.native, layer)
    requires Index(b.native, layer).framebuffer.None? ==>
               Has(geometry, layer) && Has(surfaces, layer) && NonNegative(Index(geometry, layer).bounds)
    ensures var fb := CachedFramebuffer(b.native, layer);
            var r := BindLayer(b, layer, geometry, surfaces, newName);
            var nb := CachedFramebuffer(r.0.native, layer).value;
            if fb.Some? then r.0 == b && nb == fb.value
            else && nb.name == newName && nb.size == Index(geometry, layer).bounds.size
                 && nb.options == Index(surfaces, layer).options
                 && (nb.depthStencil <==> nb.options.depth || nb.options.stencil)
  {
  }

  /** Binding twice in a row makes one framebuffer: the second bind finds it cached. */
  lemma BindIdempotent(b: GlBackend, layer: LayerId, geometry: LayerMap<GeometryInfo>,
                       surfaces: LayerMap<SurfaceInfo>, newName: nat, nextName: nat)
    requires Has(b.native, layer)
    requires Index(b.native, layer).framebuffer.None? ==>
               Has(geometry, layer) && Has(surfaces, layer) && NonNegative(Index(geometry, layer).bounds)
    ensures var r := BindLayer(b, layer, geometry, surfaces, newName);
            BindLayer(r.0, layer, geometry, surfaces, nextName) == r
  {
  }

  /** A resize to the framebuffer's own size keeps the cache; binding afterwards reuses it. */
  lemma SameSizeKeepsFramebuffer(b: GlBackend, layer: LayerId, oldBounds: Rect, tree: LayerMap<TreeInfo>,
                                 geometry: LayerMap<GeometryInfo>, rank: LayerId -> nat, surfaces: LayerMap<SurfaceInfo>, newName: nat)
    requires Acyclic(tree, rank) && OffsetsKnown(tree, geometry, rank, layer)
    requires Has(geometry, layer) && Has(b.native, layer)
    requires var fb := Index(b.native, layer).framebuffer;
             fb.Some? && fb.value.size == Index(geometry, layer).bounds.size
    requires NonNegative(Index(geometry, layer).bounds)
    ensures var r := SetLayerBounds(b, layer, oldBounds, tree, geometry, rank);
            BindLayer(r, layer, geometry, surfaces, newName).1 == Index(b.native, layer).framebuffer.value.name
  {
  }

  /** `present_gl_context`: the area the client drew is damaged. */
  function PresentGlContext(b: GlBackend, layer: LayerId, drawn: Rect, tree: LayerMap<TreeInfo>,
                            geometry: LayerMap<GeometryInfo>, rank: LayerId -> nat): (r: GlBackend)
    requires Acyclic(tree, rank) && OffsetsKnown(tree, geometry, rank, layer)
    ensures r.native == b.native && r.hosted == b.hosted
    ensures r.dirty == InvalidateLayer(b.dirty, layer, drawn, tree, geometry, rank)
  {
    b.(dirty := InvalidateLayer(b.dirty, layer, drawn, tree, geometry, rank))
  }

  // Where the hooks' damage lands

  /**
   * `insert_before` damages the new child's whole area, placed in the hosted
   * root's coordinates at the sum of the offsets below the top of the
   * child's ancestry; a child whose ancestry is not hosted damages nothing.
   */
  lemma InsertBeforeDamage(b: GlBackend, newChild: LayerId, tree: LayerMap<TreeInfo>,
                           geometry: LayerMap<GeometryInfo>, rank: LayerId -> nat)
    requires Acyclic(tree, rank) && OffsetsKnown(tree, geometry, rank, newChild)
    requires Has(geometry, newChild)
    ensures var a := Ancestry(tree, rank, newChild);
            var area := Rect(SumOrigins(geometry, a[..|a| - 1]), Index(geometry, newChild).bounds.size);
            InsertBefore(b, newChild, tree, geometry, rank).dirty
              == if Has(tree, a[|a| - 1]) then Accumulate(b.dirty, area) else b.dirty
  {
    var rect := Rect(Origin, Index(geometry, newChild).bounds.size);
    InvalidateMatchesAncestry(b.dirty, newChild, rect, tree, geometry, rank);
  }

  /**
   * `remove_from_superlayer` damages the area the child covered: its bounds,
   * moved by the offsets below the top of the parent's ancestry; nothing
   * when the parent's ancestry is not hosted.
   */
  lemma RemoveFromSuperlayerDamage(b: GlBackend, oldChild: LayerId, parent: LayerId, tree: LayerMap<TreeInfo>,
                                   geometry: LayerMap<GeometryInfo>, rank: LayerId -> nat)
    requires Acyclic(tree, rank) && OffsetsKnown(tree, geometry, rank, parent)
    requires Has(geometry, oldChild)
    ensures var a := Ancestry(tree, rank, parent);
            var area := Translate(Index(geometry, oldChild).bounds, SumOrigins(geometry, a[..|a| - 1]));
            RemoveFromSuperlayer(b, oldChild, parent, tree, geometry, rank).dirty
              == if Has(tree, a[|a| - 1]) then Accumulate(b.dirty, area) else b.dirty
  {
    InvalidateMatchesAncestry(b.dirty, parent, Index(geometry, oldChild).bounds, tree, geometry, rank);
  }

  /**
   * `present_gl_context` damages the drawn rectangle, moved by the offsets
   * below the top of the layer's ancestry; nothing when that is not hosted.
   */
  lemma PresentGlContextDamage(b: GlBackend, layer: LayerId, drawn: Rect, tree: LayerMap<TreeInfo>,
                               geometry: LayerMap<GeometryInfo>, rank: LayerId -> nat)
    requires Acyclic(tree, rank) && OffsetsKnown(tree, geometry, rank, layer)
    ensures var a := Ancestry(tree, rank, layer);
            PresentGlContext(b, layer, drawn, tree, geometry, rank).dirty
              == if Has(tree, a[|a| - 1]) then Accumulate(b.dirty, Translate(drawn, SumOrigins(geometry, a[..|a| - 1]))) else b.dirty
  {
    InvalidateMatchesAncestry(b.dirty, layer, drawn, tree, geometry, rank);
  }

  // Screenshots

  /** The screenshot walk indexes the geometry of every layer it visits, the top one included. */
  ghost predicate OriginsKnown(tree: LayerMap<TreeInfo>, geometry: LayerMap<GeometryInfo>, rank: LayerId -> nat, l: LayerId)
    requires Acyclic(tree, rank)
    decreases rank(l)
  {
    && Has(geometry, l)
    && (Has(tree, l) && Index(tree, l).parent.Layer? ==> OriginsKnown(tree, geometry, rank, Index(tree, l).parent.id))
  }

  /**
   * The loop of `screenshot_hosted_layer`: the root's size, placed at the
   * sum of the offsets of the root and every ancestor, the top one included.
   * The bounds are then converted with `to_u32`, which panics on a negative
   * coordinate or extent: a root placed left of or above the window.
   */
  method ScreenshotBounds(tree: LayerMap<TreeInfo>, geometry: LayerMap<GeometryInfo>, ghost rank: LayerId -> nat, root: LayerId)
    returns (bounds: Rect)
    requires Acyclic(tree, rank) && OriginsKnown(tree, geometry, rank, root)
    requires ConvertsToU32(Rect(SumOrigins(geometry, Ancestry(tree, rank, root)), Index(geometry, root).bounds.size))
    ensures bounds.size == Index(geometry, root).bounds.size
    ensures bounds.origin == SumOrigins(geometry, Ancestry(tree, rank, root))
  {
    bounds := Rect(Origin, Index(geometry, root).bounds.size);
    var layer := root;
    ghost var visited: seq<LayerId> := [];
    while true
      invariant OriginsKnown(tree, geometry, rank, layer)
      invariant Ancestry(tree, rank, root) == visited + Ancestry(tree, rank, layer)
      invariant bounds.size == Index(geometry, root).bounds.size
      invariant AddPoints(bounds.origin, SumOrigins(geometry, Ancestry(tree, rank, layer)))
                == SumOrigins(geometry, Ancestry(tree, rank, root))
      decreases rank(layer)
    {
      var here := Ancestry(tree, rank, layer);
      var rest := SumOrigins(geometry, here[1..]);
      assert SumOrigins(geometry, here) == AddPoints(Index(geometry, layer).bounds.origin, rest);
      bounds := bounds.(origin := AddPoints(bounds.origin, Index(geometry, layer).bounds.origin));
      if Has(tree, layer) && Index(tree, layer).parent.Layer? {
        visited := visited + [layer];
        layer := Index(tree, layer).parent.id;
      } else {
        assert here == [layer];
        return;
      }
    }
  }

  /**
   * The screenshot is placed one offset further than damage travels: damage
   * stops below the top layer's offset, the screenshot adds it.
   */
  lemma ScreenshotAddsTopOffset(tree: LayerMap<TreeInfo>, geometry: LayerMap<GeometryInfo>, rank: LayerId -> nat, root: LayerId)
    requires Acyclic(tree, rank)
    ensures var a := Ancestry(tree, rank, root);
            SumOrigins(geometry, a) == AddPoints(SumOrigins(geometry, a[..|a| - 1]), OriginOf(geometry, a[|a| - 1]))
  {
    var a := Ancestry(tree, rank, root);
    SumOriginsSnoc(geometry, a[..|a| - 1], a[|a| - 1]);
    assert a[..|a| - 1] + [a[|a| - 1]] == a;
  }

  lemma {:induction false} SumOriginsSnoc(geometry: LayerMap<GeometryInfo>, s: seq<LayerId>, l: LayerId)
    ensures SumOrigins(geometry, s + [l]) == AddPoints(SumOrigins(geometry, s), OriginOf(geometry, l))
    decreases |s|
  {
    if |s| > 0 {
      assert (s + [l])[1..] == s[1..] + [l];
      SumOriginsSnoc(geometry, s[1..], l);
    } else {
      assert s + [l] == [l];
    }
  }
}

=== FILE: gl_render.dfy ===
/**
 * The OpenGL compositor's `end_transaction` as the source writes it: both
 * passes walk the components, a container through its `first_child` /
 * `next_sibling` links (opaque pass) or its `last_child` / `prev_sibling`
 * links (transparent pass). When the components represent a tree value,
 * the walks compute exactly the tree passes of `RenderPasses`.
 *
 * A walk returns `None` where the source would panic on a missing record;
 * the `fuel` argument bounds the walk, standing in for the termination the
 * source gets from a finite, consistent tree.
 */
module GlRender {
  import opened Wrappers
  import opened LayerMaps
  import opened Geometry
  import opened Layers
  import opened SiblingLists
  import opened RenderPasses
  import opened GlCompositor

  type Pass = (seq<Draw>, int)

  // Walking the components

  /** `render_opaque_layer_subtree` on layer `layer`, `origin` being the parent's accumulated offset. */
  function OpaqueWalk(c: Context, surfaces: LayerMap<SurfaceInfo>, native: LayerMap<GlNative>,
                      layer: LayerId, origin: Point, next: int, fuel: nat): Option<Pass>
    decreases fuel
  {
    if fuel == 0 || !Has(c.geometry, layer) then None
    else
      var at := AddPoints(origin, Index(c.geometry, layer).bounds.origin);
      if Has(c.containers, layer) then OpaqueSiblings(c, surfaces, native, Index(c.containers, layer).first, at, next, fuel - 1)
      else if !Has(surfaces, layer) then None
      else if !Index(surfaces, layer).options.isOpaque then Some(([], next + 1))
      else if !Has(native, layer) then None
      else Some((if Index(native, layer).framebuffer.Some? then [Draw(layer, at, next)] else [], next + 1))
  }

  /** The `while let Some(kid)` loop of the opaque pass, from `kid` onwards. */
  function OpaqueSiblings(c: Context, surfaces: LayerMap<SurfaceInfo>, native: LayerMap<GlNative>,
                          kid: Option<LayerId>, origin: Point, next: int, fuel: nat): Option<Pass>
    decreases fuel
  {
    if kid.None? then Some(([], next))
    else if fuel == 0 then None
    else
      match OpaqueWalk(c, surfaces, native, kid.value, origin, next, fuel - 1)
      case None => None
      case Some((a, mid)) =>
        if !Has(c.tree, kid.value) then None
        else
          match OpaqueSiblings(c, surfaces, native, Index(c.tree, kid.value).next, origin, mid, fuel - 1)
          case None => None
          case Some((b, last)) => Some((a + b, last))
  }

  /** `render_transparent_layer_subtree`: the counter steps back before a surface takes its slot. */
  function TransparentWalk(c: Context, surfaces: LayerMap<SurfaceInfo>, native: LayerMap<GlNative>,
                           layer: LayerId, origin: Point, next: int, fuel: nat): Option<Pass>
    decreases fuel
  {
    if fuel == 0 || !Has(c.geometry, layer) then None
    else
      var at := AddPoints(origin, Index(c.geometry, layer).bounds.origin);
      if Has(c.containers, layer) then TransparentSiblings(c, surfaces, native, Index(c.containers, layer).last, at, next, fuel - 1)
      else if !Has(surfaces, layer) then None
      else if Index(surfaces, layer).options.isOpaque then Some(([], next - 1))
      else if !Has(native, layer) then None
      else Some((if Index(native, layer).framebuffer.Some? then [Draw(layer, at, next - 1)] else [], next - 1))
  }

  /** The transparent pass's loop over the children, from `kid` backwards. */
  function TransparentSiblings(c: Context, surfaces: LayerMap<SurfaceInfo>, native: LayerMap<GlNative>,
                               kid: Option<LayerId>, origin: Point, next: int, fuel: nat): Option<Pass>
    decreases fuel
  {
    if kid.None? then Some(([], next))
    else if fuel == 0 then None
    else
      match TransparentWalk(c, surfaces, native, kid.value, origin, next, fuel - 1)
      case None => None
      case Some((a, mid)) =>
        if !Has(c.tree, kid.value) then None
        else
          match TransparentSiblings(c, surfaces, native, Index(c.tree, kid.value).prev, origin, mid, fuel - 1)
          case None => None
          case Some((b, last)) => Some((a + b, last))
  }

  // Components representing a tree

  function Ids(kids: seq<Node>): (r: seq<LayerId>)
    ensures |r| == |kids| && forall i :: 0 <= i < |kids| ==> r[i] == kids[i].id
  {
    seq(|kids|, i requires 0 <= i < |kids| => kids[i].id)
  }

  /** The first child's id, where the opaque loop starts. */
  function FirstId(kids: seq<Node>): Option<LayerId> {
    if |kids| > 0 then Some(kids[0].id) else None
  }

  /** The last child's id, where the transparent loop starts. */
  function LastId(kids: seq<Node>): Option<LayerId> {
    if |kids| > 0 then Some(kids[|kids| - 1].id) else None
  }

  /**
   * The components describe `n`: every node has its offset in the geometry
   * component; a container's `first_child` and `last_child` are the ends of
   * its children, and the children are chained in order by `next_sibling`
   * and in reverse by `prev_sibling`; a surface has its options and a native
   * record, drawable exactly when that record holds a framebuffer. (A
   * consistent sibling list is chained so, by `ListedKidsLinked`.)
   */
  ghost predicate Represents(c: Context, surfaces: LayerMap<SurfaceInfo>, native: LayerMap<GlNative>, n: Node)
    decreases n
  {
    && Has(c.geometry, n.id) && Index(c.geometry, n.id).bounds.origin == n.origin
    && match n
       case Container(id, _, kids) =>
         && Has(c.containers, id) && Index(c.containers, id) == ContainerInfo(FirstId(kids), LastId(kids))
         && NextLinked(c, kids) && PrevLinked(c, kids)
         && AllRepresented(c, surfaces, native, kids)
       case Surface(id, _, options, drawable) =>
         && !Has(c.containers, id)
         && Has(surfaces, id) && Index(surfaces, id).options == options
         && Has(native, id) && (drawable <==> Index(native, id).framebuffer.Some?)
  }

  /** Every node of `kids` is represented. */
  ghost predicate AllRepresented(c: Context, surfaces: LayerMap<SurfaceInfo>, native: LayerMap<GlNative>, kids: seq<Node>)
    decreases kids
  {
    |kids| == 0 || (Represents(c, surfaces, native, kids[0]) && AllRepresented(c, surfaces, native, kids[1..]))
  }

  /** Every node of `kids` is represented, counted from the last one: the order the transparent pass needs. */
  ghost predicate AllRepresentedBackwards(c: Context, surfaces: LayerMap<SurfaceInfo>, native: LayerMap<GlNative>, kids: seq<Node>)
    decreases |kids|
  {
    |kids| == 0 ||
    (Represents(c, surfaces, native, kids[|kids| - 1]) && AllRepresentedBackwards(c, surfaces, native, kids[..|kids| - 1]))
  }

  /** From the first of `kids`, each `next_sibling` is the following kid, and the last has none. */
  ghost predicate NextLinked(c: Context, kids: seq<Node>)
    decreases |kids|
  {
    |kids| == 0 ||
    (Has(c.tree, kids[0].id) && Index(c.tree, kids[0].id).next == FirstId(kids[1..]) && NextLinked(c, kids[1..]))
  }

  /** From the last of `kids`, each `prev_sibling` is the preceding kid, and the first has none. */
  ghost predicate PrevLinked(c: Context, kids: seq<Node>)
    decreases |kids|
  {
    |kids| == 0 ||
    (var last := kids[|kids| - 1].id;
     var front := kids[..|kids| - 1];
     Has(c.tree, last) && Index(c.tree, last).prev == LastId(front) && PrevLinked(c, front))
  }

  /** Container `n`'s own records: its offset, and its ends are its first and last child. */
  ghost predicate ContainerAt(c: Context, n: Node)
    requires n.Container?
  {
    && Has(c.geometry, n.id) && Index(c.geometry, n.id).bounds.origin == n.origin
    && Has(c.containers, n.id)
    && Index(c.containers, n.id) == ContainerInfo(FirstId(n.children), LastId(n.children))
  }

  lemma ContainerKids(c: Context, surfaces: LayerMap<SurfaceInfo>, native: LayerMap<GlNative>, n: Node)
    requires n.Container? && Represents(c, surfaces, native, n)
    ensures ContainerAt(c, n) && AllRepresented(c, surfaces, native, n.children)
    ensures AllRepresentedBackwards(c, surfaces, native, n.children)
    ensures NextLinked(c, n.children) && PrevLinked(c, n.children)
  {
    AllRepresentedReversed(c, surfaces, native, n.children);
  }

  /** Represented kids: the last one is represented, and so are the ones before it. */
  lemma {:induction false} AllRepresentedFront(c: Context, surfaces: LayerMap<SurfaceInfo>, native: LayerMap<GlNative>, kids: seq<Node>)
    requires AllRepresented(c, surfaces, native, kids) && |kids| > 0
    ensures Represents(c, surfaces, native, kids[|kids| - 1])
    ensures AllRepresented(c, surfaces, native, kids[..|kids| - 1])
    decreases |kids|
  {
    var rest := kids[1..];
    if |rest| > 0 {
      AllRepresentedFront(c, surfaces, native, rest);
      var front := kids[..|kids| - 1];
      assert front[0] == kids[0] && front[1..] == rest[..|rest| - 1];
      assert rest[|rest| - 1] == kids[|kids| - 1];
    } else {
      assert kids[..|kids| - 1] == [];
    }
  }

  /** The two ways of counting the represented kids agree. */
  lemma {:induction false} AllRepresentedReversed(c: Context, surfaces: LayerMap<SurfaceInfo>, native: LayerMap<GlNative>, kids: seq<Node>)
    requires AllRepresented(c, surfaces, native, kids)
    ensures AllRepresentedBackwards(c, surfaces, native, kids)
    decreases |kids|
  {
    if |kids| > 0 {
      AllRepresentedFront(c, surfaces, native, kids);
      AllRepresentedReversed(c, surfaces, native, kids[..|kids| - 1]);
    }
  }

  /**
   * A consistent sibling list is chained as `Represents` asks of a
   * container: its ends are the first and last child, and following
   * `next_sibling` (or `prev_sibling`) from an end meets the children in
   * order (or in reverse).
   */
  lemma ListedKidsLinked(c: Context, p: LayerId, kids: seq<Node>)
    requires ListedAs(c, p, Ids(kids))
    ensures Has(c.containers, p) && Index(c.containers, p) == ContainerInfo(FirstId(kids), LastId(kids))
    ensures NextLinked(c, kids) && PrevLinked(c, kids)
  {
    ListedNeighbours(c, p, kids);
    NeighboursLinked(c, kids);
  }

  /** In a consistent list each child's sibling links name its neighbours by position. */
  lemma ListedNeighbours(c: Context, p: LayerId, kids: seq<Node>)
    requires ListedAs(c, p, Ids(kids))
    ensures forall k :: 0 <= k < |kids| ==> Has(c.tree, kids[k].id) && Index(c.tree, kids[k].id).next == After(kids, k)
    ensures forall k :: 0 <= k < |kids| ==> Has(c.tree, kids[k].id) && Index(c.tree, kids[k].id).prev == Before(kids, k)
  {
    var ids := Ids(kids);
    forall k | 0 <= k < |kids|
      ensures Has(c.tree, kids[k].id) && Index(c.tree, kids[k].id).next == After(kids, k)
      ensures Index(c.tree, kids[k].id).prev == Before(kids, k)
    {
      assert Get(c.tree, ids[k]) == Some(TreeInfo(Layer(p), PrevOf(ids, k), NextOf(ids, k)));
    }
  }

  lemma NeighboursLinked(c: Context, kids: seq<Node>)
    requires forall k :: 0 <= k < |kids| ==> Has(c.tree, kids[k].id) && Index(c.tree, kids[k].id).next == After(kids, k)
    requires forall k :: 0 <= k < |kids| ==> Has(c.tree, kids[k].id) && Index(c.tree, kids[k].id).prev == Before(kids, k)
    ensures NextLinked(c, kids) && PrevLinked(c, kids)
  {
    NextLinkedFrom(c, kids, 0);
    assert kids[0..] == kids;
    PrevLinkedUpTo(c, kids, |kids|);
    assert kids[..|kids|] == kids;
  }

  /** The kid after the `i`-th one, by position in the list. */
  function After(kids: seq<Node>, i: nat): Option<LayerId>
    requires i < |kids|
  {
    if i + 1 < |kids| then Some(kids[i + 1].id) else None
  }

  /** The kid before the `j`-th one, by position in the list. */
  function Before(kids: seq<Node>, j: nat): Option<LayerId>
    requires j < |kids|
  {
    if j > 0 then Some(kids[j - 1].id) else None
  }

  lemma {:induction false} NextLinkedFrom(c: Context, kids: seq<Node>, i: nat)
    requires forall k :: 0 <= k < |kids| ==> Has(c.tree, kids[k].id) && Index(c.tree, kids[k].id).next == After(kids, k)
    requires i <= |kids|
    ensures NextLinked(c, kids[i..])
    decreases |kids| - i
  {
    if i < |kids| {
      NextLinkedFrom(c, kids, i + 1);
      var suffix := kids[i..];
      assert suffix[0] == kids[i] && suffix[1..] == kids[i + 1..];
      assert FirstId(kids[i + 1..]) == After(kids, i);
    }
  }

  lemma {:induction false} PrevLinkedUpTo(c: Context, kids: seq<Node>, j: nat)
    requires forall k :: 0 <= k < |kids| ==> Has(c.tree, kids[k].id) && Index(c.tree, kids[k].id).prev == Before(kids, k)
    requires j <= |kids|
    ensures PrevLinked(c, kids[..j])
    decreases j
  {
    if j > 0 {
      PrevLinkedUpTo(c, kids, j - 1);
      var prefix := kids[..j];
      assert prefix[|prefix| - 1] == kids[j - 1] && prefix[..|prefix| - 1] == kids[..j - 1];
      assert LastId(kids[..j - 1]) == Before(kids, j - 1);
    }
  }

  /** Number of nodes, the measure for the walks' fuel. */
  function Nodes(n: Node): nat
    decreases n
  {
    match n
    case Surface(_, _, _, _) => 1
    case Container(_, _, kids) => 1 + NodesOfKids(kids)
  }

  function NodesOfKids(kids: seq<Node>): nat
    decreases kids
  {
    if |kids| == 0 then 0 else Nodes(kids[0]) + NodesOfKids(kids[1..])
  }

  lemma {:induction false} NodesOfKidsSplitLast(kids: seq<Node>)
    requires |kids| > 0
    ensures NodesOfKids(kids) == NodesOfKids(kids[..|kids| - 1]) + Nodes(kids[|kids| - 1])
    decreases |kids|
  {
    if |kids| > 1 {
      var tail := kids[1..];
      assert tail[..|tail| - 1] == kids[..|kids| - 1][1..];
      NodesOfKidsSplitLast(tail);
    }
  }

  // The walks compute the tree passes

  /** One step of the opaque walk on a surface: it takes one slot and draws per its flags. */
  lemma OpaqueSurfaceStep(c: Context, surfaces: LayerMap<SurfaceInfo>, native: LayerMap<GlNative>, n: Node, origin: Point, next: int, fuel: nat)
    requires n.Surface? && Represents(c, surfaces, native, n) && fuel >= 1
    ensures OpaqueWalk(c, surfaces, native, n.id, origin, next, fuel) == Some(OpaquePass(n, origin, next))
  {
  }

  /** One step of the opaque walk on a container: it continues at the first child. */
  lemma OpaqueContainerStep(c: Context, surfaces: LayerMap<SurfaceInfo>, native: LayerMap<GlNative>, n: Node, origin: Point, next: int, fuel: nat)
    requires n.Container? && ContainerAt(c, n) && fuel >= 1
    ensures OpaqueWalk(c, surfaces, native, n.id, origin, next, fuel)
            == OpaqueSiblings(c, surfaces, native, FirstId(n.children), AddPoints(origin, n.origin), next, fuel - 1)
  {
  }

  lemma TransparentSurfaceStep(c: Context, surfaces: LayerMap<SurfaceInfo>, native: LayerMap<GlNative>, n: Node, origin: Point, next: int, fuel: nat)
    requires n.Surface? && Represents(c, surfaces, native, n) && fuel >= 1
    ensures TransparentWalk(c, surfaces, native, n.id, origin, next, fuel) == Some(TransparentPass(n, origin, next))
  {
  }

  lemma TransparentContainerStep(c: Context, surfaces: LayerMap<SurfaceInfo>, native: LayerMap<GlNative>, n: Node, origin: Point, next: int, fuel: nat)
    requires n.Container? && ContainerAt(c, n) && fuel >= 1
    ensures TransparentWalk(c, surfaces, native, n.id, origin, next, fuel)
            == TransparentSiblings(c, surfaces, native, LastId(n.children), AddPoints(origin, n.origin), next, fuel - 1)
  {
  }

  /** One turn of the opaque sibling loop: walk the first kid, then follow its `next_sibling`. */
  lemma OpaqueSiblingsStep(c: Context, surfaces: LayerMap<SurfaceInfo>, native: LayerMap<GlNative>, kids: seq<Node>, origin: Point, next: int, fuel: nat, w: Pass, rest: Pass)
    requires NextLinked(c, kids) && |kids| > 0 && fuel >= 1
    requires OpaqueWalk(c, surfaces, native, kids[0].id, origin, next, fuel - 1) == Some(w)
    requires OpaqueSiblings(c, surfaces, native, FirstId(kids[1..]), origin, w.1, fuel - 1) == Some(rest)
    ensures OpaqueSiblings(c, surfaces, native, FirstId(kids), origin, next, fuel) == Some((w.0 + rest.0, rest.1))
  {
  }

  /** One turn of the transparent sibling loop: walk the last kid, then follow its `prev_sibling`. */
  lemma TransparentSiblingsStep(c: Context, surfaces: LayerMap<SurfaceInfo>, native: LayerMap<GlNative>, kids: seq<Node>, origin: Point, next: int, fuel: nat, w: Pass, rest: Pass)
    requires PrevLinked(c, kids) && |kids| > 0 && fuel >= 1
    requires TransparentWalk(c, surfaces, native, kids[|kids| - 1].id, origin, next, fuel - 1) == Some(w)
    requires TransparentSiblings(c, surfaces, native, LastId(kids[..|kids| - 1]), origin, w.1, fuel - 1) == Some(rest)
    ensures TransparentSiblings(c, surfaces, native, LastId(kids), origin, next, fuel) == Some((w.0 + rest.0, rest.1))
  {
  }

  /**
   * On components that represent `n`, with enough fuel, the opaque walk
   * computes the opaque pass over the tree.
   */
  lemma {:induction false} OpaqueWalkMatches(c: Context, surfaces: LayerMap<SurfaceInfo>, native: LayerMap<GlNative>, n: Node, origin: Point, next: int, fuel: nat)
    requires Represents(c, surfaces, native, n) && fuel + 1 >= 2 * Nodes(n)
    ensures OpaqueWalk(c, surfaces, native, n.id, origin, next, fuel) == Some(OpaquePass(n, origin, next))
    decreases fuel, 1
  {
    if n.Surface? {
      OpaqueSurfaceStep(c, surfaces, native, n, origin, next, fuel);
    } else {
      ContainerKids(c, surfaces, native, n);
      OpaqueContainerMatches(c, surfaces, native, n, origin, next, fuel);
    }
  }

  lemma {:induction false} OpaqueContainerMatches(c: Context, surfaces: LayerMap<SurfaceInfo>, native: LayerMap<GlNative>, n: Node, origin: Point, next: int, fuel: nat)
    requires n.Container? && ContainerAt(c, n) && fuel + 1 >= 2 * Nodes(n)
    requires AllRepresented(c, surfaces, native, n.children) && NextLinked(c, n.children)
    ensures OpaqueWalk(c, surfaces, native, n.id, origin, next, fuel) == Some(OpaquePass(n, origin, next))
    decreases fuel, 0
  {
    var at := AddPoints(origin, n.origin);
    OpaqueContainerStep(c, surfaces, native, n, origin, next, fuel);
    OpaqueSiblingsMatch(c, surfaces, native, n.children, at, next, fuel - 1);
    assert OpaquePass(n, origin, next) == OpaqueKids(n.children, at, next);
  }

  lemma {:induction false} OpaqueSiblingsMatch(c: Context, surfaces: LayerMap<SurfaceInfo>, native: LayerMap<GlNative>, kids: seq<Node>, origin: Point, next: int, fuel: nat)
    requires AllRepresented(c, surfaces, native, kids) && NextLinked(c, kids)
    requires fuel >= 2 * NodesOfKids(kids)
    ensures OpaqueSiblings(c, surfaces, native, FirstId(kids), origin, next, fuel) == Some(OpaqueKids(kids, origin, next))
    decreases fuel, 2
  {
    if |kids| > 0 {
      var w := OpaquePass(kids[0], origin, next);
      OpaqueKidWalks(c, surfaces, native, kids, origin, next, fuel);
      OpaqueSiblingsMatch(c, surfaces, native, kids[1..], origin, w.1, fuel - 1);
      var rest := OpaqueKids(kids[1..], origin, w.1);
      OpaqueSiblingsStep(c, surfaces, native, kids, origin, next, fuel, w, rest);
    }
  }

  /** The opaque walk of the first kid computes its pass, leaving enough fuel for the kids after it. */
  lemma {:induction false} OpaqueKidWalks(c: Context, surfaces: LayerMap<SurfaceInfo>, native: LayerMap<GlNative>, kids: seq<Node>, origin: Point, next: int, fuel: nat)
    requires AllRepresented(c, surfaces, native, kids) && |kids| > 0
    requires fuel >= 2 * NodesOfKids(kids)
    ensures fuel >= 2 && fuel - 1 >= 2 * NodesOfKids(kids[1..])
    ensures OpaqueWalk(c, surfaces, native, kids[0].id, origin, next, fuel - 1) == Some(OpaquePass(kids[0], origin, next))
    decreases fuel, 1
  {
    OpaqueWalkMatches(c, surfaces, native, kids[0], origin, next, fuel - 1);
  }

  /**
   * On components that represent `n`, with enough fuel, the transparent
   * walk computes the transparent pass over the tree.
   */
  lemma {:induction false} TransparentWalkMatches(c: Context, surfaces: LayerMap<SurfaceInfo>, native: LayerMap<GlNative>, n: Node, origin: Point, next: int, fuel: nat)
    requires Represents(c, surfaces, native, n) && fuel + 1 >= 2 * Nodes(n)
    ensures TransparentWalk(c, surfaces, native, n.id, origin, next, fuel) == Some(TransparentPass(n, origin, next))
    decreases fuel, 1
  {
    if n.Surface? {
      TransparentSurfaceStep(c, surfaces, native, n, origin, next, fuel);
    } else {
      ContainerKids(c, surfaces, native, n);
      TransparentContainerMatches(c, surfaces, native, n, origin, next, fuel);
    }
  }

  lemma {:induction false} TransparentContainerMatches(c: Context, surfaces: LayerMap<SurfaceInfo>, native: LayerMap<GlNative>, n: Node, origin: Point, next: int, fuel: nat)
    requires n.Container? && ContainerAt(c, n) && fuel + 1 >= 2 * Nodes(n)
    requires AllRepresentedBackwards(c, surfaces, native, n.children) && PrevLinked(c, n.children)
    ensures TransparentWalk(c, surfaces, native, n.id, origin, next, fuel) == Some(TransparentPass(n, origin, next))
    decreases fuel, 0
  {
    var at := AddPoints(origin, n.origin);
    TransparentContainerStep(c, surfaces, native, n, origin, next, fuel);
    TransparentSiblingsMatch(c, surfaces, native, n.children, at, next, fuel - 1);
    assert TransparentPass(n, origin, next) == TransparentKids(n.children, at, next);
  }

  lemma {:induction false} TransparentSiblingsMatch(c: Context, surfaces: LayerMap<SurfaceInfo>, native: LayerMap<GlNative>, kids: seq<Node>, origin: Point, next: int, fuel: nat)
    requires AllRepresentedBackwards(c, surfaces, native, kids) && PrevLinked(c, kids)
    requires fuel >= 2 * NodesOfKids(kids)
    ensures TransparentSiblings(c, surfaces, native, LastId(kids), origin, next, fuel) == Some(TransparentKids(kids, origin, next))
    decreases fuel, 2
  {
    if |kids| > 0 {
      var w := TransparentPass(kids[|kids| - 1], origin, next);
      TransparentKidWalks(c, surfaces, native, kids, origin, next, fuel);
      TransparentSiblingsMatch(c, surfaces, native, kids[..|kids| - 1], origin, w.1, fuel - 1);
      var rest := TransparentKids(kids[..|kids| - 1], origin, w.1);
      TransparentSiblingsStep(c, surfaces, native, kids, origin, next, fuel, w, rest);
    }
  }

  /** The transparent walk of the last kid computes its pass, leaving enough fuel for the kids before it. */
  lemma {:induction false} TransparentKidWalks(c: Context, surfaces: LayerMap<SurfaceInfo>, native: LayerMap<GlNative>, kids: seq<Node>, origin: Point, next: int, fuel: nat)
    requires AllRepresentedBackwards(c, surfaces, native, kids) && |kids| > 0
    requires fuel >= 2 * NodesOfKids(kids)
    ensures fuel >= 2 && fuel - 1 >= 2 * NodesOfKids(kids[..|kids| - 1])
    ensures TransparentWalk(c, surfaces, native, kids[|kids| - 1].id, origin, next, fuel - 1)
            == Some(TransparentPass(kids[|kids| - 1], origin, next))
    decreases fuel, 1
  {
    NodesOfKidsSplitLast(kids);
    TransparentWalkMatches(c, surfaces, native, kids[|kids| - 1], origin, next, fuel - 1);
  }

  // end_transaction

  /** The render promise a transaction end hands back. */
  datatype Promise = Pending | Resolved

  /** What one frame draws: both passes, and the rectangle handed to `present`. */
  datatype Frame = Frame(front: seq<Draw>, back: seq<Draw>, presented: Rect)

  datatype Ended = Ended(backend: GlBackend, frame: Option<Frame>, promise: Promise)

  /**
   * `end_transaction`: with damage and a hosted layer, runs the opaque pass
   * from depth 0 and the transparent pass from where it stopped, then
   * presents the damage; with damage but nothing hosted, only forgets the
   * damage; with no damage, draws nothing. The promise is resolved on every
   * path. `None` is a walk that panics or runs out of fuel.
   */
  function EndTransaction(b: GlBackend, c: Context, surfaces: LayerMap<SurfaceInfo>, fuel: nat): (r: Option<Ended>)
    ensures b.dirty.None? || b.hosted.None? ==> r.Some? && r.value.frame.None?
    ensures r.Some? ==> r.value.promise == Resolved && r.value.backend.dirty.None?
    ensures r.Some? ==> r.value.backend.native == b.native && r.value.backend.hosted == b.hosted
    ensures r.Some? && r.value.frame.Some? ==> b.dirty.Some? && r.value.frame.value.presented == b.dirty.value
  {
    match (b.dirty, b.hosted)
    case (Some(damage), Some(root)) =>
      (match OpaqueWalk(c, surfaces, b.native, root, Origin, 0, fuel)
       case None => None
       case Some((front, mid)) =>
         match TransparentWalk(c, surfaces, b.native, root, Origin, mid, fuel)
         case None => None
         case Some((back, _)) => Some(Ended(b.(dirty := None), Some(Frame(front, back, damage)), Resolved)))
    case (Some(_), None) => Some(Ended(b.(dirty := None), None, Resolved))
    case (None, _) => Some(Ended(b, None, Resolved))
  }

  /**
   * A frame over components that represent the hosted tree `root`: the
   * opaque pass draws the opaque drawable surfaces front to back, the
   * transparent pass the others back to front, and every drawable surface
   * is drawn exactly once, at its pre-order index as depth slot.
   */
  lemma EndTransactionRendersTree(b: GlBackend, c: Context, surfaces: LayerMap<SurfaceInfo>, fuel: nat, root: Node)
    requires b.dirty.Some? && b.hosted == Some(root.id)
    requires Represents(c, surfaces, b.native, root) && fuel >= 2 * Nodes(root)
    ensures var r := EndTransaction(b, c, surfaces, fuel);
            var s := Slots(root, Origin);
            && r.Some? && r.value.frame.Some?
            && r.value.frame.value.front == OpaqueDraws(s, 0)
            && r.value.frame.value.back == TransparentDraws(s, 0)
            && forall k :: 0 <= k < |s| && s[k].drawable ==>
                 (Draw(s[k].id, s[k].at, k) in r.value.frame.value.front <==> s[k].options.isOpaque)
                 && (Draw(s[k].id, s[k].at, k) in r.value.frame.value.back <==> !s[k].options.isOpaque)
  {
    OpaqueWalkMatches(c, surfaces, b.native, root, Origin, 0, fuel);
    var mid := OpaquePass(root, Origin, 0).1;
    TransparentWalkMatches(c, surfaces, b.native, root, Origin, mid, fuel);
    RenderFrame(root);
  }

  /** Ending twice draws at most once: the first end forgets the damage. */
  lemma SecondEndDrawsNothing(b: GlBackend, c: Context, surfaces: LayerMap<SurfaceInfo>, fuel: nat)
    requires EndTransaction(b, c, surfaces, fuel).Some?
    ensures var r := EndTransaction(b, c, surfaces, fuel).value;
            var r2 := EndTransaction(r.backend, c, surfaces, fuel);
            r2.Some? && r2.value.frame.None? && r2.value.backend == r.backend
  {
  }
}

=== FILE: layer_map.dfy ===
/**
 * The component store of src/lib.rs: a `LayerMap<T>` is a sparse, growable
 * vector of optional records indexed by the number inside a `LayerId`.
 */
module LayerMaps {
  import opened Wrappers

  /** A layer handle. The source wraps a `u32`; ids are allocated below `U32Limit`. */
  type LayerId = nat

  const U32Limit: nat := 0x1_0000_0000

  /** No layer occurs twice. */
  predicate Distinct(ls: seq<LayerId>) {
    forall i, j :: 0 <= i < j < |ls| ==> ls[i] != ls[j]
  }

  type LayerMap<T> = seq<Option<T>>

  function Empty<T>(): (m: LayerMap<T>)
    ensures |m| == 0
  {
    []
  }

  /** Presence test: the id is in range and its slot is occupied. */
  predicate Has<T>(m: LayerMap<T>, id: LayerId) {
    id < |m| && m[id].Some?
  }

  /** Optional lookup; out-of-range ids read as absent. */
  function Get<T>(m: LayerMap<T>, id: LayerId): (r: Option<T>)
    ensures r.Some? <==> Has(m, id)
    ensures id >= |m| ==> r == None
    ensures id < |m| ==> r == m[id]
  {
    if id >= |m| then None else m[id]
  }

  /** Indexed access (`m[id]`); the source unwraps, so presence is demanded. */
  function Index<T>(m: LayerMap<T>, id: LayerId): (v: T)
    requires Has(m, id)
    ensures Get(m, id) == Some(v)
  {
    m[id].value
  }

  /** `len` padded with `None` until index `id` exists. */
  function Grow<T>(m: LayerMap<T>, id: LayerId): (r: LayerMap<T>)
    ensures |r| == if id < |m| then |m| else id + 1
    ensures forall i :: 0 <= i < |r| ==> r[i] == Get(m, i)
    decreases id + 1 - |m|
  {
    if id < |m| then m else Grow(m + [None], id)
  }

  /** Stores `v` at `id`, growing the storage; an occupied slot is a debug-assertion failure. */
  function Add<T>(m: LayerMap<T>, id: LayerId, v: T): (r: LayerMap<T>)
    requires !Has(m, id)
    ensures |r| == if id < |m| then |m| else id + 1
    ensures Get(r, id) == Some(v)
    ensures forall i :: i != id ==> Get(r, i) == Get(m, i)
  {
    Grow(m, id)[id := Some(v)]
  }

  /** Replaces the value in an occupied slot (the `IndexMut` write pattern `m[id] = ...`). */
  function Set<T>(m: LayerMap<T>, id: LayerId, v: T): (r: LayerMap<T>)
    requires Has(m, id)
    ensures |r| == |m|
    ensures Get(r, id) == Some(v)
    ensures forall i :: i != id ==> Get(r, i) == Get(m, i)
  {
    m[id := Some(v)]
  }

  /** Removes and returns the value; absence is a debug-assertion failure. */
  function Take<T>(m: LayerMap<T>, id: LayerId): (r: (LayerMap<T>, T))
    requires Has(m, id)
    ensures Get(m, id) == Some(r.1)
    ensures |r.0| == |m|
    ensures !Has(r.0, id)
    ensures forall i :: i != id ==> Get(r.0, i) == Get(m, i)
  {
    (m[id := None], m[id].value)
  }

  function Remove<T>(m: LayerMap<T>, id: LayerId): (r: LayerMap<T>)
    requires Has(m, id)
    ensures |r| == |m| && !Has(r, id)
    ensures forall i :: i != id ==> Get(r, i) == Get(m, i)
  {
    Take(m, id).0
  }

  function RemoveIfPresent<T>(m: LayerMap<T>, id: LayerId): (r: LayerMap<T>)
    ensures |r| == |m| && !Has(r, id)
    ensures forall i :: i != id ==> Get(r, i) == Get(m, i)
    ensures !Has(m, id) ==> r == m
  {
    if Has(m, id) then Remove(m, id) else m
  }

  /** `get_mut_default`: grows the storage and fills an empty slot with `default`. */
  function EnsureDefault<T>(m: LayerMap<T>, id: LayerId, default: T): (r: LayerMap<T>)
    ensures |r| == if id < |m| then |m| else id + 1
    ensures Get(r, id) == if Has(m, id) then Get(m, id) else Some(default)
    ensures forall i :: i != id ==> Get(r, i) == Get(m, i)
  {
    var g := Grow(m, id);
    if g[id].None? then g[id := Some(default)] else g
  }

  /** Removing twice is removing once. */
  lemma RemoveIfPresentIdempotent<T>(m: LayerMap<T>, id: LayerId)
    ensures RemoveIfPresent(RemoveIfPresent(m, id), id) == RemoveIfPresent(m, id)
  {
  }

  /** Taking a value just added gives it back and leaves every slot as it was, padding aside. */
  lemma AddThenTake<T>(m: LayerMap<T>, id: LayerId, v: T)
    requires !Has(m, id)
    ensures Take(Add(m, id, v), id).1 == v
    ensures forall i :: Get(Take(Add(m, id, v), id).0, i) == Get(m, i)
  {
  }
}

=== FILE: layers.dfy ===
/**
 * The layer context of src/lib.rs: the entity-component tree model, the
 * transaction nesting counter, monotonic id allocation and the sibling-list
 * surgery done by `insert_before` and `remove_from_parent`, exactly as that
 * revision of the file writes them. Calls into the backend are recorded as a
 * trace of `Hook` events.
 */
module Layers {
  import opened Wrappers
  import opened LayerMaps
  import opened Geometry

  datatype LayerParent = Layer(id: LayerId) | NativeHost

  datatype TreeInfo = TreeInfo(parent: LayerParent, prev: Option<LayerId>, next: Option<LayerId>)

  datatype ContainerInfo = ContainerInfo(first: Option<LayerId>, last: Option<LayerId>)

  datatype GeometryInfo = GeometryInfo(bounds: Rect)

  /** `LayerGeometryInfo::default()`: the zero rectangle. */
  const DefaultGeometry: GeometryInfo := GeometryInfo(ZeroRect)

  /** Opaque handles owned by the backend (a native view, a surface). */
  type Host = nat
  type SurfaceHandle = nat

  /** One call made into the backend. */
  datatype Hook =
    | BeginHook
    | EndHook
    | AddContainerHook(layer: LayerId)
    | AddSurfaceHook(layer: LayerId)
    | DeleteHook(layer: LayerId)
    | InsertBeforeHook(parent: LayerId, child: LayerId, reference: Option<LayerId>)
    | RemoveFromSuperlayerHook(layer: LayerId)
    | HostHook(layer: LayerId, host: Host)
    | UnhostHook(layer: LayerId)
    | SetBoundsHook(layer: LayerId, bounds: Rect)
    | SetContentsHook(layer: LayerId, surface: SurfaceHandle)
    | RefreshContentsHook(layer: LayerId, changed: Rect)
    | SetOpaqueHook(layer: LayerId, isOpaque: bool)

  datatype Context = Context(
    nextLayerId: LayerId,
    level: nat,
    tree: LayerMap<TreeInfo>,
    containers: LayerMap<ContainerInfo>,
    geometry: LayerMap<GeometryInfo>,
    hooks: seq<Hook>)

  function NewContext(): (c: Context)
    ensures c.nextLayerId == 0 && c.level == 0 && c.hooks == []
    ensures forall l :: !Has(c.tree, l) && !Has(c.containers, l) && !Has(c.geometry, l)
  {
    Context(0, 0, Empty(), Empty(), Empty(), [])
  }

  predicate InTransaction(c: Context) {
    c.level > 0
  }

  // Transactions

  /** Nesting counter up; the backend hears about the outermost begin only. */
  function BeginTransaction(c: Context): (r: Context)
    requires c.level + 1 < U32Limit
    ensures r.level == c.level + 1
    ensures r.hooks == c.hooks + (if c.level == 0 then [BeginHook] else [])
    ensures r == c.(level := r.level, hooks := r.hooks)
  {
    c.(level := c.level + 1, hooks := c.hooks + if c.level == 0 then [BeginHook] else [])
  }

  /** Nesting counter down (underflow is a panic); the backend hears the outermost end only. */
  function EndTransaction(c: Context): (r: Context)
    requires c.level > 0
    ensures r.level + 1 == c.level
    ensures r.hooks == c.hooks + (if c.level == 1 then [EndHook] else [])
    ensures r == c.(level := r.level, hooks := r.hooks)
  {
    c.(level := c.level - 1, hooks := c.hooks + if c.level == 1 then [EndHook] else [])
  }

  function Begins(c: Context, n: nat): (r: Context)
    requires c.level + n < U32Limit
    ensures r.level == c.level + n
    decreases n
  {
    if n == 0 then c else BeginTransaction(Begins(c, n - 1))
  }

  function Ends(c: Context, n: nat): (r: Context)
    requires n <= c.level
    ensures r.level == c.level - n
    decreases n
  {
    if n == 0 then c else EndTransaction(Ends(c, n - 1))
  }

  lemma {:induction false} BeginsNested(c: Context, n: nat)
    requires c.level == 0 && 0 < n < U32Limit
    ensures Begins(c, n).level == n
    ensures Begins(c, n).hooks == c.hooks + [BeginHook]
    ensures Begins(c, n) == c.(level := n, hooks := c.hooks + [BeginHook])
  {
    if n > 1 {
      BeginsNested(c, n - 1);
    }
  }

  lemma {:induction false} EndsNested(c: Context, m: nat)
    requires m <= c.level
    ensures Ends(c, m).level == c.level - m
    ensures Ends(c, m).hooks == c.hooks + (if 0 < m && m == c.level then [EndHook] else [])
    ensures Ends(c, m) == c.(level := c.level - m, hooks := Ends(c, m).hooks)
  {
    if m > 0 {
      EndsNested(c, m - 1);
    }
  }

  /**
   * From idle, `n` nested begins followed by `m <= n` ends have called the
   * backend's begin hook once, and its end hook once exactly when `m == n`.
   */
  lemma NestedTransactionsCoalesce(c: Context, n: nat, m: nat)
    requires c.level == 0 && 0 < n < U32Limit && m <= n
    ensures Ends(Begins(c, n), m).hooks
            == c.hooks + [BeginHook] + (if m == n then [EndHook] else [])
    ensures Ends(Begins(c, n), m).level == n - m
  {
    BeginsNested(c, n);
    EndsNested(Begins(c, n), m);
  }

  // Layer creation

  predicate CanAllocate(c: Context) {
    InTransaction(c) && c.nextLayerId + 1 < U32Limit
  }

  /** Allocates the next id and gives it an empty container component. */
  function AddContainerLayer(c: Context): (r: (Context, LayerId))
    requires CanAllocate(c) && !Has(c.containers, c.nextLayerId)
    ensures r.1 == c.nextLayerId && r.0.nextLayerId == r.1 + 1
    ensures Get(r.0.containers, r.1) == Some(ContainerInfo(None, None))
    ensures forall l :: l != r.1 ==> Get(r.0.containers, l) == Get(c.containers, l)
    ensures r.0.tree == c.tree && r.0.geometry == c.geometry && r.0.level == c.level
    ensures r.0.hooks == c.hooks + [AddContainerHook(r.1)]
  {
    var layer := c.nextLayerId;
    (c.(nextLayerId := layer + 1,
        containers := Add(c.containers, layer, ContainerInfo(None, None)),
        hooks := c.hooks + [AddContainerHook(layer)]),
     layer)
  }

  /** Allocates the next id; this revision stores no component for surfaces. */
  function AddSurfaceLayer(c: Context): (r: (Context, LayerId))
    requires CanAllocate(c)
    ensures r.1 == c.nextLayerId && r.0.nextLayerId == r.1 + 1
    ensures r.0 == c.(nextLayerId := r.0.nextLayerId, hooks := c.hooks + [AddSurfaceHook(r.1)])
  {
    var layer := c.nextLayerId;
    (c.(nextLayerId := layer + 1, hooks := c.hooks + [AddSurfaceHook(layer)]), layer)
  }

  function ParentOf(c: Context, layer: LayerId): (p: Option<LayerParent>)
    ensures p.Some? <==> Has(c.tree, layer)
    ensures p.Some? ==> p.value == Index(c.tree, layer).parent
  {
    match Get(c.tree, layer)
    case None => None
    case Some(info) => Some(info.parent)
  }

  // Sibling-list surgery

  /** The debug assertions and unwrapping index operations `insert_before` passes. */
  predicate CanInsertBefore(c: Context, parent: LayerId, child: LayerId, reference: Option<LayerId>) {
    && InTransaction(c)
    && (reference.Some? ==> ParentOf(c, reference.value) == Some(Layer(parent)))
    && !Has(c.tree, child)
    && (reference.None? || Index(c.tree, reference.value).prev.None? ==> Has(c.containers, parent))
  }

  /**
   * `insert_before` as written: the new child copies the reference's
   * `prev_sibling`, the REFERENCE's `next_sibling` (not its `prev_sibling`)
   * is pointed at the new child, and the reference's predecessor is never
   * updated.
   */
  function InsertBefore(c: Context, parent: LayerId, child: LayerId, reference: Option<LayerId>): (r: Context)
    requires CanInsertBefore(c, parent, child, reference)
    ensures var prev := if reference.Some? then Index(c.tree, reference.value).prev else None;
            Get(r.tree, child) == Some(TreeInfo(Layer(parent), prev, reference))
    ensures reference.Some? ==>
              Get(r.tree, reference.value) == Some(Index(c.tree, reference.value).(next := Some(child)))
    ensures forall l :: l != child && Some(l) != reference ==> Get(r.tree, l) == Get(c.tree, l)
    ensures Has(r.containers, parent) <==> Has(c.containers, parent)
    ensures reference.None? ==> Has(r.containers, parent) && Index(r.containers, parent).last == Some(child)
    ensures Index(r.tree, child).prev.None? ==>
              Has(r.containers, parent) && Index(r.containers, parent).first == Some(child)
    ensures Has(c.containers, parent) ==>
              Index(r.containers, parent).last
              == (if reference.None? then Some(child) else Index(c.containers, parent).last)
    ensures Has(c.containers, parent) ==>
              Index(r.containers, parent).first
              == (if Index(r.tree, child).prev.None? then Some(child) else Index(c.containers, parent).first)
    ensures forall l :: l != parent ==> Get(r.containers, l) == Get(c.containers, l)
    ensures r.geometry == c.geometry && r.level == c.level && r.nextLayerId == c.nextLayerId
    ensures r.hooks == c.hooks + [InsertBeforeHook(parent, child, reference)]
  {
    var prev := if reference.Some? then Index(c.tree, reference.value).prev else None;
    var t1 := Add(c.tree, child, TreeInfo(Layer(parent), prev, reference));
    var t2 := if reference.Some? then Set(t1, reference.value, Index(t1, reference.value).(next := Some(child))) else t1;
    var k1 := if reference.None? then Set(c.containers, parent, Index(c.containers, parent).(last := Some(child))) else c.containers;
    var k2 := if prev.None? then Set(k1, parent, Index(k1, parent).(first := Some(child))) else k1;
    c.(tree := t2, containers := k2, hooks := c.hooks + [InsertBeforeHook(parent, child, reference)])
  }

  /** `append_child` is `insert_before` with no reference: the child never gets a predecessor. */
  function AppendChild(c: Context, parent: LayerId, child: LayerId): (r: Context)
    requires CanInsertBefore(c, parent, child, None)
    ensures Get(r.tree, child) == Some(TreeInfo(Layer(parent), None, None))
    ensures Has(r.containers, parent) && Index(r.containers, parent) == ContainerInfo(Some(child), Some(child))
    ensures forall l :: l != child ==> Get(r.tree, l) == Get(c.tree, l)
  {
    InsertBefore(c, parent, child, None)
  }

  /** Anchors a layer to a native host: it gets a tree entry with no siblings. */
  function HostLayer(c: Context, host: Host, layer: LayerId): (r: Context)
    requires InTransaction(c) && !Has(c.tree, layer)
    ensures ParentOf(r, layer) == Some(NativeHost)
    ensures Get(r.tree, layer) == Some(TreeInfo(NativeHost, None, None))
    ensures forall l :: l != layer ==> Get(r.tree, l) == Get(c.tree, l)
    ensures r == c.(tree := r.tree, hooks := c.hooks + [HostHook(layer, host)])
  {
    c.(tree := Add(c.tree, layer, TreeInfo(NativeHost, None, None)),
       hooks := c.hooks + [HostHook(layer, host)])
  }

  /** The debug assertions and unwrapping index operations `remove_from_parent` passes. */
  predicate CanRemoveFromParent(c: Context, oldChild: LayerId) {
    && InTransaction(c)
    && Has(c.tree, oldChild)
    && var info := Index(c.tree, oldChild);
       info.parent.Layer? ==>
         && (info.prev.None? || info.next.None? ==> Has(c.containers, info.parent.id))
         && (info.prev.Some? ==> info.prev.value != oldChild && Has(c.tree, info.prev.value))
         && (info.next.Some? ==> info.next.value != oldChild && Has(c.tree, info.next.value))
  }

  /** Points the container's `first_child` (or `last_child`) somewhere else. */
  function SetFirst(k: LayerMap<ContainerInfo>, p: LayerId, v: Option<LayerId>): LayerMap<ContainerInfo>
    requires Has(k, p)
  {
    Set(k, p, Index(k, p).(first := v))
  }

  function SetLast(k: LayerMap<ContainerInfo>, p: LayerId, v: Option<LayerId>): LayerMap<ContainerInfo>
    requires Has(k, p)
  {
    Set(k, p, Index(k, p).(last := v))
  }

  /**
   * Detaches a layer: its tree entry is taken; a hosted layer is unhosted,
   * a parented one is spliced out of its parent's sibling list.
   */
  function RemoveFromParent(c: Context, oldChild: LayerId): (r: Context)
    requires CanRemoveFromParent(c, oldChild)
    ensures !Has(r.tree, oldChild)
    ensures var info := Index(c.tree, oldChild);
            forall l :: l != oldChild && Some(l) != info.prev && Some(l) != info.next ==>
              Get(r.tree, l) == Get(c.tree, l)
    ensures Index(c.tree, oldChild).parent.NativeHost? ==>
              r.containers == c.containers && r.hooks == c.hooks + [UnhostHook(oldChild)]
    ensures Index(c.tree, oldChild).parent.Layer? ==>
              r.hooks == c.hooks + [RemoveFromSuperlayerHook(oldChild)]
    ensures forall l :: Index(c.tree, oldChild).parent != Layer(l) ==> Get(r.containers, l) == Get(c.containers, l)
    ensures forall l :: Has(r.containers, l) <==> Has(c.containers, l)
    ensures r.geometry == c.geometry && r.level == c.level && r.nextLayerId == c.nextLayerId
  {
    var (t1, info) := Take(c.tree, oldChild);
    match info.parent
    case NativeHost =>
      c.(tree := t1, hooks := c.hooks + [UnhostHook(oldChild)])
    case Layer(p) =>
      var t2 := if info.prev.Some? then Set(t1, info.prev.value, Index(t1, info.prev.value).(next := info.next)) else t1;
      var k2 := if info.prev.None? then SetFirst(c.containers, p, info.next) else c.containers;
      var t3 := if info.next.Some? then Set(t2, info.next.value, Index(t2, info.next.value).(prev := info.prev)) else t2;
      var k3 := if info.next.None? then SetLast(k2, p, info.prev) else k2;
      c.(tree := t3, containers := k3, hooks := c.hooks + [RemoveFromSuperlayerHook(oldChild)])
  }

  /** Deletes a detached layer: its tree, container and geometry entries are purged. */
  function DeleteLayer(c: Context, layer: LayerId): (r: Context)
    requires InTransaction(c) && ParentOf(c, layer).None?
    ensures !Has(r.tree, layer) && !Has(r.containers, layer) && !Has(r.geometry, layer)
    ensures forall l :: l != layer ==>
              Get(r.tree, l) == Get(c.tree, l) && Get(r.containers, l) == Get(c.containers, l)
              && Get(r.geometry, l) == Get(c.geometry, l)
    ensures r.hooks == c.hooks + [DeleteHook(layer)]
    ensures r.level == c.level && r.nextLayerId == c.nextLayerId
  {
    c.(tree := RemoveIfPresent(c.tree, layer),
       containers := RemoveIfPresent(c.containers, layer),
       geometry := RemoveIfPresent(c.geometry, layer),
       hooks := c.hooks + [DeleteHook(layer)])
  }

  /** Stores exactly the new bounds, creating the geometry entry on first use. */
  function SetLayerBounds(c: Context, layer: LayerId, bounds: Rect): (r: Context)
    requires InTransaction(c)
    ensures Get(r.geometry, layer) == Some(GeometryInfo(bounds))
    ensures forall l :: l != layer ==> Get(r.geometry, l) == Get(c.geometry, l)
    ensures r == c.(geometry := r.geometry, hooks := c.hooks + [SetBoundsHook(layer, bounds)])
  {
    var g := EnsureDefault(c.geometry, layer, DefaultGeometry);
    c.(geometry := Set(g, layer, GeometryInfo(bounds)), hooks := c.hooks + [SetBoundsHook(layer, bounds)])
  }

  /** Surface contents may only be set on a layer that is not a container. */
  function SetLayerContents(c: Context, layer: LayerId, surface: SurfaceHandle): (r: Context)
    requires InTransaction(c) && !Has(c.containers, layer)
    ensures r == c.(hooks := c.hooks + [SetContentsHook(layer, surface)])
  {
    c.(hooks := c.hooks + [SetContentsHook(layer, surface)])
  }

  function RefreshLayerContents(c: Context, layer: LayerId, changed: Rect): (r: Context)
    requires InTransaction(c)
    ensures r == c.(hooks := c.hooks + [RefreshContentsHook(layer, changed)])
  {
    c.(hooks := c.hooks + [RefreshContentsHook(layer, changed)])
  }

  function SetContentsOpaque(c: Context, layer: LayerId, isOpaque: bool): (r: Context)
    requires InTransaction(c)
    ensures r == c.(hooks := c.hooks + [SetOpaqueHook(layer, isOpaque)])
  {
    c.(hooks := c.hooks + [SetOpaqueHook(layer, isOpaque)])
  }

  // Sequences of calls

  /** One public context call. */
  datatype Op =
    | BeginOp
    | EndOp
    | AddContainerOp
    | AddSurfaceOp
    | InsertBeforeOp(parent: LayerId, child: LayerId, reference: Option<LayerId>)
    | AppendChildOp(parent: LayerId, child: LayerId)
    | HostOp(host: Host, layer: LayerId)
    | RemoveOp(layer: LayerId)
    | DeleteOp(layer: LayerId)
    | SetBoundsOp(layer: LayerId, bounds: Rect)
    | SetContentsOp(layer: LayerId, surface: SurfaceHandle)
    | RefreshOp(layer: LayerId, changed: Rect)
    | SetOpaqueOp(layer: LayerId, isOpaque: bool)

  /** The call passes its debug assertions (and does not overflow a `u32`). */
  predicate Allowed(c: Context, op: Op) {
    match op
    case BeginOp => c.level + 1 < U32Limit
    case EndOp => c.level > 0
    case AddContainerOp => CanAllocate(c) && !Has(c.containers, c.nextLayerId)
    case AddSurfaceOp => CanAllocate(c)
    case InsertBeforeOp(p, ch, r) => CanInsertBefore(c, p, ch, r)
    case AppendChildOp(p, ch) => CanInsertBefore(c, p, ch, None)
    case HostOp(_, l) => InTransaction(c) && !Has(c.tree, l)
    case RemoveOp(l) => CanRemoveFromParent(c, l)
    case DeleteOp(l) => InTransaction(c) && ParentOf(c, l).None?
    case SetBoundsOp(_, _) => InTransaction(c)
    case SetContentsOp(l, _) => InTransaction(c) && !Has(c.containers, l)
    case RefreshOp(_, _) => InTransaction(c)
    case SetOpaqueOp(_, _) => InTransaction(c)
  }

  /** Performs one call; the id is the one a layer-creating call returns. */
  function Step(c: Context, op: Op): (r: (Context, Option<LayerId>))
    requires Allowed(c, op)
    ensures r.1.Some? <==> op.AddContainerOp? || op.AddSurfaceOp?
    ensures r.1.Some? ==> r.1.value == c.nextLayerId && r.0.nextLayerId == c.nextLayerId + 1
    ensures r.1.None? ==> r.0.nextLayerId == c.nextLayerId
  {
    match op
    case BeginOp => (BeginTransaction(c), None)
    case EndOp => (EndTransaction(c), None)
    case AddContainerOp => var (c', l) := AddContainerLayer(c); (c', Some(l))
    case AddSurfaceOp => var (c', l) := AddSurfaceLayer(c); (c', Some(l))
    case InsertBeforeOp(p, ch, r) => (InsertBefore(c, p, ch, r), None)
    case AppendChildOp(p, ch) => (AppendChild(c, p, ch), None)
    case HostOp(h, l) => (HostLayer(c, h, l), None)
    case RemoveOp(l) => (RemoveFromParent(c, l), None)
    case DeleteOp(l) => (DeleteLayer(c, l), None)
    case SetBoundsOp(l, b) => (SetLayerBounds(c, l, b), None)
    case SetContentsOp(l, s) => (SetLayerContents(c, l, s), None)
    case RefreshOp(l, ch) => (RefreshLayerContents(c, l, ch), None)
    case SetOpaqueOp(l, o) => (SetContentsOpaque(c, l, o), None)
  }

  /** Runs calls in order; `None` when one of them fails a debug assertion. */
  function Run(c: Context, ops: seq<Op>): Option<(Context, seq<LayerId>)>
    decreases |ops|
  {
    if |ops| == 0 then Some((c, []))
    else if !Allowed(c, ops[0]) then None
    else
      var (c1, id) := Step(c, ops[0]);
      match Run(c1, ops[1..])
      case None => None
      case Some((c2, ids)) => Some((c2, (if id.Some? then [id.value] else []) + ids))
  }

  /**
   * Ids handed out by any run of calls are strictly increasing, lie between
   * the counter before and after the run, and so are never reused.
   */
  lemma {:induction false} RunAllocatesFreshIds(c: Context, ops: seq<Op>)
    requires Run(c, ops).Some?
    ensures var (c', ids) := Run(c, ops).value;
            && c.nextLayerId <= c'.nextLayerId
            && (forall i :: 0 <= i < |ids| ==> c.nextLayerId <= ids[i] < c'.nextLayerId)
            && (forall i, j :: 0 <= i < j < |ids| ==> ids[i] < ids[j])
    decreases |ops|
  {
    if |ops| > 0 {
      var (c1, id) := Step(c, ops[0]);
      RunAllocatesFreshIds(c1, ops[1..]);
    }
  }

  // The debug assertion of `LayerMap::add` in `add_container_layer`

  /** Every container entry belongs to an id the counter has already handed out. */
  ghost predicate ContainersAllocated(c: Context) {
    forall l: LayerId :: Has(c.containers, l) ==> l < c.nextLayerId
  }

  /** Every call keeps the container entries below the counter. */
  lemma StepKeepsContainersAllocated(c: Context, op: Op)
    requires Allowed(c, op) && ContainersAllocated(c)
    ensures ContainersAllocated(Step(c, op).0)
  {
    var r := Step(c, op).0;
    match op
    case InsertBeforeOp(p, ch, ref) =>
      assert forall l: LayerId :: Has(r.containers, l) ==> Has(c.containers, l);
    case AppendChildOp(p, ch) =>
      assert forall l: LayerId :: Has(r.containers, l) ==> Has(c.containers, l);
    case DeleteOp(d) =>
      assert forall l: LayerId :: Has(r.containers, l) ==> Has(c.containers, l);
    case _ =>
  }

  /** ... and so does every run of calls. */
  lemma {:induction false} RunKeepsContainersAllocated(c: Context, ops: seq<Op>)
    requires ContainersAllocated(c) && Run(c, ops).Some?
    ensures ContainersAllocated(Run(c, ops).value.0)
    decreases |ops|
  {
    if |ops| > 0 {
      StepKeepsContainersAllocated(c, ops[0]);
      RunKeepsContainersAllocated(Step(c, ops[0]).0, ops[1..]);
    }
  }

  /**
   * In every context a run of calls reaches from a new one, the next id has
   * no container entry: the debug assertion of `add` in
   * `add_container_layer` cannot fail.
   */
  lemma ReachableCanAddContainer(ops: seq<Op>)
    requires Run(NewContext(), ops).Some?
    ensures var c := Run(NewContext(), ops).value.0;
            !Has(c.containers, c.nextLayerId)
  {
    RunKeepsContainersAllocated(NewContext(), ops);
  }

  // Parent chains

  /**
   * Every parent link goes to a layer of strictly smaller rank: the parent
   * chains the compositors climb are finite. On a cyclic tree the recursive
   * walks of src/backends/gl.rs do not terminate.
   */
  ghost predicate Acyclic(tree: LayerMap<TreeInfo>, rank: LayerId -> nat) {
    forall l: LayerId :: Has(tree, l) && Index(tree, l).parent.Layer? ==> rank(Index(tree, l).parent.id) < rank(l)
  }

  /** The layers visited from `l` upwards: `l`, then its parent while the current layer has a layer parent. */
  ghost function Ancestry(tree: LayerMap<TreeInfo>, rank: LayerId -> nat, l: LayerId): (a: seq<LayerId>)
    requires Acyclic(tree, rank)
    ensures |a| > 0 && a[0] == l
    decreases rank(l)
  {
    if Has(tree, l) && Index(tree, l).parent.Layer? then [l] + Ancestry(tree, rank, Index(tree, l).parent.id)
    else [l]
  }
}

=== FILE: render_passes.dfy ===
/**
 * The two drawing passes of the OpenGL compositor's `end_transaction`, over
 * the hosted layer tree read as a tree value.
 *
 * The opaque pass walks the tree front to back (children first to last),
 * hands every surface the next depth slot and then advances the counter; the
 * transparent pass walks it back to front (children last to first), steps
 * the counter back first and then hands out the slot. Depth is counted in
 * whole quanta (the source's `DEPTH_QUANTUM`), so the counter is an `int`.
 *
 * The reference definition is `Slots`: the surfaces in pre-order with the
 * position each is drawn at. Both passes are characterised against it.
 */
module RenderPasses {
  import opened Geometry

  /** The surface flags the compositor reads; their bit encoding lives outside this model. */
  datatype SurfaceOptions = SurfaceOptions(isOpaque: bool, depth: bool, stencil: bool)

  /**
   * The hosted subtree: a container with its children in sibling order, or a
   * surface with its flags and whether it has a framebuffer to draw from.
   */
  datatype Node =
    | Container(id: nat, origin: Point, children: seq<Node>)
    | Surface(id: nat, origin: Point, options: SurfaceOptions, drawable: bool)

  /** One `render_layer` call that reaches the draw: the layer, where, and at which depth slot. */
  datatype Draw = Draw(id: nat, at: Point, depth: int)

  /** A surface in pre-order, with the position its quad is drawn at. */
  datatype Slot = Slot(id: nat, at: Point, options: SurfaceOptions, drawable: bool)

  // Reference definition

  /** The surfaces under `n` in pre-order; `origin` is the parent's accumulated offset. */
  function Slots(n: Node, origin: Point): seq<Slot>
    decreases n
  {
    match n
    case Surface(id, o, opts, drawable) => [Slot(id, AddPoints(origin, o), opts, drawable)]
    case Container(_, o, kids) => SlotsOfKids(kids, AddPoints(origin, o))
  }

  function SlotsOfKids(kids: seq<Node>, origin: Point): seq<Slot>
    decreases kids
  {
    if |kids| == 0 then [] else Slots(kids[0], origin) + SlotsOfKids(kids[1..], origin)
  }

  /** Number of surfaces under `n`, independent of where the tree is placed. */
  function Count(n: Node): nat
    decreases n
  {
    match n
    case Surface(_, _, _, _) => 1
    case Container(_, _, kids) => CountKids(kids)
  }

  function CountKids(kids: seq<Node>): nat
    decreases kids
  {
    if |kids| == 0 then 0 else Count(kids[0]) + CountKids(kids[1..])
  }

  /** The draws the opaque pass should make for `s` when its first slot has depth `d`. */
  function OpaqueDraws(s: seq<Slot>, d: int): seq<Draw>
    decreases |s|
  {
    if |s| == 0 then []
    else (if s[0].options.isOpaque && s[0].drawable then [Draw(s[0].id, s[0].at, d)] else [])
         + OpaqueDraws(s[1..], d + 1)
  }

  /** The draws the transparent pass should make for `s`, last slot first, first slot at depth `d`. */
  function TransparentDraws(s: seq<Slot>, d: int): seq<Draw>
    decreases |s|
  {
    if |s| == 0 then []
    else TransparentDraws(s[1..], d + 1)
         + (if !s[0].options.isOpaque && s[0].drawable then [Draw(s[0].id, s[0].at, d)] else [])
  }

  // The passes

  /**
   * `render_opaque_layer_subtree`: returns the draws and the next free depth
   * slot; every surface takes one slot, drawn or not.
   */
  function OpaquePass(n: Node, origin: Point, next: int): (r: (seq<Draw>, int))
    ensures r.1 == next + Count(n)
    decreases n
  {
    match n
    case Surface(id, o, opts, drawable) =>
      (if opts.isOpaque && drawable then [Draw(id, AddPoints(origin, o), next)] else [], next + 1)
    case Container(_, o, kids) => OpaqueKids(kids, AddPoints(origin, o), next)
  }

  function OpaqueKids(kids: seq<Node>, origin: Point, next: int): (r: (seq<Draw>, int))
    ensures r.1 == next + CountKids(kids)
    decreases kids
  {
    if |kids| == 0 then ([], next)
    else
      var (a, mid) := OpaquePass(kids[0], origin, next);
      var (b, last) := OpaqueKids(kids[1..], origin, mid);
      (a + b, last)
  }

  /**
   * `render_transparent_layer_subtree`: steps the counter back before each
   * surface, so the pass undoes exactly what the opaque pass advanced.
   */
  function TransparentPass(n: Node, origin: Point, next: int): (r: (seq<Draw>, int))
    ensures r.1 == next - Count(n)
    decreases n
  {
    match n
    case Surface(id, o, opts, drawable) =>
      (if !opts.isOpaque && drawable then [Draw(id, AddPoints(origin, o), next - 1)] else [], next - 1)
    case Container(_, o, kids) => TransparentKids(kids, AddPoints(origin, o), next)
  }

  function TransparentKids(kids: seq<Node>, origin: Point, next: int): (r: (seq<Draw>, int))
    ensures r.1 == next - CountKids(kids)
    decreases kids
  {
    if |kids| == 0 then ([], next)
    else
      CountKidsSplitLast(kids);
      var (a, mid) := TransparentPass(kids[|kids| - 1], origin, next);
      var (b, last) := TransparentKids(kids[..|kids| - 1], origin, mid);
      (a + b, last)
  }

  // Properties

  lemma {:induction false} CountKidsSplitLast(kids: seq<Node>)
    requires |kids| > 0
    ensures CountKids(kids) == CountKids(kids[..|kids| - 1]) + Count(kids[|kids| - 1])
    decreases |kids|
  {
    if |kids| > 1 {
      var tail := kids[1..];
      assert tail[..|tail| - 1] == kids[..|kids| - 1][1..];
      CountKidsSplitLast(tail);
    }
  }

  lemma {:induction false} SlotsCount(n: Node, origin: Point)
    ensures |Slots(n, origin)| == Count(n)
    decreases n
  {
    match n
    case Surface(_, _, _, _) =>
    case Container(_, o, kids) => SlotsCountKids(kids, AddPoints(origin, o));
  }

  lemma {:induction false} SlotsCountKids(kids: seq<Node>, origin: Point)
    ensures |SlotsOfKids(kids, origin)| == CountKids(kids)
    decreases kids
  {
    if |kids| > 0 {
      SlotsCount(kids[0], origin);
      SlotsCountKids(kids[1..], origin);
    }
  }

  lemma {:induction false} OpaqueDrawsAppend(a: seq<Slot>, b: seq<Slot>, d: int)
    ensures OpaqueDraws(a + b, d) == OpaqueDraws(a, d) + OpaqueDraws(b, d + |a|)
    decreases |a|
  {
    if |a| > 0 {
      assert (a + b)[1..] == a[1..] + b;
      OpaqueDrawsAppend(a[1..], b, d + 1);
    } else {
      assert a + b == b;
    }
  }

  lemma {:induction false} TransparentDrawsAppend(a: seq<Slot>, b: seq<Slot>, d: int)
    ensures TransparentDraws(a + b, d) == TransparentDraws(b, d + |a|) + TransparentDraws(a, d)
    decreases |a|
  {
    if |a| > 0 {
      assert (a + b)[1..] == a[1..] + b;
      TransparentDrawsAppend(a[1..], b, d + 1);
    } else {
      assert a + b == b;
    }
  }

  /**
   * The opaque pass draws exactly the opaque, drawable surfaces, in
   * pre-order, the `k`-th surface of the tree at depth slot `next + k`.
   */
  lemma {:induction false} OpaquePassIsFilter(n: Node, origin: Point, next: int)
    ensures OpaquePass(n, origin, next).0 == OpaqueDraws(Slots(n, origin), next)
    decreases n
  {
    match n
    case Surface(_, _, _, _) =>
    case Container(_, o, kids) => OpaqueKidsIsFilter(kids, AddPoints(origin, o), next);
  }

  lemma {:induction false} OpaqueKidsIsFilter(kids: seq<Node>, origin: Point, next: int)
    ensures OpaqueKids(kids, origin, next).0 == OpaqueDraws(SlotsOfKids(kids, origin), next)
    decreases kids
  {
    if |kids| > 0 {
      var mid := OpaquePass(kids[0], origin, next).1;
      OpaquePassIsFilter(kids[0], origin, next);
      OpaqueKidsIsFilter(kids[1..], origin, mid);
      SlotsCount(kids[0], origin);
      OpaqueDrawsAppend(Slots(kids[0], origin), SlotsOfKids(kids[1..], origin), next);
    }
  }

  /**
   * Started where the opaque pass stopped, the transparent pass draws
   * exactly the non-opaque, drawable surfaces in reverse pre-order, and the
   * `k`-th surface again gets slot `start + k`.
   */
  lemma {:induction false} TransparentPassIsReverseFilter(n: Node, origin: Point, start: int)
    ensures TransparentPass(n, origin, start + Count(n)).0 == TransparentDraws(Slots(n, origin), start)
    decreases n
  {
    match n
    case Surface(_, _, _, _) =>
    case Container(_, o, kids) => TransparentKidsIsReverseFilter(kids, AddPoints(origin, o), start);
  }

  lemma {:induction false} TransparentKidsIsReverseFilter(kids: seq<Node>, origin: Point, start: int)
    ensures TransparentKids(kids, origin, start + CountKids(kids)).0 == TransparentDraws(SlotsOfKids(kids, origin), start)
    decreases kids
  {
    if |kids| > 0 {
      var init, last := kids[..|kids| - 1], kids[|kids| - 1];
      KidsSplitLast(kids, origin);
      CountKidsSplitLast(kids);
      var mid := start + CountKids(init);
      TransparentPassIsReverseFilter(last, origin, mid);
      TransparentKidsIsReverseFilter(init, origin, start);
      SlotsCountKids(init, origin);
      TransparentDrawsAppend(SlotsOfKids(init, origin), Slots(last, origin), start);
    }
  }

  /** Splitting the children at the last one, as the transparent pass does. */
  lemma {:induction false} KidsSplitLast(kids: seq<Node>, origin: Point)
    requires |kids| > 0
    ensures SlotsOfKids(kids, origin) == SlotsOfKids(kids[..|kids| - 1], origin) + Slots(kids[|kids| - 1], origin)
    decreases |kids|
  {
    if |kids| > 1 {
      var tail := kids[1..];
      assert tail[..|tail| - 1] == kids[..|kids| - 1][1..];
      assert tail[|tail| - 1] == kids[|kids| - 1];
      KidsSplitLast(tail, origin);
    } else {
      assert kids[..0] == [];
    }
  }

  /**
   * The slot a surface gets is its pre-order index: the `k`-th slot of `s`
   * appears among the opaque draws at depth `d + k` exactly when it is
   * opaque and drawable, and among the transparent draws exactly when it is
   * transparent and drawable.
   */
  lemma {:induction false} DrawsPartitionSlots(s: seq<Slot>, d: int, k: nat)
    requires k < |s|
    ensures Draw(s[k].id, s[k].at, d + k) in OpaqueDraws(s, d) <==> s[k].options.isOpaque && s[k].drawable
    ensures Draw(s[k].id, s[k].at, d + k) in TransparentDraws(s, d) <==> !s[k].options.isOpaque && s[k].drawable
    decreases |s|
  {
    DrawDepthsAtLeast(s[1..], d + 1);
    if k > 0 {
      DrawsPartitionSlots(s[1..], d + 1, k - 1);
    }
  }

  /** Every draw made for `s` starting at depth `d` uses a depth in `[d, d + |s|)`. */
  lemma {:induction false} DrawDepthsAtLeast(s: seq<Slot>, d: int)
    ensures forall x :: x in OpaqueDraws(s, d) ==> d <= x.depth < d + |s|
    ensures forall x :: x in TransparentDraws(s, d) ==> d <= x.depth < d + |s|
    decreases |s|
  {
    if |s| > 0 {
      DrawDepthsAtLeast(s[1..], d + 1);
    }
  }

  /**
   * One frame of `end_transaction`: the opaque pass from slot 0, then the
   * transparent pass from where it stopped. The counter comes back to 0, and
   * every drawable surface is drawn in exactly one of the passes, at its
   * pre-order index.
   */
  lemma RenderFrame(root: Node)
    ensures var (front, mid) := OpaquePass(root, Origin, 0);
            var (transparent, last) := TransparentPass(root, Origin, mid);
            var s := Slots(root, Origin);
            && mid == |s| && last == 0
            && front == OpaqueDraws(s, 0)
            && transparent == TransparentDraws(s, 0)
            && forall k :: 0 <= k < |s| && s[k].drawable ==>
                 (Draw(s[k].id, s[k].at, k) in front <==> s[k].options.isOpaque)
                 && (Draw(s[k].id, s[k].at, k) in transparent <==> !s[k].options.isOpaque)
  {
    var s := Slots(root, Origin);
    SlotsCount(root, Origin);
    OpaquePassIsFilter(root, Origin, 0);
    TransparentPassIsReverseFilter(root, Origin, 0);
    forall k | 0 <= k < |s| && s[k].drawable
      ensures Draw(s[k].id, s[k].at, k) in OpaqueDraws(s, 0) <==> s[k].options.isOpaque
      ensures Draw(s[k].id, s[k].at, k) in TransparentDraws(s, 0) <==> !s[k].options.isOpaque
    {
      DrawsPartitionSlots(s, 0, k);
    }
  }
}

=== FILE: row_flip.dfy ===
/**
 * The vertical flip in the OpenGL compositor's screenshot: `glReadPixels`
 * hands back the rows bottom-up, and the callback swaps row `y0` with row
 * `height - y0 - 1`, byte by byte, for every `y0` below `height / 2`.
 *
 * The buffer is a flat array of `height` rows of `stride` bytes each
 * (`stride` is `width * 4` for RGBA); `Row` cuts out one of them.
 */
module RowFlip {

  /** Where row `y` starts: `y * stride`, counted up one row at a time. */
  function RowStart(stride: nat, y: nat): nat
    decreases y
  {
    if y == 0 then 0 else RowStart(stride, y - 1) + stride
  }

  lemma {:induction false} RowStartIsProduct(stride: nat, y: nat)
    ensures RowStart(stride, y) == y * stride
    decreases y
  {
    if y > 0 {
      RowStartIsProduct(stride, y - 1);
      assert y * stride == (y - 1) * stride + stride;
    }
  }

  /** A row ends no later than any later row starts. */
  lemma {:induction false} RowsOrdered(stride: nat, a: nat, b: nat)
    requires a < b
    ensures RowStart(stride, a) + stride <= RowStart(stride, b)
    decreases b
  {
    if a < b - 1 {
      RowsOrdered(stride, a, b - 1);
    }
  }

  /** Row `y` of `height` rows lies inside the buffer. */
  lemma RowFits(stride: nat, height: nat, y: nat)
    requires y < height
    ensures RowStart(stride, y) + stride <= RowStart(stride, height)
  {
    if y + 1 < height {
      RowsOrdered(stride, y + 1, height);
    }
  }

  /** Row `y` of the buffer `s` of `height` rows. */
  function Row<T>(s: seq<T>, stride: nat, height: nat, y: nat): (r: seq<T>)
    requires |s| == RowStart(stride, height) && y < height
    ensures |r| == stride
  {
    RowFits(stride, height, y);
    s[RowStart(stride, y)..RowStart(stride, y) + stride]
  }

  /** Appending one row to a buffer adds it as the last row and keeps the others. */
  lemma RowOfSnoc<T>(s: seq<T>, last: seq<T>, stride: nat, height: nat, height': nat, y: nat)
    requires |s| == RowStart(stride, height) && |last| == stride && height' == height + 1 && y < height'
    ensures |s + last| == RowStart(stride, height')
    ensures Row(s + last, stride, height', y) == if y == height then last else Row(s, stride, height, y)
  {
    assert RowStart(stride, height') == RowStart(stride, height' - 1) + stride;
    var a := RowStart(stride, y);
    if y < height {
      RowFits(stride, height, y);
      assert (s + last)[a..a + stride] == s[a..a + stride];
    } else {
      assert (s + last)[a..a + stride] == last;
    }
  }

  /** `r` holds the rows of `s` in the opposite order. */
  ghost predicate IsRowFlip<T>(r: seq<T>, s: seq<T>, stride: nat, height: nat) {
    && |s| == RowStart(stride, height) && |r| == |s|
    && forall y :: 0 <= y < height ==> Row(r, stride, height, y) == Row(s, stride, height, height - 1 - y)
  }

  /** `r` is `s` with the `stride` elements at `start0` and those at `start1` exchanged. */
  ghost predicate RunsSwapped<T>(r: seq<T>, s: seq<T>, start0: nat, start1: nat, stride: nat) {
    && |r| == |s| && start0 + stride <= start1 && start1 + stride <= |s|
    && r[start0..start0 + stride] == s[start1..start1 + stride]
    && r[start1..start1 + stride] == s[start0..start0 + stride]
    && forall i :: 0 <= i < |s| && !(start0 <= i < start0 + stride) && !(start1 <= i < start1 + stride) ==> r[i] == s[i]
  }

  /**
   * Swaps the `stride` bytes at `start0` with those at `start1` in place,
   * one `swap` per byte (the inner loop of the flip).
   */
  method SwapRun<T>(a: array<T>, start0: nat, start1: nat, stride: nat)
    requires start0 + stride <= start1 && start1 + stride <= a.Length
    modifies a
    ensures RunsSwapped(a[..], old(a[..]), start0, start1, stride)
  {
    var d := start1 - start0;
    ghost var s := a[..];
    var offset := 0;
    while offset < stride
      invariant offset <= stride
      invariant forall i :: start0 <= i < start0 + offset ==> a[i] == s[i + d]
      invariant forall i :: start1 <= i < start1 + offset ==> a[i] == s[i - d]
      invariant forall i :: 0 <= i < a.Length && !(start0 <= i < start0 + offset) && !(start1 <= i < start1 + offset) ==> a[i] == s[i]
    {
      a[start0 + offset], a[start1 + offset] := a[start1 + offset], a[start0 + offset];
      offset := offset + 1;
    }
    ghost var r := a[..];
    ghost var r0, r1 := r[start0..start0 + stride], r[start1..start1 + stride];
    ghost var s0, s1 := s[start0..start0 + stride], s[start1..start1 + stride];
    forall o | 0 <= o < stride
      ensures r0[o] == s1[o] && r1[o] == s0[o]
    {
      assert r[start0 + o] == s[start0 + o + d];
      assert r[start1 + o] == s[start1 + o - d];
    }
    assert r0 == s1 && r1 == s0;
  }

  /** A swap of rows `a` and `b` leaves every other row as it was. */
  lemma OtherRowsKept<T>(r: seq<T>, s: seq<T>, stride: nat, height: nat, a: nat, b: nat, y: nat)
    requires |s| == RowStart(stride, height) && |r| == |s| && a < b < height && y < height && y != a && y != b
    requires var a0, b0 := RowStart(stride, a), RowStart(stride, b);
             forall i :: 0 <= i < |s| && !(a0 <= i < a0 + stride) && !(b0 <= i < b0 + stride) ==> r[i] == s[i]
    ensures Row(r, stride, height, y) == Row(s, stride, height, y)
  {
    if y < a {
      RowsOrdered(stride, y, a);
      RowsOrdered(stride, a, b);
    } else if y < b {
      RowsOrdered(stride, a, y);
      RowsOrdered(stride, y, b);
    } else {
      RowsOrdered(stride, a, b);
      RowsOrdered(stride, b, y);
    }
    RowFits(stride, height, y);
    var lo := RowStart(stride, y);
    var ry, sy := Row(r, stride, height, y), Row(s, stride, height, y);
    forall o | 0 <= o < stride
      ensures ry[o] == sy[o]
    {
      assert ry[o] == r[lo + o] && sy[o] == s[lo + o];
    }
  }

  /**
   * Which original row sits at row `y` once the outer `k` rows at each end
   * have been swapped.
   */
  function BandSource(height: nat, k: nat, y: nat): (src: nat)
    requires y < height
    ensures src < height
  {
    if y < k || height - 1 - y < k then height - 1 - y else y
  }

  /** `r` is `pixels` with its outer `k` rows at each end swapped. */
  ghost predicate Band<T>(r: seq<T>, pixels: seq<T>, stride: nat, height: nat, k: nat)
    requires |pixels| == RowStart(stride, height) && |r| == |pixels|
  {
    forall y :: 0 <= y < height ==> Row(r, stride, height, y) == Row(pixels, stride, height, BandSource(height, k, y))
  }

  /**
   * The flip, in place: for `y0` in `0..height / 2`, swap row `y0` with row
   * `height - y0 - 1`. The middle row of an odd height stays put.
   */
  method FlipVertically<T>(pixels: array<T>, width: nat, height: nat)
    requires pixels.Length == height * (width * 4)
    modifies pixels
    ensures IsRowFlip(pixels[..], old(pixels[..]), width * 4, height)
  {
    RowStartIsProduct(width * 4, height);
    FlipRows(pixels, pixels[..], width * 4, height, 0);
    BandComplete(pixels[..], old(pixels[..]), width * 4, height, height / 2);
  }

  /**
   * The outer loop of the flip from pass `y0` on, written as recursion on the
   * passes left: every row of the outer halves ends up swapped.
   */
  method FlipRows<T>(pixels: array<T>, ghost original: seq<T>, stride: nat, height: nat, y0: nat)
    requires pixels.Length == RowStart(stride, height) && |original| == pixels.Length
    requires y0 <= height / 2 && Band(pixels[..], original, stride, height, y0)
    modifies pixels
    ensures Band(pixels[..], original, stride, height, height / 2)
    decreases height / 2 - y0
  {
    if y0 < height / 2 {
      FlipPass(pixels, original, stride, height, y0);
      FlipRows(pixels, original, stride, height, y0 + 1);
    }
  }

  /** One pass of the flip loop: rows `y0` and `height - y0 - 1` trade places. */
  method FlipPass<T>(pixels: array<T>, ghost original: seq<T>, stride: nat, height: nat, y0: nat)
    requires pixels.Length == RowStart(stride, height) && |original| == pixels.Length
    requires y0 < height / 2 && Band(pixels[..], original, stride, height, y0)
    modifies pixels
    ensures Band(pixels[..], original, stride, height, y0 + 1)
  {
    var y1 := height - y0 - 1;
    RowsOrdered(stride, y0, y1);
    RowFits(stride, height, y1);
    ghost var before := pixels[..];
    SwapRun(pixels, RowStart(stride, y0), RowStart(stride, y1), stride);
    FlipStep(pixels[..], before, original, stride, height, y0);
  }

  /** Once `height / 2` rows are swapped at each end, the whole buffer is flipped. */
  lemma BandComplete<T>(r: seq<T>, pixels: seq<T>, stride: nat, height: nat, k: nat)
    requires |pixels| == RowStart(stride, height) && |r| == |pixels|
    requires k == height / 2 && Band(r, pixels, stride, height, k)
    ensures IsRowFlip(r, pixels, stride, height)
  {
    forall y | 0 <= y < height
      ensures Row(r, stride, height, y) == Row(pixels, stride, height, height - 1 - y)
    {
      assert Row(r, stride, height, y) == Row(pixels, stride, height, BandSource(height, k, y));
    }
  }

  /** What one pass of the flip loop leaves behind: rows `y0` and `height - y0 - 1` swapped, nothing else changed. */
  ghost predicate Swapped<T>(r: seq<T>, before: seq<T>, stride: nat, height: nat, y0: nat)
    requires |before| == RowStart(stride, height) && |r| == |before| && y0 < height
  {
    RunsSwapped(r, before, RowStart(stride, y0), RowStart(stride, height - y0 - 1), stride)
  }

  /** One pass of the flip loop extends the swapped band by one row at each end. */
  lemma FlipStep<T>(r: seq<T>, before: seq<T>, pixels: seq<T>, stride: nat, height: nat, y0: nat)
    requires |pixels| == RowStart(stride, height) && |before| == |pixels| && |r| == |pixels|
    requires y0 < height / 2 && Band(before, pixels, stride, height, y0)
    requires Swapped(r, before, stride, height, y0)
    ensures Band(r, pixels, stride, height, y0 + 1)
  {
    forall y | 0 <= y < height
      ensures Row(r, stride, height, y) == Row(pixels, stride, height, BandSource(height, y0 + 1, y))
    {
      FlipStepRow(r, before, pixels, stride, height, y0, y);
    }
  }

  lemma FlipStepRow<T>(r: seq<T>, before: seq<T>, pixels: seq<T>, stride: nat, height: nat, y0: nat, y: nat)
    requires |pixels| == RowStart(stride, height) && |before| == |pixels| && |r| == |pixels|
    requires y0 < height - y0 - 1 && y < height
    requires Band(before, pixels, stride, height, y0)
    requires Swapped(r, before, stride, height, y0)
    ensures Row(r, stride, height, y) == Row(pixels, stride, height, BandSource(height, y0 + 1, y))
  {
    var y1 := height - y0 - 1;
    BandGrows(height, y0, y);
    if y == y0 || y == y1 {
      SwappedRow(r, before, stride, height, y0, y);
      BandRow(before, pixels, stride, height, y0, height - y - 1);
    } else {
      KeptRow(r, before, stride, height, y0, y);
      BandRow(before, pixels, stride, height, y0, y);
    }
  }

  /** Where row `y` comes from once the band grows by one row at each end. */
  lemma BandGrows(height: nat, y0: nat, y: nat)
    requires y0 < height - y0 - 1 && y < height
    ensures y == y0 || y == height - y0 - 1 ==> BandSource(height, y0 + 1, y) == BandSource(height, y0, height - y - 1)
    ensures y != y0 && y != height - y0 - 1 ==> BandSource(height, y0 + 1, y) == BandSource(height, y0, y)
  {
  }

  lemma BandRow<T>(r: seq<T>, pixels: seq<T>, stride: nat, height: nat, k: nat, y: nat)
    requires |pixels| == RowStart(stride, height) && |r| == |pixels| && y < height
    requires Band(r, pixels, stride, height, k)
    ensures Row(r, stride, height, y) == Row(pixels, stride, height, BandSource(height, k, y))
  {
  }

  /** The rows a pass does not swap stay where they were. */
  lemma KeptRow<T>(r: seq<T>, before: seq<T>, stride: nat, height: nat, y0: nat, y: nat)
    requires |before| == RowStart(stride, height) && |r| == |before| && y0 < height - y0 - 1 && y < height
    requires y != y0 && y != height - y0 - 1
    requires Swapped(r, before, stride, height, y0)
    ensures Row(r, stride, height, y) == Row(before, stride, height, y)
  {
    OtherRowsKept(r, before, stride, height, y0, height - y0 - 1, y);
  }

  /** The two swapped rows trade places. */
  lemma SwappedRow<T>(r: seq<T>, before: seq<T>, stride: nat, height: nat, y0: nat, y: nat)
    requires |before| == RowStart(stride, height) && |r| == |before| && y0 < height - y0 - 1
    requires y == y0 || y == height - y0 - 1
    requires Swapped(r, before, stride, height, y0)
    ensures Row(r, stride, height, y) == Row(before, stride, height, height - y - 1)
  {
  }

  /** A buffer is determined by its rows. */
  lemma {:induction false} RowsDetermine<T>(a: seq<T>, b: seq<T>, stride: nat, height: nat)
    requires |a| == RowStart(stride, height) && |b| == |a|
    requires forall y :: 0 <= y < height ==> Row(a, stride, height, y) == Row(b, stride, height, y)
    ensures a == b
    decreases height
  {
    if height > 0 {
      var h := height - 1;
      var n := RowStart(stride, h);
      var a', b' := a[..n], b[..n];
      forall y | 0 <= y < h
        ensures Row(a', stride, h, y) == Row(b', stride, h, y)
      {
        RowsOrdered(stride, y, h);
        assert Row(a', stride, h, y) == Row(a, stride, height, y);
        assert Row(b', stride, h, y) == Row(b, stride, height, y);
      }
      RowsDetermine(a', b', stride, height - 1);
      assert Row(a, stride, height, height - 1) == Row(b, stride, height, height - 1);
      assert a == a' + a[n..] && b == b' + b[n..];
    }
  }

  /** Flipping twice gives the buffer back. */
  lemma FlipInvolution<T>(s: seq<T>, r: seq<T>, t: seq<T>, stride: nat, height: nat)
    requires IsRowFlip(r, s, stride, height) && IsRowFlip(t, r, stride, height)
    ensures t == s
  {
    forall y | 0 <= y < height
      ensures Row(t, stride, height, y) == Row(s, stride, height, y)
    {
      assert Row(t, stride, height, y) == Row(r, stride, height, height - 1 - y);
    }
    RowsDetermine(t, s, stride, height);
  }
}

=== FILE: sequences.dfy ===
/** Sequence helpers shared by the sibling-list and Wayland models. */
module Sequences {

  /** `s` back to front. */
  function Reverse<T>(s: seq<T>): (r: seq<T>)
    ensures |r| == |s|
    ensures forall i :: 0 <= i < |s| ==> r[i] == s[|s| - 1 - i]
  {
    if |s| == 0 then [] else [s[|s| - 1]] + Reverse(s[..|s| - 1])
  }
}

=== FILE: sibling_lists.dfy ===
/**
 * The sibling lists under a container, read as doubly linked lists: when the
 * context's components describe a consistent list, forward and backward
 * traversal, the `remove_from_parent` splice, and the two ways the
 * `insert_before` of src/lib.rs breaks the list, with a linked insertion
 * that keeps it.
 */
module SiblingLists {
  import opened Wrappers
  import opened LayerMaps
  import opened Sequences
  import opened Layers

  function PrevOf(kids: seq<LayerId>, i: nat): Option<LayerId>
    requires i < |kids|
  {
    if i == 0 then None else Some(kids[i - 1])
  }

  function NextOf(kids: seq<LayerId>, i: nat): Option<LayerId>
    requires i < |kids|
  {
    if i + 1 == |kids| then None else Some(kids[i + 1])
  }

  function FirstOf(kids: seq<LayerId>): Option<LayerId> {
    if |kids| == 0 then None else Some(kids[0])
  }

  function LastOf(kids: seq<LayerId>): Option<LayerId> {
    if |kids| == 0 then None else Some(kids[|kids| - 1])
  }

  predicate ParentIs(tree: LayerMap<TreeInfo>, l: LayerId, p: LayerId) {
    Has(tree, l) && Index(tree, l).parent == Layer(p)
  }

  /**
   * Container `p`'s children are exactly `kids`, in order: `first_child` and
   * `last_child` name the ends, each child's siblings are its neighbours in
   * `kids`, and no other layer names `p` as its parent.
   */
  ghost predicate ListedAs(c: Context, p: LayerId, kids: seq<LayerId>) {
    && Has(c.containers, p)
    && Index(c.containers, p) == ContainerInfo(FirstOf(kids), LastOf(kids))
    && Distinct(kids)
    && (forall i :: 0 <= i < |kids| ==>
          Get(c.tree, kids[i]) == Some(TreeInfo(Layer(p), PrevOf(kids, i), NextOf(kids, i))))
    && (forall l: LayerId :: ParentIs(c.tree, l, p) ==> l in kids)
  }

  lemma ListedIndex(kids: seq<LayerId>, l: LayerId) returns (i: nat)
    requires l in kids
    ensures i < |kids| && kids[i] == l
  {
    i :| 0 <= i < |kids| && kids[i] == l;
  }

  // Traversal

  /** Follows `next_sibling` links from `start`, at most `fuel` layers. */
  function FollowNext(tree: LayerMap<TreeInfo>, start: Option<LayerId>, fuel: nat): seq<LayerId>
    decreases fuel
  {
    if fuel == 0 || start.None? || !Has(tree, start.value) then []
    else [start.value] + FollowNext(tree, Index(tree, start.value).next, fuel - 1)
  }

  /** Follows `prev_sibling` links from `start`, at most `fuel` layers. */
  function FollowPrev(tree: LayerMap<TreeInfo>, start: Option<LayerId>, fuel: nat): seq<LayerId>
    decreases fuel
  {
    if fuel == 0 || start.None? || !Has(tree, start.value) then []
    else [start.value] + FollowPrev(tree, Index(tree, start.value).prev, fuel - 1)
  }

  /** Each of `kids` has a tree entry whose `next_sibling` is its successor in `kids`. */
  ghost predicate NextChain(tree: LayerMap<TreeInfo>, kids: seq<LayerId>) {
    forall i :: 0 <= i < |kids| ==> Has(tree, kids[i]) && Index(tree, kids[i]).next == NextOf(kids, i)
  }

  /** Each of `kids` has a tree entry whose `prev_sibling` is its predecessor in `kids`. */
  ghost predicate PrevChain(tree: LayerMap<TreeInfo>, kids: seq<LayerId>) {
    forall i :: 0 <= i < |kids| ==> Has(tree, kids[i]) && Index(tree, kids[i]).prev == PrevOf(kids, i)
  }

  lemma ListedChains(c: Context, p: LayerId, kids: seq<LayerId>)
    requires ListedAs(c, p, kids)
    ensures NextChain(c.tree, kids) && PrevChain(c.tree, kids)
  {
    forall i | 0 <= i < |kids|
      ensures Has(c.tree, kids[i]) && Index(c.tree, kids[i]).next == NextOf(kids, i)
      ensures Index(c.tree, kids[i]).prev == PrevOf(kids, i)
    {
      assert Get(c.tree, kids[i]) == Some(TreeInfo(Layer(p), PrevOf(kids, i), NextOf(kids, i)));
    }
  }

  lemma {:induction false} ForwardSuffix(tree: LayerMap<TreeInfo>, kids: seq<LayerId>, i: nat)
    requires NextChain(tree, kids) && i <= |kids|
    ensures FollowNext(tree, if i < |kids| then Some(kids[i]) else None, |kids| - i) == kids[i..]
    decreases |kids| - i
  {
    if i < |kids| {
      ForwardSuffix(tree, kids, i + 1);
      assert kids[i..] == [kids[i]] + kids[i + 1..];
    }
  }

  lemma {:induction false} BackwardPrefix(tree: LayerMap<TreeInfo>, kids: seq<LayerId>, n: nat)
    requires PrevChain(tree, kids) && n <= |kids|
    ensures FollowPrev(tree, if n > 0 then Some(kids[n - 1]) else None, n) == Reverse(kids[..n])
    decreases n
  {
    if n > 0 {
      BackwardPrefix(tree, kids, n - 1);
      assert kids[..n][..n - 1] == kids[..n - 1];
    }
  }

  lemma ForwardFromFirst(tree: LayerMap<TreeInfo>, kids: seq<LayerId>)
    requires NextChain(tree, kids)
    ensures FollowNext(tree, FirstOf(kids), |kids|) == kids
  {
    ForwardSuffix(tree, kids, 0);
    assert kids[0..] == kids;
  }

  lemma BackwardFromLast(tree: LayerMap<TreeInfo>, kids: seq<LayerId>)
    requires PrevChain(tree, kids)
    ensures FollowPrev(tree, LastOf(kids), |kids|) == Reverse(kids)
  {
    BackwardPrefix(tree, kids, |kids|);
    assert kids[..|kids|] == kids;
  }

  /**
   * On a consistent list, walking `next_sibling` from `first_child` visits the
   * children in order and stops at `last_child` (whose `next_sibling` is
   * `None`); walking `prev_sibling` from `last_child` visits them in reverse.
   */
  lemma Traversals(c: Context, p: LayerId, kids: seq<LayerId>)
    requires ListedAs(c, p, kids)
    ensures FollowNext(c.tree, Index(c.containers, p).first, |kids|) == kids
    ensures FollowPrev(c.tree, Index(c.containers, p).last, |kids|) == Reverse(kids)
    ensures |kids| > 0 ==> Index(c.tree, kids[|kids| - 1]).next.None? && Index(c.tree, kids[0]).prev.None?
  {
    ListedChains(c, p, kids);
    ForwardFromFirst(c.tree, kids);
    BackwardFromLast(c.tree, kids);
  }

  // Removal

  function Without(kids: seq<LayerId>, k: nat): (r: seq<LayerId>)
    requires k < |kids|
    ensures |r| == |kids| - 1
  {
    kids[..k] + kids[k + 1..]
  }

  lemma WithoutDistinct(kids: seq<LayerId>, k: nat)
    requires Distinct(kids) && k < |kids|
    ensures Distinct(Without(kids, k)) && kids[k] !in Without(kids, k)
  {
    var nk := Without(kids, k);
    forall i, j | 0 <= i < j < |nk|
      ensures nk[i] != nk[j]
    {
      var i' := if i < k then i else i + 1;
      var j' := if j < k then j else j + 1;
      assert nk[i] == kids[i'] && nk[j] == kids[j'];
    }
  }

  /** The entry a listed child's neighbour gets when the child is spliced out. */
  function SplicedEntry(kids: seq<LayerId>, k: nat, p: LayerId, tree: LayerMap<TreeInfo>, l: LayerId): Option<TreeInfo>
    requires k < |kids|
  {
    if l == kids[k] then None
    else if k > 0 && l == kids[k - 1] then Some(TreeInfo(Layer(p), PrevOf(kids, k - 1), NextOf(kids, k)))
    else if k + 1 < |kids| && l == kids[k + 1] then Some(TreeInfo(Layer(p), PrevOf(kids, k), NextOf(kids, k + 1)))
    else Get(tree, l)
  }

  /** What `remove_from_parent` does to the tree entries and the parent's ends, for a listed child. */
  lemma RemoveEffect(c: Context, p: LayerId, kids: seq<LayerId>, k: nat)
    requires InTransaction(c) && ListedAs(c, p, kids) && k < |kids|
    ensures CanRemoveFromParent(c, kids[k])
    ensures var r := RemoveFromParent(c, kids[k]);
            && (forall l: LayerId :: Get(r.tree, l) == SplicedEntry(kids, k, p, c.tree, l))
            && Has(r.containers, p)
            && Index(r.containers, p) == ContainerInfo(FirstOf(Without(kids, k)), LastOf(Without(kids, k)))
  {
    assert Get(c.tree, kids[k]) == Some(TreeInfo(Layer(p), PrevOf(kids, k), NextOf(kids, k)));
    if k > 0 {
      assert Get(c.tree, kids[k - 1]) == Some(TreeInfo(Layer(p), PrevOf(kids, k - 1), NextOf(kids, k - 1)));
    }
    if k + 1 < |kids| {
      assert Get(c.tree, kids[k + 1]) == Some(TreeInfo(Layer(p), PrevOf(kids, k + 1), NextOf(kids, k + 1)));
    }
    RemoveNeighbours(c, p, kids, k);
  }

  /**
   * `remove_from_parent` only looks at the removed child and its two
   * neighbours: given their entries, and the parent's ends, the splice
   * follows.
   */
  lemma RemoveNeighbours(c: Context, p: LayerId, kids: seq<LayerId>, k: nat)
    requires InTransaction(c) && k < |kids|
    requires Has(c.containers, p) && Index(c.containers, p) == ContainerInfo(FirstOf(kids), LastOf(kids))
    requires Get(c.tree, kids[k]) == Some(TreeInfo(Layer(p), PrevOf(kids, k), NextOf(kids, k)))
    requires k > 0 ==> kids[k - 1] != kids[k] && Get(c.tree, kids[k - 1]) == Some(TreeInfo(Layer(p), PrevOf(kids, k - 1), NextOf(kids, k - 1)))
    requires k + 1 < |kids| ==> kids[k + 1] != kids[k] && Get(c.tree, kids[k + 1]) == Some(TreeInfo(Layer(p), PrevOf(kids, k + 1), NextOf(kids, k + 1)))
    requires 0 < k && k + 1 < |kids| ==> kids[k - 1] != kids[k + 1]
    ensures CanRemoveFromParent(c, kids[k])
    ensures var r := RemoveFromParent(c, kids[k]);
            && (forall l: LayerId :: Get(r.tree, l) == SplicedEntry(kids, k, p, c.tree, l))
            && Has(r.containers, p)
            && Index(r.containers, p) == ContainerInfo(FirstOf(Without(kids, k)), LastOf(Without(kids, k)))
  {
    var displaced := kids[k];
    var info := TreeInfo(Layer(p), PrevOf(kids, k), NextOf(kids, k));
    assert CanRemoveFromParent(c, displaced);
    var r := RemoveFromParent(c, displaced);
    var t1 := Take(c.tree, displaced).0;
    var t2 := if info.prev.Some? then Set(t1, info.prev.value, Index(t1, info.prev.value).(next := info.next)) else t1;
    var t3 := if info.next.Some? then Set(t2, info.next.value, Index(t2, info.next.value).(prev := info.prev)) else t2;
    assert r.tree == t3;
    forall l: LayerId
      ensures Get(r.tree, l) == SplicedEntry(kids, k, p, c.tree, l)
    {
    }
    var nk := Without(kids, k);
    if |nk| > 0 {
      assert k > 0 ==> nk[0] == kids[0];
      assert k == 0 ==> nk[0] == kids[1];
      assert k < |nk| ==> nk[|nk| - 1] == kids[|kids| - 1];
    }
  }

  /**
   * `remove_from_parent` on a listed child: the debug assertions hold, and
   * the parent's list is still consistent, without the removed layer, with
   * `first_child`/`last_child` repaired.
   */
  lemma RemoveSplicesOut(c: Context, p: LayerId, kids: seq<LayerId>, k: nat)
    requires InTransaction(c) && ListedAs(c, p, kids) && k < |kids|
    ensures CanRemoveFromParent(c, kids[k])
    ensures ListedAs(RemoveFromParent(c, kids[k]), p, Without(kids, k))
    ensures kids[k] !in Without(kids, k)
  {
    RemoveEffect(c, p, kids, k);
    SplicedIsListed(c, RemoveFromParent(c, kids[k]), p, kids, k);
  }

  /** Any context whose entries are the spliced ones lists the remaining children. */
  lemma SplicedIsListed(c: Context, r: Context, p: LayerId, kids: seq<LayerId>, k: nat)
    requires ListedAs(c, p, kids) && k < |kids|
    requires forall l: LayerId :: Get(r.tree, l) == SplicedEntry(kids, k, p, c.tree, l)
    requires Has(r.containers, p)
    requires Index(r.containers, p) == ContainerInfo(FirstOf(Without(kids, k)), LastOf(Without(kids, k)))
    ensures ListedAs(r, p, Without(kids, k)) && kids[k] !in Without(kids, k)
  {
    WithoutDistinct(kids, k);
    var nk := Without(kids, k);
    forall i | 0 <= i < |nk|
      ensures Get(r.tree, nk[i]) == Some(TreeInfo(Layer(p), PrevOf(nk, i), NextOf(nk, i)))
    {
      SplicedEntryAt(c, p, kids, k, i);
    }
    forall l: LayerId | ParentIs(r.tree, l, p)
      ensures l in nk
    {
      SplicedCovers(c, p, kids, k, l);
    }
  }

  /** The spliced entry of the `i`-th remaining child links it to its new neighbours. */
  lemma SplicedEntryAt(c: Context, p: LayerId, kids: seq<LayerId>, k: nat, i: nat)
    requires Distinct(kids) && k < |kids| && i < |kids| - 1
    requires forall j :: 0 <= j < |kids| ==> Get(c.tree, kids[j]) == Some(TreeInfo(Layer(p), PrevOf(kids, j), NextOf(kids, j)))
    ensures var nk := Without(kids, k);
            SplicedEntry(kids, k, p, c.tree, nk[i]) == Some(TreeInfo(Layer(p), PrevOf(nk, i), NextOf(nk, i)))
  {
    if i + 1 < k {
      SplicedEntryBefore(c, p, kids, k, i);
    } else if i + 1 == k {
      SplicedEntryLeft(c, p, kids, k, i);
    } else if i == k {
      SplicedEntryRight(c, p, kids, k, i);
    } else {
      SplicedEntryAfter(c, p, kids, k, i);
    }
  }

  /** A child well before the removed one keeps its entry. */
  lemma SplicedEntryBefore(c: Context, p: LayerId, kids: seq<LayerId>, k: nat, i: nat)
    requires Distinct(kids) && k < |kids| && i < |kids| - 1
    requires forall j :: 0 <= j < |kids| ==> Get(c.tree, kids[j]) == Some(TreeInfo(Layer(p), PrevOf(kids, j), NextOf(kids, j)))
    requires i + 1 < k
    ensures var nk := Without(kids, k);
            SplicedEntry(kids, k, p, c.tree, nk[i]) == Some(TreeInfo(Layer(p), PrevOf(nk, i), NextOf(nk, i)))
  {
    var nk := Without(kids, k);
    assert nk[i] == kids[i] && nk[i + 1] == kids[i + 1];
    assert i > 0 ==> nk[i - 1] == kids[i - 1];
    assert kids[i] != kids[k - 1] && kids[i] != kids[k];
    assert k + 1 < |kids| ==> kids[i] != kids[k + 1];
    assert Get(c.tree, kids[i]) == Some(TreeInfo(Layer(p), PrevOf(kids, i), NextOf(kids, i)));
  }

  /** The removed child's predecessor now points past it. */
  lemma SplicedEntryLeft(c: Context, p: LayerId, kids: seq<LayerId>, k: nat, i: nat)
    requires Distinct(kids) && k < |kids| && i < |kids| - 1
    requires forall j :: 0 <= j < |kids| ==> Get(c.tree, kids[j]) == Some(TreeInfo(Layer(p), PrevOf(kids, j), NextOf(kids, j)))
    requires i + 1 == k
    ensures var nk := Without(kids, k);
            SplicedEntry(kids, k, p, c.tree, nk[i]) == Some(TreeInfo(Layer(p), PrevOf(nk, i), NextOf(nk, i)))
  {
    var nk := Without(kids, k);
    assert nk[i] == kids[i];
    assert i > 0 ==> nk[i - 1] == kids[i - 1];
    assert i + 1 < |nk| ==> nk[i + 1] == kids[k + 1];
    assert kids[i] != kids[k];
  }

  /** The removed child's successor now points back past it. */
  lemma SplicedEntryRight(c: Context, p: LayerId, kids: seq<LayerId>, k: nat, i: nat)
    requires Distinct(kids) && k < |kids| && i < |kids| - 1
    requires forall j :: 0 <= j < |kids| ==> Get(c.tree, kids[j]) == Some(TreeInfo(Layer(p), PrevOf(kids, j), NextOf(kids, j)))
    requires i == k
    ensures var nk := Without(kids, k);
            SplicedEntry(kids, k, p, c.tree, nk[i]) == Some(TreeInfo(Layer(p), PrevOf(nk, i), NextOf(nk, i)))
  {
    var nk := Without(kids, k);
    assert nk[i] == kids[k + 1];
    assert i > 0 ==> nk[i - 1] == kids[k - 1];
    assert i + 1 < |nk| ==> nk[i + 1] == kids[k + 2];
    assert kids[k + 1] != kids[k];
    assert k > 0 ==> kids[k + 1] != kids[k - 1];
  }

  /** A child well after the removed one keeps its entry, one position earlier. */
  lemma SplicedEntryAfter(c: Context, p: LayerId, kids: seq<LayerId>, k: nat, i: nat)
    requires Distinct(kids) && k < |kids| && i < |kids| - 1
    requires forall j :: 0 <= j < |kids| ==> Get(c.tree, kids[j]) == Some(TreeInfo(Layer(p), PrevOf(kids, j), NextOf(kids, j)))
    requires k < i
    ensures var nk := Without(kids, k);
            SplicedEntry(kids, k, p, c.tree, nk[i]) == Some(TreeInfo(Layer(p), PrevOf(nk, i), NextOf(nk, i)))
  {
    var nk := Without(kids, k);
    assert nk[i] == kids[i + 1] && nk[i - 1] == kids[i];
    assert i + 1 < |nk| ==> nk[i + 1] == kids[i + 2];
    assert kids[i + 1] != kids[k] && kids[i + 1] != kids[k + 1];
    assert k > 0 ==> kids[i + 1] != kids[k - 1];
    assert Get(c.tree, kids[i + 1]) == Some(TreeInfo(Layer(p), PrevOf(kids, i + 1), NextOf(kids, i + 1)));
  }

  /** A layer whose spliced entry names `p` as parent is one of the remaining children. */
  lemma SplicedCovers(c: Context, p: LayerId, kids: seq<LayerId>, k: nat, l: LayerId)
    requires ListedAs(c, p, kids) && k < |kids|
    requires var e := SplicedEntry(kids, k, p, c.tree, l); e.Some? && e.value.parent == Layer(p)
    ensures l in Without(kids, k)
  {
    var nk := Without(kids, k);
    if SplicedEntry(kids, k, p, c.tree, l) == Get(c.tree, l) {
      assert ParentIs(c.tree, l, p);
    }
    var j := ListedIndex(kids, l);
    assert nk[if j < k then j else j - 1] == l;
  }

  /** Removing a child of `p` leaves every other container's list as it was. */
  lemma RemoveKeepsOtherLists(c: Context, p: LayerId, kids: seq<LayerId>, k: nat, q: LayerId, qkids: seq<LayerId>)
    requires InTransaction(c) && ListedAs(c, p, kids) && k < |kids|
    requires q != p && ListedAs(c, q, qkids)
    ensures CanRemoveFromParent(c, kids[k])
    ensures ListedAs(RemoveFromParent(c, kids[k]), q, qkids)
  {
    RemoveSplicesOut(c, p, kids, k);
    var r := RemoveFromParent(c, kids[k]);
    forall i | 0 <= i < |qkids|
      ensures Get(r.tree, qkids[i]) == Get(c.tree, qkids[i])
    {
      assert ParentIs(c.tree, qkids[i], q);
      assert Some(qkids[i]) != PrevOf(kids, k) && Some(qkids[i]) != NextOf(kids, k);
    }
    forall l: LayerId | ParentIs(r.tree, l, q)
      ensures l in qkids
    {
      assert ParentIs(c.tree, l, q);
    }
  }

  // Insertion as written

  /**
   * Appending to a container with at least one child, as `append_child` is
   * written, leaves NO consistent list: the new child becomes `first_child`
   * with no successor, so the old children are cut off.
   */
  lemma AppendToNonEmptyBreaksList(c: Context, p: LayerId, kids: seq<LayerId>, child: LayerId, nk: seq<LayerId>)
    requires ListedAs(c, p, kids) && |kids| > 0 && CanInsertBefore(c, p, child, None)
    ensures !ListedAs(AppendChild(c, p, child), p, nk)
  {
    var r := AppendChild(c, p, child);
    assert ParentIs(r.tree, kids[0], p) && ParentIs(r.tree, child, p);
  }

  /**
   * Inserting before a listed reference, as `insert_before` is written,
   * leaves NO consistent list: the new child's `next_sibling` is the
   * reference and the reference's `next_sibling` is the new child.
   */
  lemma InsertBeforeReferenceBreaksList(c: Context, p: LayerId, kids: seq<LayerId>, child: LayerId, k: nat, nk: seq<LayerId>)
    requires ListedAs(c, p, kids) && k < |kids| && CanInsertBefore(c, p, child, Some(kids[k]))
    ensures !ListedAs(InsertBefore(c, p, child, Some(kids[k])), p, nk)
  {
    var ref := kids[k];
    var r := InsertBefore(c, p, child, Some(ref));
    assert ParentIs(r.tree, ref, p) && ParentIs(r.tree, child, p);
  }

  /** Appending to an empty container is the one insertion the written code gets right. */
  lemma AppendToEmptyKeepsList(c: Context, p: LayerId, child: LayerId)
    requires ListedAs(c, p, []) && CanInsertBefore(c, p, child, None)
    ensures ListedAs(AppendChild(c, p, child), p, [child])
  {
    var r := AppendChild(c, p, child);
    forall l: LayerId | ParentIs(r.tree, l, p)
      ensures l in [child]
    {
      if l != child {
        assert ParentIs(c.tree, l, p);
      }
    }
  }

  // Linked insertion

  /** The predecessor the new child gets: the reference's, or the current last child. */
  function NewPrev(c: Context, parent: LayerId, reference: Option<LayerId>): Option<LayerId>
    requires reference.Some? ==> Has(c.tree, reference.value)
    requires reference.None? ==> Has(c.containers, parent)
  {
    if reference.Some? then Index(c.tree, reference.value).prev else Index(c.containers, parent).last
  }

  predicate CanInsertLinked(c: Context, parent: LayerId, child: LayerId, reference: Option<LayerId>) {
    && InTransaction(c)
    && (reference.Some? ==> ParentOf(c, reference.value) == Some(Layer(parent)))
    && !Has(c.tree, child)
    && Has(c.containers, parent)
    && var prev := NewPrev(c, parent, reference);
       prev.Some? ==> Has(c.tree, prev.value)
  }

  /**
   * A doubly linked `insert_before`: the new child sits between the
   * reference's predecessor (or the last child) and the reference (or the
   * end), and both neighbours, or `first_child`/`last_child`, point at it.
   */
  function InsertBeforeLinked(c: Context, parent: LayerId, child: LayerId, reference: Option<LayerId>): (r: Context)
    requires CanInsertLinked(c, parent, child, reference)
    ensures Get(r.tree, child) == Some(TreeInfo(Layer(parent), NewPrev(c, parent, reference), reference))
    ensures var prev := NewPrev(c, parent, reference);
            && (prev.Some? ==> Has(r.tree, prev.value) && Index(r.tree, prev.value).next == Some(child))
            && (reference.Some? && reference != prev ==>
                  Has(r.tree, reference.value) && Index(r.tree, reference.value).prev == Some(child))
            && (forall l :: l != child && Some(l) != prev && Some(l) != reference ==> Get(r.tree, l) == Get(c.tree, l))
    ensures Has(r.containers, parent)
    ensures reference.None? ==> Index(r.containers, parent).last == Some(child)
    ensures NewPrev(c, parent, reference).None? ==> Index(r.containers, parent).first == Some(child)
    ensures forall l :: l != parent ==> Get(r.containers, l) == Get(c.containers, l)
    ensures r.hooks == c.hooks + [InsertBeforeHook(parent, child, reference)]
    ensures r.geometry == c.geometry && r.level == c.level && r.nextLayerId == c.nextLayerId
  {
    var prev := NewPrev(c, parent, reference);
    var t1 := Add(c.tree, child, TreeInfo(Layer(parent), prev, reference));
    var t2 := if reference.Some? then Set(t1, reference.value, Index(t1, reference.value).(prev := Some(child))) else t1;
    var k1 := if reference.None? then SetLast(c.containers, parent, Some(child)) else c.containers;
    var t3 := if prev.Some? then Set(t2, prev.value, Index(t2, prev.value).(next := Some(child))) else t2;
    var k2 := if prev.None? then SetFirst(k1, parent, Some(child)) else k1;
    c.(tree := t3, containers := k2, hooks := c.hooks + [InsertBeforeHook(parent, child, reference)])
  }

  function Inserted(kids: seq<LayerId>, k: nat, child: LayerId): (r: seq<LayerId>)
    requires k <= |kids|
    ensures |r| == |kids| + 1 && r[k] == child
  {
    kids[..k] + [child] + kids[k..]
  }

  /** The entry a layer gets when `child` is linked in at position `k` of `p`'s children. */
  function InsertedEntry(kids: seq<LayerId>, k: nat, child: LayerId, p: LayerId, tree: LayerMap<TreeInfo>, l: LayerId): Option<TreeInfo>
    requires k <= |kids|
  {
    if l == child then Some(TreeInfo(Layer(p), if k > 0 then Some(kids[k - 1]) else None, if k < |kids| then Some(kids[k]) else None))
    else if k < |kids| && l == kids[k] then Some(TreeInfo(Layer(p), Some(child), NextOf(kids, k)))
    else if k > 0 && l == kids[k - 1] then Some(TreeInfo(Layer(p), PrevOf(kids, k - 1), Some(child)))
    else Get(tree, l)
  }

  /** What the linked insertion does to the tree entries and the parent's ends, at position `k`. */
  lemma InsertEffect(c: Context, p: LayerId, kids: seq<LayerId>, child: LayerId, k: nat)
    requires InTransaction(c) && ListedAs(c, p, kids) && !Has(c.tree, child) && k <= |kids|
    ensures var reference := if k < |kids| then Some(kids[k]) else None;
            && CanInsertLinked(c, p, child, reference)
            && var r := InsertBeforeLinked(c, p, child, reference);
               && (forall l: LayerId :: Get(r.tree, l) == InsertedEntry(kids, k, child, p, c.tree, l))
               && Has(r.containers, p)
               && Index(r.containers, p) == ContainerInfo(FirstOf(Inserted(kids, k, child)), LastOf(Inserted(kids, k, child)))
  {
    if k < |kids| {
      assert Get(c.tree, kids[k]) == Some(TreeInfo(Layer(p), PrevOf(kids, k), NextOf(kids, k)));
    }
    if k > 0 {
      assert Get(c.tree, kids[k - 1]) == Some(TreeInfo(Layer(p), PrevOf(kids, k - 1), NextOf(kids, k - 1)));
    }
    InsertNeighbours(c, p, kids, child, k);
  }

  /**
   * The linked insertion only looks at the two layers the new child goes
   * between: given their entries, and the parent's ends, the effect follows.
   */
  lemma InsertNeighbours(c: Context, p: LayerId, kids: seq<LayerId>, child: LayerId, k: nat)
    requires InTransaction(c) && !Has(c.tree, child) && k <= |kids|
    requires Has(c.containers, p) && Index(c.containers, p) == ContainerInfo(FirstOf(kids), LastOf(kids))
    requires k < |kids| ==> Get(c.tree, kids[k]) == Some(TreeInfo(Layer(p), PrevOf(kids, k), NextOf(kids, k)))
    requires k > 0 ==> Get(c.tree, kids[k - 1]) == Some(TreeInfo(Layer(p), PrevOf(kids, k - 1), NextOf(kids, k - 1)))
    requires 0 < k < |kids| ==> kids[k - 1] != kids[k]
    ensures var reference := if k < |kids| then Some(kids[k]) else None;
            && CanInsertLinked(c, p, child, reference)
            && var r := InsertBeforeLinked(c, p, child, reference);
               && (forall l: LayerId :: Get(r.tree, l) == InsertedEntry(kids, k, child, p, c.tree, l))
               && Has(r.containers, p)
               && Index(r.containers, p) == ContainerInfo(FirstOf(Inserted(kids, k, child)), LastOf(Inserted(kids, k, child)))
  {
    InsertTree(c, p, kids, child, k);
    InsertEnds(c, p, kids, child, k);
  }

  lemma InsertTree(c: Context, p: LayerId, kids: seq<LayerId>, child: LayerId, k: nat)
    requires InTransaction(c) && !Has(c.tree, child) && k <= |kids|
    requires Has(c.containers, p) && Index(c.containers, p) == ContainerInfo(FirstOf(kids), LastOf(kids))
    requires k < |kids| ==> Get(c.tree, kids[k]) == Some(TreeInfo(Layer(p), PrevOf(kids, k), NextOf(kids, k)))
    requires k > 0 ==> Get(c.tree, kids[k - 1]) == Some(TreeInfo(Layer(p), PrevOf(kids, k - 1), NextOf(kids, k - 1)))
    requires 0 < k < |kids| ==> kids[k - 1] != kids[k]
    ensures var reference := if k < |kids| then Some(kids[k]) else None;
            && CanInsertLinked(c, p, child, reference)
            && var r := InsertBeforeLinked(c, p, child, reference);
               forall l: LayerId :: Get(r.tree, l) == InsertedEntry(kids, k, child, p, c.tree, l)
  {
    var reference := if k < |kids| then Some(kids[k]) else None;
    var prev := NewPrev(c, p, reference);
    assert prev == (if k == 0 then None else Some(kids[k - 1]));
    assert CanInsertLinked(c, p, child, reference);
    var r := InsertBeforeLinked(c, p, child, reference);
    var t1 := Add(c.tree, child, TreeInfo(Layer(p), prev, reference));
    var t2 := if reference.Some? then Set(t1, reference.value, Index(t1, reference.value).(prev := Some(child))) else t1;
    var t3 := if prev.Some? then Set(t2, prev.value, Index(t2, prev.value).(next := Some(child))) else t2;
    assert r.tree == t3;
    forall l: LayerId
      ensures Get(r.tree, l) == InsertedEntry(kids, k, child, p, c.tree, l)
    {
    }
  }

  lemma InsertEnds(c: Context, p: LayerId, kids: seq<LayerId>, child: LayerId, k: nat)
    requires InTransaction(c) && !Has(c.tree, child) && k <= |kids|
    requires Has(c.containers, p) && Index(c.containers, p) == ContainerInfo(FirstOf(kids), LastOf(kids))
    requires k < |kids| ==> Get(c.tree, kids[k]) == Some(TreeInfo(Layer(p), PrevOf(kids, k), NextOf(kids, k)))
    requires k > 0 ==> Get(c.tree, kids[k - 1]) == Some(TreeInfo(Layer(p), PrevOf(kids, k - 1), NextOf(kids, k - 1)))
    requires 0 < k < |kids| ==> kids[k - 1] != kids[k]
    ensures var reference := if k < |kids| then Some(kids[k]) else None;
            && CanInsertLinked(c, p, child, reference)
            && var r := InsertBeforeLinked(c, p, child, reference);
               && Has(r.containers, p)
               && Index(r.containers, p) == ContainerInfo(FirstOf(Inserted(kids, k, child)), LastOf(Inserted(kids, k, child)))
  {
    var reference := if k < |kids| then Some(kids[k]) else None;
    var prev := NewPrev(c, p, reference);
    assert prev == (if k == 0 then None else Some(kids[k - 1]));
    assert CanInsertLinked(c, p, child, reference);
    var nk := Inserted(kids, k, child);
    assert k > 0 ==> nk[0] == kids[0];
    assert k < |kids| ==> nk[|nk| - 1] == kids[|kids| - 1];
  }

  /** Any context whose entries are the inserted ones lists the children with `child` at position `k`. */
  lemma InsertedIsListed(c: Context, r: Context, p: LayerId, kids: seq<LayerId>, child: LayerId, k: nat)
    requires ListedAs(c, p, kids) && !Has(c.tree, child) && k <= |kids|
    requires forall l: LayerId :: Get(r.tree, l) == InsertedEntry(kids, k, child, p, c.tree, l)
    requires Has(r.containers, p)
    requires Index(r.containers, p) == ContainerInfo(FirstOf(Inserted(kids, k, child)), LastOf(Inserted(kids, k, child)))
    ensures ListedAs(r, p, Inserted(kids, k, child))
  {
    var nk := Inserted(kids, k, child);
    assert child !in kids;
    forall i | 0 <= i < |nk|
      ensures Get(r.tree, nk[i]) == Some(TreeInfo(Layer(p), PrevOf(nk, i), NextOf(nk, i)))
    {
      InsertedEntryAt(c, p, kids, child, k, i);
    }
    forall l: LayerId | ParentIs(r.tree, l, p)
      ensures l in nk
    {
      InsertedCovers(c, p, kids, child, k, l);
    }
    InsertedDistinct(kids, k, child);
  }

  lemma InsertedDistinct(kids: seq<LayerId>, k: nat, child: LayerId)
    requires Distinct(kids) && child !in kids && k <= |kids|
    ensures Distinct(Inserted(kids, k, child))
  {
    var nk := Inserted(kids, k, child);
    forall i, j | 0 <= i < j < |nk|
      ensures nk[i] != nk[j]
    {
      if i != k && j != k {
        var i' := if i < k then i else i - 1;
        var j' := if j < k then j else j - 1;
        assert nk[i] == kids[i'] && nk[j] == kids[j'];
      } else if i == k {
        assert nk[j] == kids[j - 1];
      } else {
        assert nk[i] == kids[i];
      }
    }
  }

  lemma InsertedIndex(kids: seq<LayerId>, k: nat, child: LayerId, i: nat)
    requires k <= |kids| && i <= |kids|
    ensures Inserted(kids, k, child)[i] == if i < k then kids[i] else if i == k then child else kids[i - 1]
  {
  }

  /** The inserted entry of the `i`-th child links it to its new neighbours. */
  lemma InsertedEntryAt(c: Context, p: LayerId, kids: seq<LayerId>, child: LayerId, k: nat, i: nat)
    requires ListedAs(c, p, kids) && !Has(c.tree, child) && k <= |kids| && i <= |kids|
    ensures var nk := Inserted(kids, k, child);
            InsertedEntry(kids, k, child, p, c.tree, nk[i]) == Some(TreeInfo(Layer(p), PrevOf(nk, i), NextOf(nk, i)))
  {
    var nk := Inserted(kids, k, child);
    InsertedIndex(kids, k, child, i);
    if i > 0 {
      InsertedIndex(kids, k, child, i - 1);
    }
    if i < |kids| {
      InsertedIndex(kids, k, child, i + 1);
    }
    if i < k {
      assert Get(c.tree, kids[i]) == Some(TreeInfo(Layer(p), PrevOf(kids, i), NextOf(kids, i)));
      assert kids[i] != child;
      if i + 1 < k {
        assert kids[i] != kids[k - 1];
        assert k < |kids| ==> kids[i] != kids[k];
      } else {
        assert k < |kids| ==> kids[i] != kids[k];
      }
    } else if i > k {
      assert Get(c.tree, kids[i - 1]) == Some(TreeInfo(Layer(p), PrevOf(kids, i - 1), NextOf(kids, i - 1)));
      assert kids[i - 1] != child;
      if i > k + 1 {
        assert kids[i - 1] != kids[k];
        assert k > 0 ==> kids[i - 1] != kids[k - 1];
      }
    }
  }

  /** A layer whose inserted entry names `p` as parent is `child` or one of the old children. */
  lemma InsertedCovers(c: Context, p: LayerId, kids: seq<LayerId>, child: LayerId, k: nat, l: LayerId)
    requires ListedAs(c, p, kids) && k <= |kids|
    requires var e := InsertedEntry(kids, k, child, p, c.tree, l); e.Some? && e.value.parent == Layer(p)
    ensures l in Inserted(kids, k, child)
  {
    if l == child {
      InsertedIndex(kids, k, child, k);
    } else {
      if InsertedEntry(kids, k, child, p, c.tree, l) == Get(c.tree, l) {
        assert ParentIs(c.tree, l, p);
      }
      var j := ListedIndex(kids, l);
      InsertedIndex(kids, k, child, if j < k then j else j + 1);
    }
  }

  /**
   * The linked insertion keeps the list consistent: the new child appears
   * right before the reference (or at the end) and nothing else moves.
   */
  lemma InsertLinkedKeepsList(c: Context, p: LayerId, kids: seq<LayerId>, child: LayerId, k: nat)
    requires InTransaction(c) && ListedAs(c, p, kids) && !Has(c.tree, child) && k <= |kids|
    ensures var reference := if k < |kids| then Some(kids[k]) else None;
            && CanInsertLinked(c, p, child, reference)
            && ListedAs(InsertBeforeLinked(c, p, child, reference), p, Inserted(kids, k, child))
  {
    var reference := if k < |kids| then Some(kids[k]) else None;
    InsertEffect(c, p, kids, child, k);
    InsertedIsListed(c, InsertBeforeLinked(c, p, child, reference), p, kids, child, k);
  }
}

=== FILE: wayland.dfy ===
/**
 * The Wayland backend (src/backends/wayland.rs): one `wl_surface` per layer,
 * a subsurface tying it to its parent layer or to its host, an EGL window
 * with a cached EGL surface, and the set of dirty layers whose surfaces the
 * next `end_transaction` commits. Protocol requests themselves are not
 * modelled; surfaces, subsurfaces and EGL surfaces are opaque numbers the
 * caller supplies.
 */
module Wayland {
  import opened Wrappers
  import opened LayerMaps
  import opened Sequences
  import opened Geometry
  import opened Layers

  type SurfaceId = nat
  type SubsurfaceId = nat

  /** An EGL window surface made for one EGL configuration. */
  datatype CachedEglSurface = CachedEglSurface(eglSurface: nat, configId: int)

  /** The backend's record per layer (`NativeInfo`). */
  datatype NativeInfo = NativeInfo(
    surface: SurfaceId,
    subsurface: Option<SubsurfaceId>,
    hostSurface: Option<SurfaceId>,
    eglWindowSize: Size,
    cachedEglSurface: Option<CachedEglSurface>)

  datatype WaylandBackend = WaylandBackend(native: LayerMap<NativeInfo>, dirty: set<LayerId>)

  /** One entry of the commit order: a layer's own surface, or the host surface it is shown in. */
  datatype Commit = Own(layer: LayerId, surface: SurfaceId) | HostOf(layer: LayerId, surface: SurfaceId)

  function NewBackend(): (b: WaylandBackend)
    ensures b.dirty == {}
    ensures forall l :: !Has(b.native, l)
  {
    WaylandBackend(Empty(), {})
  }

  // Commit order

  /** The parent `add_ancestors_to_commit_order` climbs to: a `Layer` parent in the tree info. */
  function ParentLayer(tree: LayerMap<TreeInfo>, l: LayerId): Option<LayerId> {
    if Has(tree, l) && Index(tree, l).parent.Layer? then Some(Index(tree, l).parent.id) else None
  }

  /** What committing `l` pushes: its own surface, then its host surface when it is hosted. */
  function Block(native: LayerMap<NativeInfo>, l: LayerId): seq<Commit>
    requires Has(native, l)
  {
    var info := Index(native, l);
    [Own(l, info.surface)] + if info.hostSurface.Some? then [HostOf(l, info.hostSurface.value)] else []
  }

  predicate AllNative(native: LayerMap<NativeInfo>, ls: seq<LayerId>) {
    forall i :: 0 <= i < |ls| ==> Has(native, ls[i])
  }

  /** The blocks of the layers `ls`, in order. */
  function Blocks(native: LayerMap<NativeInfo>, ls: seq<LayerId>): seq<Commit>
    requires AllNative(native, ls)
    decreases |ls|
  {
    if |ls| == 0 then [] else Blocks(native, ls[..|ls| - 1]) + Block(native, ls[|ls| - 1])
  }

  /** The layers whose own surfaces `order` commits, in order. */
  function OwnLayers(order: seq<Commit>): seq<LayerId>
    decreases |order|
  {
    if |order| == 0 then []
    else
      var last := order[|order| - 1];
      OwnLayers(order[..|order| - 1]) + if last.Own? then [last.layer] else []
  }

  /** How many ids below `n` are not in `visited`: the measure of the climb. */
  function Unvisited(n: nat, visited: set<LayerId>): nat {
    if n == 0 then 0 else Unvisited(n - 1, visited) + if n - 1 in visited then 0 else 1
  }

  lemma {:induction false} UnvisitedAbove(n: nat, visited: set<LayerId>, l: LayerId)
    requires n <= l
    ensures Unvisited(n, visited + {l}) == Unvisited(n, visited)
  {
    if n > 0 {
      UnvisitedAbove(n - 1, visited, l);
    }
  }

  lemma {:induction false} UnvisitedShrinks(n: nat, visited: set<LayerId>, l: LayerId)
    requires l < n && l !in visited
    ensures Unvisited(n, visited + {l}) < Unvisited(n, visited)
  {
    if l == n - 1 {
      UnvisitedAbove(n - 1, visited, l);
    } else {
      UnvisitedShrinks(n - 1, visited, l);
    }
  }

  /**
   * `add_ancestors_to_commit_order`: a visited layer is skipped; otherwise
   * the layer is marked visited, its `Layer` parent is handled first, and
   * then its block is pushed. `None` is the panic of indexing a layer that
   * has no native record.
   */
  function AddAncestors(layer: LayerId, order: seq<Commit>, visited: set<LayerId>,
                        tree: LayerMap<TreeInfo>, native: LayerMap<NativeInfo>): (r: Option<(seq<Commit>, set<LayerId>)>)
    ensures r.Some? ==> layer in r.value.1 && visited <= r.value.1
    ensures layer in visited ==> r == Some((order, visited))
    ensures layer !in visited && !Has(native, layer) ==> r.None?
    ensures r.Some? ==> |order| <= |r.value.0| && r.value.0[..|order|] == order
    decreases Unvisited(|tree|, visited)
  {
    if layer in visited then Some((order, visited))
    else if ParentLayer(tree, layer).None? then Push(Some((order, visited + {layer})), layer, native)
    else
      UnvisitedShrinks(|tree|, visited, layer);
      Push(AddAncestors(ParentLayer(tree, layer).value, order, visited + {layer}, tree, native), layer, native)
  }

  /** Pushes the block of `layer` after the climb above it, which may have panicked already. */
  function Push(upper: Option<(seq<Commit>, set<LayerId>)>, layer: LayerId, native: LayerMap<NativeInfo>): Option<(seq<Commit>, set<LayerId>)> {
    if upper.None? || !Has(native, layer) then None
    else Some((upper.value.0 + Block(native, layer), upper.value.1))
  }

  /** `end_transaction`'s loop: every drained layer goes through `AddAncestors`, in drain order. */
  function CommitOrder(drained: seq<LayerId>, order: seq<Commit>, visited: set<LayerId>,
                       tree: LayerMap<TreeInfo>, native: LayerMap<NativeInfo>): Option<(seq<Commit>, set<LayerId>)>
    decreases |drained|
  {
    if |drained| == 0 then Some((order, visited))
    else
      match AddAncestors(drained[0], order, visited, tree, native)
      case None => None
      case Some((order1, visited1)) => CommitOrder(drained[1..], order1, visited1, tree, native)
  }

  /**
   * `end_transaction`: the dirty set is drained (in the order `drained`,
   * which the hash set chooses) into a commit order, the surfaces are
   * committed in that order, and the dirty set is left empty.
   */
  function EndTransaction(b: WaylandBackend, drained: seq<LayerId>, tree: LayerMap<TreeInfo>): (r: Option<(WaylandBackend, seq<Commit>)>)
    requires forall l :: l in drained <==> l in b.dirty
    ensures r.Some? ==> r.value.0.dirty == {} && r.value.0.native == b.native
  {
    match CommitOrder(drained, [], {}, tree, b.native)
    case None => None
    case Some((order, _)) => Some((b.(dirty := {}), order))
  }

  // Shape of the commit order

  /**
   * `ext` is made of the blocks of the layers that became visited, each
   * layer once: the layers in `seen` but not in `visited`.
   */
  ghost predicate Run(ext: seq<Commit>, visited: set<LayerId>, seen: set<LayerId>, native: LayerMap<NativeInfo>) {
    && visited <= seen
    && var added := OwnLayers(ext);
       && AllNative(native, added)
       && ext == Blocks(native, added)
       && Distinct(added)
       && (forall l :: l in added <==> l in seen && l !in visited)
  }

  /** `order'` is `order` followed by a run for the layers that became visited. */
  ghost predicate Extends(order': seq<Commit>, order: seq<Commit>, visited: set<LayerId>, seen: set<LayerId>,
                          native: LayerMap<NativeInfo>) {
    && |order| <= |order'| && order'[..|order|] == order
    && Run(order'[|order|..], visited, seen, native)
  }

  lemma OwnLayersOfBlock(native: LayerMap<NativeInfo>, order: seq<Commit>, l: LayerId)
    requires Has(native, l)
    ensures OwnLayers(order + Block(native, l)) == OwnLayers(order) + [l]
  {
    var own := order + [Own(l, Index(native, l).surface)];
    assert own[..|own| - 1] == order;
    if Index(native, l).hostSurface.Some? {
      var full := order + Block(native, l);
      assert full[..|full| - 1] == own;
    } else {
      assert order + Block(native, l) == own;
    }
  }

  lemma {:induction false} OwnLayersAppend(a: seq<Commit>, b: seq<Commit>)
    ensures OwnLayers(a + b) == OwnLayers(a) + OwnLayers(b)
    decreases |b|
  {
    if |b| == 0 {
      assert a + b == a;
    } else {
      var front := b[..|b| - 1];
      OwnLayersAppend(a, front);
      assert (a + b)[..|a + b| - 1] == a + front;
    }
  }

  lemma {:induction false} BlocksAppend(native: LayerMap<NativeInfo>, xs: seq<LayerId>, ys: seq<LayerId>)
    requires AllNative(native, xs) && AllNative(native, ys)
    ensures AllNative(native, xs + ys)
    ensures Blocks(native, xs + ys) == Blocks(native, xs) + Blocks(native, ys)
    decreases |ys|
  {
    if |ys| == 0 {
      assert xs + ys == xs;
    } else {
      var front := ys[..|ys| - 1];
      BlocksAppend(native, xs, front);
      assert (xs + ys)[..|xs + ys| - 1] == xs + front;
    }
  }

  /** A run of whole blocks followed by one more block is a run of whole blocks. */
  lemma BlocksSnoc(native: LayerMap<NativeInfo>, ext: seq<Commit>, layer: LayerId)
    requires AllNative(native, OwnLayers(ext)) && ext == Blocks(native, OwnLayers(ext))
    requires Has(native, layer)
    ensures OwnLayers(ext + Block(native, layer)) == OwnLayers(ext) + [layer]
    ensures AllNative(native, OwnLayers(ext) + [layer])
    ensures ext + Block(native, layer) == Blocks(native, OwnLayers(ext) + [layer])
  {
    OwnLayersOfBlock(native, ext, layer);
    var added' := OwnLayers(ext) + [layer];
    assert added'[..|added'| - 1] == OwnLayers(ext);
  }

  lemma DistinctSnoc(ls: seq<LayerId>, l: LayerId)
    requires Distinct(ls) && l !in ls
    ensures Distinct(ls + [l])
  {
  }

  /** A run followed by the block of the layer that was marked visited before it is a run. */
  lemma RunSnoc(ext: seq<Commit>, visited: set<LayerId>, seen: set<LayerId>, native: LayerMap<NativeInfo>, layer: LayerId)
    requires Run(ext, visited + {layer}, seen, native) && layer !in visited
    requires Has(native, layer)
    ensures Run(ext + Block(native, layer), visited, seen, native)
  {
    BlocksSnoc(native, ext, layer);
    DistinctSnoc(OwnLayers(ext), layer);
  }

  /** Pushing one more layer's block after an extension extends it further. */
  lemma ExtendsByBlock(order2: seq<Commit>, order: seq<Commit>, visited: set<LayerId>, seen2: set<LayerId>,
                       native: LayerMap<NativeInfo>, layer: LayerId)
    requires Extends(order2, order, visited + {layer}, seen2, native) && layer !in visited
    requires Has(native, layer)
    ensures Extends(order2 + Block(native, layer), order, visited, seen2, native)
  {
    var ext := order2[|order|..];
    var order' := order2 + Block(native, layer);
    assert order'[|order|..] == ext + Block(native, layer);
    assert order'[..|order|] == order;
    RunSnoc(ext, visited, seen2, native, layer);
  }

  /** What one climb adds to the commit order. */
  lemma {:induction false} AddAncestorsExtends(layer: LayerId, order: seq<Commit>, visited: set<LayerId>,
                                               tree: LayerMap<TreeInfo>, native: LayerMap<NativeInfo>)
    ensures var r := AddAncestors(layer, order, visited, tree, native);
            r.Some? ==> Extends(r.value.0, order, visited, r.value.1, native)
    decreases Unvisited(|tree|, visited)
  {
    var r := AddAncestors(layer, order, visited, tree, native);
    if layer in visited {
      assert order[|order|..] == [];
      assert Blocks(native, []) == [];
    } else if r.Some? {
      var seen := visited + {layer};
      var parent := ParentLayer(tree, layer);
      if parent.None? {
        assert order[|order|..] == [];
        assert Extends(order, order, seen, seen, native);
      } else {
        UnvisitedShrinks(|tree|, visited, layer);
        AddAncestorsExtends(parent.value, order, seen, tree, native);
      }
      var (order2, seen2) := if parent.None? then (order, seen) else AddAncestors(parent.value, order, seen, tree, native).value;
      ExtendsByBlock(order2, order, visited, seen2, native, layer);
    }
  }

  lemma DistinctConcat(a: seq<LayerId>, b: seq<LayerId>)
    requires Distinct(a) && Distinct(b)
    requires forall x :: x in a ==> x !in b
    ensures Distinct(a + b)
  {
    var ab := a + b;
    forall i, j | 0 <= i < j < |ab|
      ensures ab[i] != ab[j]
    {
      if i < |a| <= j {
        assert ab[i] in a && ab[j] in b;
      }
    }
  }

  /** Two runs in a row are one run. */
  lemma RunsJoin(e1: seq<Commit>, e2: seq<Commit>, visited: set<LayerId>, visited1: set<LayerId>, visited2: set<LayerId>,
                 native: LayerMap<NativeInfo>)
    requires Run(e1, visited, visited1, native) && Run(e2, visited1, visited2, native)
    ensures Run(e1 + e2, visited, visited2, native)
  {
    OwnLayersAppend(e1, e2);
    var a1, a2 := OwnLayers(e1), OwnLayers(e2);
    BlocksAppend(native, a1, a2);
    DistinctConcat(a1, a2);
  }

  lemma SlicesJoin(order2: seq<Commit>, order1: seq<Commit>, order: seq<Commit>)
    requires |order| <= |order1| <= |order2|
    requires order1[..|order|] == order && order2[..|order1|] == order1
    ensures order2[..|order|] == order
    ensures order2[|order|..] == order1[|order|..] + order2[|order1|..]
  {
    assert order2[..|order|] == order1[..|order|];
  }

  /** Two extensions in a row are one extension. */
  lemma ExtendsTrans(order2: seq<Commit>, order1: seq<Commit>, order: seq<Commit>,
                     visited: set<LayerId>, visited1: set<LayerId>, visited2: set<LayerId>, native: LayerMap<NativeInfo>)
    requires Extends(order1, order, visited, visited1, native)
    requires Extends(order2, order1, visited1, visited2, native)
    ensures Extends(order2, order, visited, visited2, native)
  {
    SlicesJoin(order2, order1, order);
    RunsJoin(order1[|order|..], order2[|order1|..], visited, visited1, visited2, native);
  }

  /** What the drain loop adds to the commit order; every drained layer ends up visited. */
  lemma {:induction false} CommitOrderExtends(drained: seq<LayerId>, order: seq<Commit>, visited: set<LayerId>,
                                              tree: LayerMap<TreeInfo>, native: LayerMap<NativeInfo>)
    ensures var r := CommitOrder(drained, order, visited, tree, native);
            r.Some? ==> && Extends(r.value.0, order, visited, r.value.1, native)
                        && forall l :: l in drained ==> l in r.value.1
    decreases |drained|
  {
    var r := CommitOrder(drained, order, visited, tree, native);
    if |drained| == 0 {
      assert order[|order|..] == [];
      assert Blocks(native, []) == [];
    } else if r.Some? {
      AddAncestorsExtends(drained[0], order, visited, tree, native);
      var (order1, visited1) := AddAncestors(drained[0], order, visited, tree, native).value;
      CommitOrderExtends(drained[1..], order1, visited1, tree, native);
      ExtendsTrans(r.value.0, order1, order, visited, visited1, r.value.1, native);
      forall l | l in drained
        ensures l in r.value.1
      {
        if l != drained[0] {
          assert l in drained[1..];
        }
      }
    }
  }

  /**
   * The commit order of `end_transaction` commits every drained dirty
   * layer, no layer's surface twice, and is made of whole blocks.
   */
  lemma EndTransactionCommitsDirty(b: WaylandBackend, drained: seq<LayerId>, tree: LayerMap<TreeInfo>)
    requires forall l :: l in drained <==> l in b.dirty
    ensures var r := EndTransaction(b, drained, tree);
            r.Some? ==>
              var layers := OwnLayers(r.value.1);
              && r.value.0.dirty == {}
              && (forall l :: l in b.dirty ==> l in layers)
              && Distinct(layers)
              && AllNative(b.native, layers)
              && r.value.1 == Blocks(b.native, layers)
  {
    CommitOrderExtends(drained, [], {}, tree, b.native);
    var r := CommitOrder(drained, [], {}, tree, b.native);
    if r.Some? {
      assert r.value.0[0..] == r.value.0;
    }
  }

  // Host surfaces follow their layers

  /**
   * Entry `i` sits where `add_ancestors_to_commit_order` puts it: a layer's
   * own entry names its surface and, when the layer is hosted, is directly
   * followed by its host surface; a host entry directly follows its layer.
   */
  ghost predicate Placed(order: seq<Commit>, native: LayerMap<NativeInfo>, i: int)
    requires 0 <= i < |order|
  {
    var l := order[i].layer;
    && Has(native, l)
    && match order[i]
       case Own(_, s) =>
         && s == Index(native, l).surface
         && (Index(native, l).hostSurface.Some? ==>
               i + 1 < |order| && order[i + 1] == HostOf(l, Index(native, l).hostSurface.value))
       case HostOf(_, h) =>
         && Index(native, l).hostSurface == Some(h)
         && 0 < i && order[i - 1] == Own(l, Index(native, l).surface)
  }

  lemma {:induction false} BlocksPlaceHosts(native: LayerMap<NativeInfo>, ls: seq<LayerId>)
    requires AllNative(native, ls)
    ensures forall i :: 0 <= i < |Blocks(native, ls)| ==> Placed(Blocks(native, ls), native, i)
    decreases |ls|
  {
    if |ls| > 0 {
      var front := ls[..|ls| - 1];
      BlocksPlaceHosts(native, front);
      var head := Blocks(native, front);
      var order := Blocks(native, ls);
      var l := ls[|ls| - 1];
      assert order == head + Block(native, l);
      forall i | 0 <= i < |order|
        ensures Placed(order, native, i)
      {
        if i < |head| {
          assert Placed(head, native, i);
          assert order[i] == head[i];
          if 0 < i {
            assert order[i - 1] == head[i - 1];
          }
          if i + 1 < |head| {
            assert order[i + 1] == head[i + 1];
          }
        }
      }
    }
  }

  /** In the commit order, every host surface comes right after the surface of the layer it hosts. */
  lemma EndTransactionPlacesHosts(b: WaylandBackend, drained: seq<LayerId>, tree: LayerMap<TreeInfo>)
    requires forall l :: l in drained <==> l in b.dirty
    ensures var r := EndTransaction(b, drained, tree);
            r.Some? ==> forall i :: 0 <= i < |r.value.1| ==> Placed(r.value.1, b.native, i)
  {
    var r := EndTransaction(b, drained, tree);
    if r.Some? {
      EndTransactionCommitsDirty(b, drained, tree);
      BlocksPlaceHosts(b.native, OwnLayers(r.value.1));
    }
  }

  // Parents are committed first

  /** Every layer in `ls` whose tree info names a `Layer` parent comes after that parent. */
  ghost predicate ParentsFirst(ls: seq<LayerId>, tree: LayerMap<TreeInfo>) {
    forall i :: 0 <= i < |ls| && ParentLayer(tree, ls[i]).Some? ==> ParentLayer(tree, ls[i]).value in ls[..i]
  }

  lemma ParentsFirstSnoc(ls: seq<LayerId>, l: LayerId, tree: LayerMap<TreeInfo>)
    requires ParentsFirst(ls, tree)
    requires ParentLayer(tree, l).Some? ==> ParentLayer(tree, l).value in ls
    ensures ParentsFirst(ls + [l], tree)
  {
    var ls' := ls + [l];
    forall i | 0 <= i < |ls'| && ParentLayer(tree, ls'[i]).Some?
      ensures ParentLayer(tree, ls'[i]).value in ls'[..i]
    {
      if i < |ls| {
        assert ls'[..i] == ls[..i];
      } else {
        assert ls'[..i] == ls;
      }
    }
  }

  /**
   * A climb started with every visited layer either already committed or
   * below `layer` (its descendants still waiting on the recursion) keeps
   * parents before children.
   */
  lemma {:induction false} AddAncestorsParentsFirst(layer: LayerId, order: seq<Commit>, visited: set<LayerId>,
                                                    tree: LayerMap<TreeInfo>, native: LayerMap<NativeInfo>, rank: LayerId -> nat)
    requires Acyclic(tree, rank)
    requires ParentsFirst(OwnLayers(order), tree)
    requires forall v :: v in visited ==> v in OwnLayers(order) || rank(layer) < rank(v)
    ensures var r := AddAncestors(layer, order, visited, tree, native);
            r.Some? ==> ParentsFirst(OwnLayers(r.value.0), tree)
    decreases Unvisited(|tree|, visited)
  {
    var r := AddAncestors(layer, order, visited, tree, native);
    if layer !in visited && r.Some? {
      var seen := visited + {layer};
      var parent := ParentLayer(tree, layer);
      if parent.None? {
        OwnLayersOfBlock(native, order, layer);
        ParentsFirstSnoc(OwnLayers(order), layer, tree);
      } else {
        var p := parent.value;
        assert rank(p) < rank(layer);
        UnvisitedShrinks(|tree|, visited, layer);
        AddAncestorsParentsFirst(p, order, seen, tree, native, rank);
        AddAncestorsExtends(p, order, seen, tree, native);
        var (order2, seen2) := AddAncestors(p, order, seen, tree, native).value;
        OwnLayersAppend(order, order2[|order|..]);
        assert order + order2[|order|..] == order2;
        assert p in OwnLayers(order2) by {
          if p in seen {
            assert p in OwnLayers(order);
          }
        }
        OwnLayersOfBlock(native, order2, layer);
        ParentsFirstSnoc(OwnLayers(order2), layer, tree);
      }
    }
  }

  lemma {:induction false} CommitOrderParentsFirst(drained: seq<LayerId>, order: seq<Commit>, visited: set<LayerId>,
                                                   tree: LayerMap<TreeInfo>, native: LayerMap<NativeInfo>, rank: LayerId -> nat)
    requires Acyclic(tree, rank)
    requires ParentsFirst(OwnLayers(order), tree)
    requires forall v :: v in visited <==> v in OwnLayers(order)
    ensures var r := CommitOrder(drained, order, visited, tree, native);
            r.Some? ==> ParentsFirst(OwnLayers(r.value.0), tree)
    decreases |drained|
  {
    var r := CommitOrder(drained, order, visited, tree, native);
    if |drained| > 0 && r.Some? {
      AddAncestorsParentsFirst(drained[0], order, visited, tree, native, rank);
      AddAncestorsExtends(drained[0], order, visited, tree, native);
      var (order1, visited1) := AddAncestors(drained[0], order, visited, tree, native).value;
      OwnLayersAppend(order, order1[|order|..]);
      assert order + order1[|order|..] == order1;
      assert forall v :: v in visited1 <==> v in OwnLayers(order1);
      CommitOrderParentsFirst(drained[1..], order1, visited1, tree, native, rank);
    }
  }

  /**
   * Ancestors are committed before their descendants (the opposite of the
   * "children before parents" comment in the source), and so every
   * committed layer's `Layer` parent is committed too.
   */
  lemma EndTransactionParentsFirst(b: WaylandBackend, drained: seq<LayerId>, tree: LayerMap<TreeInfo>, rank: LayerId -> nat)
    requires forall l :: l in drained <==> l in b.dirty
    requires Acyclic(tree, rank)
    ensures var r := EndTransaction(b, drained, tree);
            r.Some? ==> ParentsFirst(OwnLayers(r.value.1), tree)
  {
    CommitOrderParentsFirst(drained, [], {}, tree, b.native, rank);
  }

  // Children before parents

  lemma {:induction false} OwnLayersOfBlocks(native: LayerMap<NativeInfo>, ls: seq<LayerId>)
    requires AllNative(native, ls)
    ensures OwnLayers(Blocks(native, ls)) == ls
    decreases |ls|
  {
    if |ls| > 0 {
      var front := ls[..|ls| - 1];
      OwnLayersOfBlocks(native, front);
      OwnLayersOfBlock(native, Blocks(native, front), ls[|ls| - 1]);
      assert front + [ls[|ls| - 1]] == ls;
    }
  }

  /**
   * A layer hosted natively and its child, both with native records, the
   * child alone dirty: the commit order has the parent's surface first,
   * although the source comments the loop as committing children before
   * parents.
   */
  lemma ParentCommittedBeforeChild()
    ensures var tree := [Some(TreeInfo(NativeHost, None, None)), Some(TreeInfo(Layer(0), None, None))];
            var native := [Some(NativeInfo(10, None, None, Size(1, 1), None)),
                           Some(NativeInfo(11, Some(20), None, Size(1, 1), None))];
            EndTransaction(WaylandBackend(native, {1}), [1], tree)
              == Some((WaylandBackend(native, {}), [Own(0, 10), Own(1, 11)]))
  {
    var tree := [Some(TreeInfo(NativeHost, None, None)), Some(TreeInfo(Layer(0), None, None))];
    var native := [Some(NativeInfo(10, None, None, Size(1, 1), None)),
                   Some(NativeInfo(11, Some(20), None, Size(1, 1), None))];
    assert ParentLayer(tree, 0) == None;
    assert ParentLayer(tree, 1) == Some(0);
    assert Block(native, 0) == [Own(0, 10)];
    assert Block(native, 1) == [Own(1, 11)];
    assert {1} + {0} == {0, 1};
    var none: seq<Commit> := [];
    assert 0 !in {1};
    assert AddAncestors(0, none, {1}, tree, native) == Push(Some((none, {1} + {0})), 0, native);
    assert none + Block(native, 0) == [Own(0, 10)];
    assert AddAncestors(0, none, {1}, tree, native) == Some(([Own(0, 10)], {0, 1}));
    var empty: set<LayerId> := {};
    assert empty + {1} == {1};
    assert 1 !in empty;
    assert AddAncestors(1, none, empty, tree, native) == Push(AddAncestors(0, none, empty + {1}, tree, native), 1, native);
    assert [Own(0, 10)] + Block(native, 1) == [Own(0, 10), Own(1, 11)];
    assert AddAncestors(1, [], {}, tree, native) == Some(([Own(0, 10), Own(1, 11)], {0, 1}));
  }

  /** Every layer in `ls` with a `Layer` parent comes before that parent, which is in `ls` too. */
  ghost predicate ChildrenFirst(ls: seq<LayerId>, tree: LayerMap<TreeInfo>) {
    forall i :: 0 <= i < |ls| && ParentLayer(tree, ls[i]).Some? ==> ParentLayer(tree, ls[i]).value in ls[i + 1..]
  }

  lemma ReverseOfParentsFirst(ls: seq<LayerId>, tree: LayerMap<TreeInfo>)
    requires ParentsFirst(ls, tree)
    ensures ChildrenFirst(Reverse(ls), tree)
    ensures forall l :: l in Reverse(ls) <==> l in ls
  {
    var rs := Reverse(ls);
    var n := |ls|;
    forall i | 0 <= i < n && ParentLayer(tree, rs[i]).Some?
      ensures ParentLayer(tree, rs[i]).value in rs[i + 1..]
    {
      var k := n - 1 - i;
      assert rs[i] == ls[k];
      var p := ParentLayer(tree, ls[k]).value;
      assert p in ls[..k];
      var j :| 0 <= j < k && ls[j] == p;
      assert rs[n - 1 - j] == p;
      assert rs[i + 1..][n - 1 - j - (i + 1)] == p;
    }
    forall l
      ensures l in rs <==> l in ls
    {
      if l in ls {
        var j :| 0 <= j < n && ls[j] == l;
        assert rs[n - 1 - j] == l;
      }
    }
  }

  lemma ReverseDistinct(ls: seq<LayerId>)
    requires Distinct(ls)
    ensures Distinct(Reverse(ls))
  {
    var rs := Reverse(ls);
    forall i, j | 0 <= i < j < |rs|
      ensures rs[i] != rs[j]
    {
      assert rs[i] == ls[|ls| - 1 - i] && rs[j] == ls[|ls| - 1 - j];
    }
  }

  /**
   * `end_transaction` with the order its comment describes: the layers the
   * climbs collect, reversed, so that children are committed before their
   * parents, each still followed by its host surface.
   */
  function ChildrenFirstEndTransaction(b: WaylandBackend, drained: seq<LayerId>, tree: LayerMap<TreeInfo>): (r: Option<(WaylandBackend, seq<Commit>)>)
    requires forall l :: l in drained <==> l in b.dirty
    ensures r.Some? ==> r.value.0.dirty == {} && r.value.0.native == b.native
  {
    match CommitOrder(drained, [], {}, tree, b.native)
    case None => None
    case Some((order, _)) =>
      var ls := Reverse(OwnLayers(order));
      if AllNative(b.native, ls) then Some((b.(dirty := {}), Blocks(b.native, ls))) else None
  }

  /**
   * The corrected order commits the same layers as the original, each once,
   * children before parents, with every host surface right after its layer,
   * and it panics exactly when the original does.
   */
  lemma ChildrenFirstCommitOrder(b: WaylandBackend, drained: seq<LayerId>, tree: LayerMap<TreeInfo>, rank: LayerId -> nat)
    requires forall l :: l in drained <==> l in b.dirty
    requires Acyclic(tree, rank)
    ensures var r := ChildrenFirstEndTransaction(b, drained, tree);
            && (r.Some? <==> EndTransaction(b, drained, tree).Some?)
            && (r.Some? ==>
                  && (forall l :: l in OwnLayers(r.value.1) <==> l in OwnLayers(EndTransaction(b, drained, tree).value.1))
                  && (forall l :: l in b.dirty ==> l in OwnLayers(r.value.1))
                  && Distinct(OwnLayers(r.value.1))
                  && ChildrenFirst(OwnLayers(r.value.1), tree)
                  && (forall i :: 0 <= i < |r.value.1| ==> Placed(r.value.1, b.native, i)))
  {
    var w := EndTransaction(b, drained, tree);
    if w.Some? {
      EndTransactionCommitsDirty(b, drained, tree);
      EndTransactionParentsFirst(b, drained, tree, rank);
      ReversedBlocks(b.native, OwnLayers(w.value.1), tree);
    }
  }

  /** The blocks of a parents-first list of distinct layers, taken in reverse. */
  lemma ReversedBlocks(native: LayerMap<NativeInfo>, ls: seq<LayerId>, tree: LayerMap<TreeInfo>)
    requires AllNative(native, ls) && Distinct(ls) && ParentsFirst(ls, tree)
    ensures var rs := Reverse(ls);
            && AllNative(native, rs)
            && OwnLayers(Blocks(native, rs)) == rs
            && (forall l :: l in rs <==> l in ls)
            && Distinct(rs)
            && ChildrenFirst(rs, tree)
            && (forall i :: 0 <= i < |Blocks(native, rs)| ==> Placed(Blocks(native, rs), native, i))
  {
    ReverseOfParentsFirst(ls, tree);
    ReverseDistinct(ls);
    var rs := Reverse(ls);
    assert AllNative(native, rs) by {
      forall i | 0 <= i < |rs|
        ensures Has(native, rs[i])
      {
        assert rs[i] == ls[|ls| - 1 - i];
      }
    }
    OwnLayersOfBlocks(native, rs);
    BlocksPlaceHosts(native, rs);
  }

  // Hooks that mark layers dirty

  /**
   * `add_layer`, behind both `add_container_layer` and `add_surface_layer`:
   * a new surface (`surface`, from `wl_compositor.create_surface`) with a
   * 1x1 EGL window and no EGL surface yet.
   */
  function AddLayer(b: WaylandBackend, layer: LayerId, surface: SurfaceId): (r: WaylandBackend)
    requires !Has(b.native, layer)
    ensures Get(r.native, layer) == Some(NativeInfo(surface, None, None, Size(1, 1), None))
    ensures forall l :: l != layer ==> Get(r.native, l) == Get(b.native, l)
    ensures r.dirty == b.dirty + {layer}
  {
    WaylandBackend(Add(b.native, layer, NativeInfo(surface, None, None, Size(1, 1), None)), b.dirty + {layer})
  }

  /** `delete_layer` as written: the native record goes, yet the layer is marked dirty. */
  function DeleteLayer(b: WaylandBackend, layer: LayerId): (r: WaylandBackend)
    ensures !Has(r.native, layer)
    ensures forall l :: l != layer ==> Get(r.native, l) == Get(b.native, l)
    ensures r.dirty == b.dirty + {layer}
  {
    WaylandBackend(RemoveIfPresent(b.native, layer), b.dirty + {layer})
  }

  /**
   * `insert_before`: the new child gets a subsurface (`subsurface`) under
   * the parent's surface; the parent, the new child and the reference sibling
   * (if any) are marked dirty.
   */
  function InsertBefore(b: WaylandBackend, parent: LayerId, newChild: LayerId, reference: Option<LayerId>,
                        subsurface: SubsurfaceId): (r: WaylandBackend)
    requires Has(b.native, newChild) && Has(b.native, parent)
    requires reference.Some? ==> Has(b.native, reference.value)
    ensures Get(r.native, newChild) == Some(Index(b.native, newChild).(subsurface := Some(subsurface)))
    ensures forall l :: l != newChild ==> Get(r.native, l) == Get(b.native, l)
    ensures r.dirty == b.dirty + {parent, newChild} + if reference.Some? then {reference.value} else {}
  {
    var native := Set(b.native, newChild, Index(b.native, newChild).(subsurface := Some(subsurface)));
    var dirty := if reference.Some? then b.dirty + {reference.value} else b.dirty;
    WaylandBackend(native, dirty + {parent, newChild})
  }

  /** `remove_from_superlayer`: the layer's subsurface is destroyed and the layer marked dirty. */
  function RemoveFromSuperlayer(b: WaylandBackend, layer: LayerId): (r: WaylandBackend)
    requires Has(b.native, layer)
    ensures Get(r.native, layer) == Some(Index(b.native, layer).(subsurface := None))
    ensures forall l :: l != layer ==> Get(r.native, l) == Get(b.native, l)
    ensures r.dirty == b.dirty + {layer}
  {
    WaylandBackend(Set(b.native, layer, Index(b.native, layer).(subsurface := None)), b.dirty + {layer})
  }

  /**
   * `host_layer`: the layer's surface becomes a subsurface (`subsurface`) of
   * the host surface, which is remembered so that it is committed with the
   * layer.
   */
  function HostLayer(b: WaylandBackend, layer: LayerId, host: SurfaceId, subsurface: SubsurfaceId): (r: WaylandBackend)
    requires Has(b.native, layer)
    ensures Get(r.native, layer) == Some(Index(b.native, layer).(subsurface := Some(subsurface), hostSurface := Some(host)))
    ensures forall l :: l != layer ==> Get(r.native, l) == Get(b.native, l)
    ensures r.dirty == b.dirty + {layer}
  {
    var info := Index(b.native, layer).(subsurface := Some(subsurface), hostSurface := Some(host));
    WaylandBackend(Set(b.native, layer, info), b.dirty + {layer})
  }

  /**
   * `unhost_layer`: only a layer with a subsurface is touched; it loses the
   * subsurface and the host surface and is marked dirty.
   */
  function UnhostLayer(b: WaylandBackend, layer: LayerId): (r: WaylandBackend)
    requires Has(b.native, layer)
    ensures Index(b.native, layer).subsurface.None? ==> r == b
    ensures Index(b.native, layer).subsurface.Some? ==>
              && Get(r.native, layer) == Some(Index(b.native, layer).(subsurface := None, hostSurface := None))
              && r.dirty == b.dirty + {layer}
    ensures forall l :: l != layer ==> Get(r.native, l) == Get(b.native, l)
  {
    var info := Index(b.native, layer);
    if info.subsurface.None? then b
    else WaylandBackend(Set(b.native, layer, info.(subsurface := None, hostSurface := None)), b.dirty + {layer})
  }

  /** After hosting and unhosting, the layer commits alone again: its block has no host surface. */
  lemma HostThenUnhost(b: WaylandBackend, layer: LayerId, host: SurfaceId, subsurface: SubsurfaceId)
    requires Has(b.native, layer)
    ensures var hosted := HostLayer(b, layer, host, subsurface);
            && Block(hosted.native, layer) == [Own(layer, Index(b.native, layer).surface), HostOf(layer, host)]
            && var r := UnhostLayer(hosted, layer);
               && Block(r.native, layer) == [Own(layer, Index(b.native, layer).surface)]
               && layer in r.dirty
  {
  }

  /** `set_layer_surface_options`: only marks the layer dirty. */
  function SetLayerSurfaceOptions(b: WaylandBackend, layer: LayerId): (r: WaylandBackend)
    ensures r.native == b.native && r.dirty == b.dirty + {layer}
  {
    b.(dirty := b.dirty + {layer})
  }

  // EGL window and EGL surface caches

  /**
   * `set_layer_bounds`: when the layer's (rounded) size differs from its EGL
   * window's, the window is resized and the cached EGL surface dropped; the
   * layer is always marked dirty. The subsurface's new position is a
   * protocol request and is not recorded.
   */
  function SetLayerBounds(b: WaylandBackend, layer: LayerId, geometry: LayerMap<GeometryInfo>): (r: WaylandBackend)
    requires Has(geometry, layer) && Has(b.native, layer)
    requires NonNegative(Index(geometry, layer).bounds)
    ensures var before := Index(b.native, layer);
            var size := Index(geometry, layer).bounds.size;
            && Has(r.native, layer)
            && Index(r.native, layer).eglWindowSize == size
            && (Index(r.native, layer).cachedEglSurface == if before.eglWindowSize == size then before.cachedEglSurface else None)
            && Index(r.native, layer) == before.(eglWindowSize := size, cachedEglSurface := Index(r.native, layer).cachedEglSurface)
    ensures forall l :: l != layer ==> Get(r.native, l) == Get(b.native, l)
    ensures r.dirty == b.dirty + {layer}
  {
    var size := Index(geometry, layer).bounds.size;
    var info := Index(b.native, layer);
    var native :=
      if info.eglWindowSize != size then Set(b.native, layer, info.(eglWindowSize := size, cachedEglSurface := None))
      else b.native;
    WaylandBackend(native, b.dirty + {layer})
  }

  /** EGL's "no surface" handle, which `eglCreateWindowSurface` must not return (assertion). */
  const NoSurface: nat := 0

  /** The EGL surface cached for `layer`, if any. */
  function CachedSurface(b: WaylandBackend, layer: LayerId): Option<CachedEglSurface> {
    if Has(b.native, layer) then Index(b.native, layer).cachedEglSurface else None
  }

  /** The bind finds no cached EGL surface made for `configId`, so it creates one. */
  predicate BindCreatesSurface(b: WaylandBackend, layer: LayerId, configId: int) {
    var cached := CachedSurface(b, layer);
    cached.None? || cached.value.configId != configId
  }

  /**
   * `bind_layer_to_gl_context`: the cached EGL surface is reused when it was
   * made for the context's configuration (`configId`, from
   * `eglQueryContext`); otherwise a new one (`newSurface`, from
   * `eglCreateWindowSurface`) replaces it. `madeCurrent` is the outcome of
   * `eglMakeCurrent`; only on success is the layer marked dirty. Returns the
   * backend and whether the bind succeeded. The assertion that a created
   * surface is not `NoSurface` is the requires, on the path that creates one.
   */
  function BindLayer(b: WaylandBackend, layer: LayerId, configId: int, newSurface: nat, madeCurrent: bool): (r: (WaylandBackend, bool))
    requires Has(b.native, layer)
    requires BindCreatesSurface(b, layer, configId) ==> newSurface != NoSurface
    ensures var before := CachedSurface(b, layer);
            CachedSurface(r.0, layer)
              == if before.Some? && before.value.configId == configId then before else Some(CachedEglSurface(newSurface, configId))
    ensures Has(r.0.native, layer)
    ensures Index(r.0.native, layer).(cachedEglSurface := None) == Index(b.native, layer).(cachedEglSurface := None)
    ensures forall l :: l != layer ==> Get(r.0.native, l) == Get(b.native, l)
    ensures r.1 == madeCurrent
    ensures r.0.dirty == if madeCurrent then b.dirty + {layer} else b.dirty
  {
    var info := Index(b.native, layer);
    var native :=
      match info.cachedEglSurface
      case Some(cached) => if cached.configId == configId then b.native
                           else Set(b.native, layer, info.(cachedEglSurface := Some(CachedEglSurface(newSurface, configId))))
      case None => Set(b.native, layer, info.(cachedEglSurface := Some(CachedEglSurface(newSurface, configId))));
    (WaylandBackend(native, if madeCurrent then b.dirty + {layer} else b.dirty), madeCurrent)
  }

  /** A bind that finds a matching cached surface creates none, so what creation would return is irrelevant. */
  lemma CacheHitIgnoresNewSurface(b: WaylandBackend, layer: LayerId, configId: int, s1: nat, s2: nat, ok: bool)
    requires Has(b.native, layer) && !BindCreatesSurface(b, layer, configId)
    ensures BindLayer(b, layer, configId, s1, ok) == BindLayer(b, layer, configId, s2, ok)
    ensures CachedSurface(BindLayer(b, layer, configId, s1, ok).0, layer) == CachedSurface(b, layer)
  {
  }

  /** Binding twice to contexts of one configuration makes one EGL surface. */
  lemma BindReusesSurface(b: WaylandBackend, layer: LayerId, configId: int, newSurface: nat, nextSurface: nat, ok: bool, ok2: bool)
    requires Has(b.native, layer) && newSurface != NoSurface
    ensures var first := BindLayer(b, layer, configId, newSurface, ok).0;
            var second := BindLayer(first, layer, configId, nextSurface, ok2).0;
            CachedSurface(second, layer) == CachedSurface(first, layer)
  {
  }

  /**
   * A resize to a new size forces the next bind to make a fresh EGL surface;
   * a "resize" to the window's own size keeps the cached one.
   */
  lemma ResizeThenBind(b: WaylandBackend, layer: LayerId, geometry: LayerMap<GeometryInfo>,
                       configId: int, newSurface: nat, ok: bool)
    requires Has(geometry, layer) && Has(b.native, layer)
    requires NonNegative(Index(geometry, layer).bounds)
    requires newSurface != NoSurface
    requires var c := Index(b.native, layer).cachedEglSurface; c.Some? && c.value.configId == configId
    ensures var resized := SetLayerBounds(b, layer, geometry);
            var bound := BindLayer(resized, layer, configId, newSurface, ok).0;
            CachedSurface(bound, layer).value.eglSurface
              == if Index(b.native, layer).eglWindowSize == Index(geometry, layer).bounds.size
                 then Index(b.native, layer).cachedEglSurface.value.eglSurface
                 else newSurface
  {
  }

  /**
   * `present_gl_context`: the cached EGL surface must exist (it is
   * unwrapped); `swapped` is the outcome of `eglSwapBuffers`, and only on
   * success is the layer marked dirty.
   */
  function PresentGlContext(b: WaylandBackend, layer: LayerId, swapped: bool): (r: (WaylandBackend, bool))
    requires CachedSurface(b, layer).Some?
    ensures r.0.native == b.native
    ensures r.1 == swapped
    ensures r.0.dirty == if swapped then b.dirty + {layer} else b.dirty
  {
    (if swapped then b.(dirty := b.dirty + {layer}) else b, swapped)
  }

  /** A successful bind leaves a cached EGL surface, so presenting afterwards does not panic. */
  lemma BindThenPresent(b: WaylandBackend, layer: LayerId, configId: int, newSurface: nat, swapped: bool)
    requires Has(b.native, layer) && newSurface != NoSurface
    ensures var bound := BindLayer(b, layer, configId, newSurface, true).0;
            && CachedSurface(bound, layer).Some?
            && layer in PresentGlContext(bound, layer, swapped).0.dirty
  {
  }

  // Deleting a layer

  lemma {:induction false} AddAncestorsNeverVisits(layer: LayerId, order: seq<Commit>, visited: set<LayerId>,
                                                   tree: LayerMap<TreeInfo>, native: LayerMap<NativeInfo>, gone: LayerId)
    requires !Has(native, gone) && gone !in visited
    ensures var r := AddAncestors(layer, order, visited, tree, native);
            r.Some? ==> gone !in r.value.1
    decreases Unvisited(|tree|, visited)
  {
    if layer !in visited && ParentLayer(tree, layer).Some? {
      UnvisitedShrinks(|tree|, visited, layer);
      if layer != gone {
        AddAncestorsNeverVisits(ParentLayer(tree, layer).value, order, visited + {layer}, tree, native, gone);
      }
    }
  }

  lemma {:induction false} CommitOrderNeverVisits(drained: seq<LayerId>, order: seq<Commit>, visited: set<LayerId>,
                                                  tree: LayerMap<TreeInfo>, native: LayerMap<NativeInfo>, gone: LayerId)
    requires !Has(native, gone) && gone !in visited
    ensures var r := CommitOrder(drained, order, visited, tree, native);
            r.Some? ==> gone !in r.value.1
    decreases |drained|
  {
    if |drained| > 0 {
      AddAncestorsNeverVisits(drained[0], order, visited, tree, native, gone);
      var r1 := AddAncestors(drained[0], order, visited, tree, native);
      if r1.Some? {
        CommitOrderNeverVisits(drained[1..], r1.value.0, r1.value.1, tree, native, gone);
      }
    }
  }

  /**
   * A layer without a native record that is dirty makes `end_transaction`
   * panic, whatever the tree: the climb indexes its record.
   */
  lemma MissingRecordPanics(b: WaylandBackend, drained: seq<LayerId>, tree: LayerMap<TreeInfo>, gone: LayerId)
    requires forall l :: l in drained <==> l in b.dirty
    requires gone in b.dirty && !Has(b.native, gone)
    ensures EndTransaction(b, drained, tree).None?
  {
    CommitOrderNeverVisits(drained, [], {}, tree, b.native, gone);
    CommitOrderExtends(drained, [], {}, tree, b.native);
  }

  /** So every transaction that deletes a layer ends in a panic. */
  lemma DeleteThenEndPanics(b: WaylandBackend, layer: LayerId, drained: seq<LayerId>, tree: LayerMap<TreeInfo>)
    requires forall l :: l in drained <==> l in DeleteLayer(b, layer).dirty
    ensures EndTransaction(DeleteLayer(b, layer), drained, tree).None?
  {
    MissingRecordPanics(DeleteLayer(b, layer), drained, tree, layer);
  }

  /** `delete_layer` as evidently intended: the deleted layer leaves the dirty set with its record. */
  function DeleteLayerCorrected(b: WaylandBackend, layer: LayerId): (r: WaylandBackend)
    ensures !Has(r.native, layer) && layer !in r.dirty
    ensures forall l :: l != layer ==> Get(r.native, l) == Get(b.native, l)
    ensures forall l :: l != layer ==> (l in r.dirty <==> l in b.dirty)
  {
    WaylandBackend(RemoveIfPresent(b.native, layer), b.dirty - {layer})
  }

  /** Every dirty layer and every layer on its parent chain has a native record. */
  ghost predicate Committable(b: WaylandBackend, tree: LayerMap<TreeInfo>, rank: LayerId -> nat)
    requires Acyclic(tree, rank)
  {
    forall l, a :: l in b.dirty && a in Ancestry(tree, rank, l) ==> Has(b.native, a)
  }

  lemma {:induction false} AddAncestorsSucceeds(layer: LayerId, order: seq<Commit>, visited: set<LayerId>,
                                                tree: LayerMap<TreeInfo>, native: LayerMap<NativeInfo>, rank: LayerId -> nat)
    requires Acyclic(tree, rank)
    requires forall a :: a in Ancestry(tree, rank, layer) ==> Has(native, a)
    ensures AddAncestors(layer, order, visited, tree, native).Some?
    decreases Unvisited(|tree|, visited)
  {
    if layer !in visited && ParentLayer(tree, layer).Some? {
      UnvisitedShrinks(|tree|, visited, layer);
      var p := ParentLayer(tree, layer).value;
      assert Ancestry(tree, rank, layer) == [layer] + Ancestry(tree, rank, p);
      AddAncestorsSucceeds(p, order, visited + {layer}, tree, native, rank);
    }
  }

  lemma {:induction false} CommitOrderSucceeds(drained: seq<LayerId>, order: seq<Commit>, visited: set<LayerId>,
                                               tree: LayerMap<TreeInfo>, native: LayerMap<NativeInfo>, rank: LayerId -> nat)
    requires Acyclic(tree, rank)
    requires forall i, a :: 0 <= i < |drained| && a in Ancestry(tree, rank, drained[i]) ==> Has(native, a)
    ensures CommitOrder(drained, order, visited, tree, native).Some?
    decreases |drained|
  {
    if |drained| > 0 {
      AddAncestorsSucceeds(drained[0], order, visited, tree, native, rank);
      var (order1, visited1) := AddAncestors(drained[0], order, visited, tree, native).value;
      assert forall i :: 0 <= i < |drained| - 1 ==> drained[1..][i] == drained[i + 1];
      CommitOrderSucceeds(drained[1..], order1, visited1, tree, native, rank);
    }
  }

  /** `end_transaction` does not panic when every dirty layer's parent chain has native records. */
  lemma CommittableCommits(b: WaylandBackend, drained: seq<LayerId>, tree: LayerMap<TreeInfo>, rank: LayerId -> nat)
    requires forall l :: l in drained <==> l in b.dirty
    requires Acyclic(tree, rank) && Committable(b, tree, rank)
    ensures EndTransaction(b, drained, tree).Some?
  {
    forall i, a | 0 <= i < |drained| && a in Ancestry(tree, rank, drained[i])
      ensures Has(b.native, a)
    {
      assert drained[i] in b.dirty;
    }
    CommitOrderSucceeds(drained, [], {}, tree, b.native, rank);
  }

  lemma {:induction false} NotInAncestry(tree: LayerMap<TreeInfo>, rank: LayerId -> nat, l: LayerId, gone: LayerId)
    requires Acyclic(tree, rank) && l != gone
    requires forall x :: Has(tree, x) ==> Index(tree, x).parent != Layer(gone)
    ensures gone !in Ancestry(tree, rank, l)
    decreases rank(l)
  {
    if Has(tree, l) && Index(tree, l).parent.Layer? {
      NotInAncestry(tree, rank, Index(tree, l).parent.id, gone);
    }
  }

  /**
   * With the correction, deleting a layer that no layer names as its parent
   * keeps a committable backend committable, so the transaction ends
   * without a panic.
   */
  lemma CorrectedDeleteCommits(b: WaylandBackend, layer: LayerId, drained: seq<LayerId>, tree: LayerMap<TreeInfo>, rank: LayerId -> nat)
    requires Acyclic(tree, rank) && Committable(b, tree, rank)
    requires forall x :: Has(tree, x) ==> Index(tree, x).parent != Layer(layer)
    requires forall l :: l in drained <==> l in DeleteLayerCorrected(b, layer).dirty
    ensures Committable(DeleteLayerCorrected(b, layer), tree, rank)
    ensures EndTransaction(DeleteLayerCorrected(b, layer), drained, tree).Some?
  {
    var d := DeleteLayerCorrected(b, layer);
    forall l, a | l in d.dirty && a in Ancestry(tree, rank, l)
      ensures Has(d.native, a)
    {
      NotInAncestry(tree, rank, l, layer);
      assert Get(d.native, a) == Get(b.native, a);
    }
    CommittableCommits(d, drained, tree, rank);
  }
}

=== FILE: wrappers.dfy ===
/** Optional values, the model of Rust's `Option<T>`. */
module Wrappers {

  datatype Option<+T> = None | Some(value: T) {

    /** The value if present, otherwise `default` (Rust's `unwrap_or`). */
    function GetOr(default: T): T {
      match this
      case Some(v) => v
      case None => default
    }
  }
}
